=== FILE: README.md ===
# Nova voice assistant: the text logic, modelled and proved in Dafny

Nova is a desktop voice assistant. It listens for a wake phrase, takes the
utterance that follows, decides what the utterance asks for, and hands it to
one of four category handlers: applications, system power, network and
utilities. A fifth handler, for web searches, exists beside them. Every
decision on the way is made on lower-cased text, by substring tests and a
handful of regular expressions whose priority is the insertion order of
Python dicts and lists. This project models those decisions and proves what
they imply.

The modules follow the source files:

| module | models |
|---|---|
| `CommandProcessor` | `nova/command_processor.py`: wake-word removal, the built-in intents, the category pattern table, the keyword fallback and the "not sure" reply |
| `VoiceRecognition` | `nova/voice_recognition.py`: wake detection on recognised text, wake-and-command extraction, the consecutive-error counter |
| `ResponseGenerator` | `nova/response_generator.py`: reply templates, status lines, list formatting, spoken durations |
| `AppCommands` | `commands/app_commands.py`: the three stages of app-name extraction, the application table, the open methods |
| `SystemCommands` | `commands/system_commands.py`: the dispatch, the delay parser, the confirmation replies, locking |
| `NetworkCommands` | `commands/network_commands.py`: the dispatch, the on/off decision, network-name extraction, connecting |
| `UtilityCommands` | `commands/utility_commands.py`: the dispatch, the utility table, the reports, the volume keys |
| `SearchCommands` | `commands/search_commands.py`: query extraction and the empty-query guard |
| `SystemInfo` | `utils/system_info.py`: `format_time_delta` and `get_mac_address` |
| `Patterns` | every regular expression above, written out as a matcher (`MatchAt` is one anchored attempt, `Find` is `re.search`) |
| `Text`, `Scan`, `Options`, `Effects` | Python's string operations, "first entry that passes" over an ordered table, `Option`, and the boundary to the machine |

Effects are data. A handler returns an `Outcome`: the reply and the list of
`Action`s it asked for, such as starting a program, running a shell command,
switching WiFi, pressing a volume key, speaking or stopping the assistant.
What the handlers observe of the machine comes from a `Host` value:

- the platform;
- which paths exist;
- whether each action raises, and with what message;
- whether each press of a volume key raises, press by press;
- the IP addresses, and the host name or the error that reading it raised;
- the process, CPU and memory readings;
- the formatted clock and date;
- the answer scraped from a search page;
- the index that `random.choice` picked.

Proofs hold for every `Host`.

The router is proved for any handlers. `CommandProcessor.Respond` takes the
four category handlers as function values. `CommandProcessor.Process` is
`Respond` with the assistant's own handlers. Each of those handlers is proved
never to stop the assistant. Together with `StopsOnlyOnRequest`, this gives:
the assistant stops exactly when a text reaches the exit or the
stop-listening intent.

Three details of the code that the model keeps as they are:

- **Wake prefix.** The first wake phrase in list order that starts the text is taken. `WakePhrasesPrefixFree` shows that at most one phrase can start a text, so this is also the longest one.
- **Wake-word removal.** One occurrence of the wake word is removed per call, so removing twice can differ from removing once (`RemoveWakeWordNotIdempotent`).
- **Trailing punctuation.** The router strips whitespace only. A trailing full stop or question mark stays in the text the handlers see.

## Model

| member | source | states |
|---|---|---|
| CommandProcessor.RemoveWakeWord | Hackathon_242VMTR01589/nova/command_processor.py:118-124 | A text that does not start with "nova", in any case, comes back unchanged; otherwise the result is the trimmed text after the wake word and the run of commas and whitespace that follows it, and it is never longer than the input |
| CommandProcessor.DropsOneWakeWord | Hackathon_242VMTR01589/nova/command_processor.py:121-123 | "nova " followed by a trimmed rest that does not start with a comma leaves exactly that rest |
| CommandProcessor.RemoveWakeWordNotIdempotent | Hackathon_242VMTR01589/nova/command_processor.py:121-123 | A text that says the wake word twice loses one occurrence per application, so applying the removal twice differs from applying it once |
| CommandProcessor.FirstKey | Hackathon_242VMTR01589/nova/command_processor.py:89-92 | The intent chosen is that of the first key, in table order, that occurs in the text; there is none exactly when no key occurs |
| CommandProcessor.FirstKeyWins | Hackathon_242VMTR01589/nova/command_processor.py:89-92 | A key that occurs, when no earlier key occurs, decides the intent |
| CommandProcessor.FirstRoute | Hackathon_242VMTR01589/nova/command_processor.py:126-139 | The category chosen is that of the first pattern, in table order, found anywhere in the text, and the match returned is that pattern's leftmost match; there is none exactly when no pattern is found |
| CommandProcessor.FirstRouteAtMost | Hackathon_242VMTR01589/nova/command_processor.py:133-137 | When the pattern at position p is found, the category chosen is that of position p or of an earlier position |
| CommandProcessor.KeywordCategory | Hackathon_242VMTR01589/nova/command_processor.py:103-113 | The fallback picks the first category, app before system before network before utility, that has a keyword occurring in the text; none exactly when no keyword occurs |
| CommandProcessor.RouteOf | Hackathon_242VMTR01589/nova/command_processor.py:79-116 | Only the empty text is silence; otherwise built-in intents are consulted before patterns, patterns before keywords, keywords before the unrecognized echo, each only when the one before found nothing, and all on the wake-stripped text |
| CommandProcessor.RunBuiltin | Hackathon_242VMTR01589/nova/command_processor.py:143-198 | Exit and stop listening stop the assistant and say their farewells, and no other intent does anything but reply; the greeting and the thanks come from their fixed lists; the time and date replies contain the clock's text |
| CommandProcessor.NotSure | Hackathon_242VMTR01589/nova/command_processor.py:116 | The reply to an unrecognized text quotes the command |
| CommandProcessor.Respond | Hackathon_242VMTR01589/nova/command_processor.py:79-116 | The empty text gets "I didn't catch that"; a built-in intent runs its handler; a pattern hands the category's handler the wake-stripped text and the match; a keyword hands it no match; anything else does nothing and echoes the wake-stripped text |
| CommandProcessor.WhichGreets | Hackathon_242VMTR01589/nova/command_processor.py:35-49 | Every text containing "which" is taken for a greeting, because "which" contains the key "hi" |
| CommandProcessor.TimeQuestion | Hackathon_242VMTR01589/nova/command_processor.py:35-49 | A text containing "time" and none of the greeting keys reaches the time intent |
| CommandProcessor.AppPatternWins | Hackathon_242VMTR01589/nova/command_processor.py:52-58 | Whenever any application pattern is found, the application category is chosen, whatever else matches |
| CommandProcessor.RestartPatternIsApp | Hackathon_242VMTR01589/nova/command_processor.py:56-61 | Wherever the restart pattern matches, the application category is chosen |
| CommandProcessor.OpenUtilityPatternIsApp | Hackathon_242VMTR01589/nova/command_processor.py:52-77 | Wherever the utility pattern `open\s+(control panel|task manager|file explorer)` matches, the application category is chosen |
| CommandProcessor.RestartComputerIsApp | Hackathon_242VMTR01589/nova/command_processor.py:94-99 | A text with no built-in key in which the restart pattern matches is routed to the application handler |
| CommandProcessor.OpenControlPanelIsApp | Hackathon_242VMTR01589/nova/command_processor.py:94-99 | A text with no built-in key in which the utility open pattern matches is routed to the application handler |
| CommandProcessor.RestartKeywordSaysStart | Hackathon_242VMTR01589/nova/command_processor.py:103-107 | The keyword "restart" contains the app keyword "start", so the fallback picks the application category for it |
| CommandProcessor.RestartKeywordIsApp | Hackathon_242VMTR01589/nova/command_processor.py:97-107 | A text that matches no pattern and says "restart" falls back to the application handler, not the system handler |
| CommandProcessor.AppNeverStops | Hackathon_242VMTR01589/commands/app_commands.py:92-109 | The application handler never stops the assistant, whatever it is given |
| CommandProcessor.NetworkNeverStops | Hackathon_242VMTR01589/commands/network_commands.py:29-75 | The network handler never stops the assistant |
| CommandProcessor.UtilityNeverStops | Hackathon_242VMTR01589/commands/utility_commands.py:67-109 | The utility handler never stops the assistant |
| CommandProcessor.StopsOnlyOnRequest | Hackathon_242VMTR01589/nova/command_processor.py:190-198 | With handlers that never stop the assistant, the assistant is stopped if and only if the text reaches the exit or the stop-listening intent |
| VoiceRecognition.HeardWake | Hackathon_242VMTR01589/nova/voice_recognition.py:110-122 | A wake phrase is heard exactly when the text contains the wake word or one of the alternate phrases |
| VoiceRecognition.WakeReduces | Hackathon_242VMTR01589/nova/voice_recognition.py:30-33 | Three alternates contain "nova", so hearing a wake phrase is the same as containing "nova", "hey nowa" or "hi nowa" |
| VoiceRecognition.CommandAfter | Hackathon_242VMTR01589/nova/voice_recognition.py:160-164 | A phrase gives a command exactly when it starts the text and the trimmed rest after its length is not empty, and the command is that rest |
| VoiceRecognition.ExtractCommand | Hackathon_242VMTR01589/nova/voice_recognition.py:159-172 | A command is non-empty, trimmed, and the rest of the text after a wake phrase that starts it; there is none exactly when no phrase gives one |
| VoiceRecognition.WakePhrasesPrefixFree | Hackathon_242VMTR01589/nova/voice_recognition.py:30-33 | At most one wake phrase starts any text, so the first-in-list choice is also the longest-prefix choice |
| VoiceRecognition.ExtractCommandRoundTrip | Hackathon_242VMTR01589/nova/voice_recognition.py:159-172 | Saying any wake phrase, a space and a trimmed command yields exactly that command |
| VoiceRecognition.ListenForAudio | Hackathon_242VMTR01589/nova/voice_recognition.py:42-63 | A recalibration is due exactly when the counter exceeds three. If it succeeds the counter is reset, a failed capture then adds one, a timeout adds nothing, and audio comes back only from a capture. If it raises, the reset and the capture are skipped and the counter goes up by one |
| VoiceRecognition.RecognizeSpeech | Hackathon_242VMTR01589/nova/voice_recognition.py:65-91 | A transcript resets the counter and comes back lower-cased; an unintelligible result leaves the counter alone; service and other errors add one; no audio changes nothing |
| VoiceRecognition.Hear | Hackathon_242VMTR01589/nova/voice_recognition.py:98-106 | Text that was heard is non-empty and lower case and leaves the counter at zero; the counter is reset exactly when a due recalibration succeeds, and one round raises it by at most one above its value after that |
| VoiceRecognition.DetectWakeWord | Hackathon_242VMTR01589/nova/voice_recognition.py:93-122 | The wake word is detected exactly when text was heard and it holds a wake phrase |
| VoiceRecognition.DetectWakeWordAndCommandAsWritten | Hackathon_242VMTR01589/nova/voice_recognition.py:140-177 | As the code is written, the wake acknowledgement fires exactly when text was heard and no command was extracted from it |
| VoiceRecognition.AnnouncesWithoutWakeWord | Hackathon_242VMTR01589/nova/voice_recognition.py:174-177 | Any heard text without a wake phrase triggers the acknowledgement in the code as written, and does not in the corrected detection |
| VoiceRecognition.NoWakeInOpenChrome | Hackathon_242VMTR01589/nova/voice_recognition.py:110-122 | "open chrome" holds no wake phrase, so it is an input that shows the acknowledgement firing without one |
| VoiceRecognition.DetectWakeWordAndCommand | Hackathon_242VMTR01589/nova/voice_recognition.py:140-177 | Corrected: a command comes with no acknowledgement, and the acknowledgement fires exactly when a wake phrase was heard without a command |
| VoiceRecognition.CommandImpliesWake | Hackathon_242VMTR01589/nova/voice_recognition.py:159-172 | A command is only ever extracted from text in which a wake phrase is heard |
| VoiceRecognition.ListenForCommand | Hackathon_242VMTR01589/nova/voice_recognition.py:124-138 | The acknowledgement fires before every capture, and the command is what the capture heard |
| VoiceRecognition.Replay | Hackathon_242VMTR01589/nova/voice_recognition.py:42-91 | Over any sequence of listening rounds the counter exceeds four only by the number of rounds whose recalibration would raise, and every recalibration is paid for by four failures |
| ResponseGenerator.FillContainsField | Hackathon_242VMTR01589/nova/response_generator.py:53-66 | Filling a template that has the action (reason) field puts the action (reason) into the text |
| ResponseGenerator.SuccessResponse | Hackathon_242VMTR01589/nova/response_generator.py:53-56 | Whichever success template is picked, the reply mentions the action |
| ResponseGenerator.ErrorResponse | Hackathon_242VMTR01589/nova/response_generator.py:58-61 | Every error template mentions the reason, and the first three also mention the action |
| ResponseGenerator.ClarificationResponse | Hackathon_242VMTR01589/nova/response_generator.py:63-66 | Every clarification is a question that mentions the action |
| ResponseGenerator.Affirmation | Hackathon_242VMTR01589/nova/response_generator.py:68-70 | An affirmation is one of the five fixed phrases |
| ResponseGenerator.StatusKey | Hackathon_242VMTR01589/nova/response_generator.py:77 | Character by character: the first character, with an underscore read as a space, is upper-cased and every later one is lower-cased; no underscore is left |
| ResponseGenerator.FormatSystemStatus | Hackathon_242VMTR01589/nova/response_generator.py:72-80 | No entries give "."; one entry gives its "Key: value" line and a full stop; the status starts with the first entry's line, contains every entry's line and ends in a full stop |
| ResponseGenerator.StatusSnoc | Hackathon_242VMTR01589/nova/response_generator.py:74-80 | One more entry adds ". " and its line before the closing full stop, so the lines come in entry order |
| ResponseGenerator.TwoStatusLines | Hackathon_242VMTR01589/nova/response_generator.py:74-80 | Two entries give the first line, ". ", the second line and a full stop |
| ResponseGenerator.FormatListItems | Hackathon_242VMTR01589/nova/response_generator.py:82-91 | No items give the fixed reply; one item gives the intro, a space, the item and a full stop; otherwise the list starts with the intro and a space and ends in a full stop, and from two items on the last is preceded by ", and " |
| ResponseGenerator.ListMentionsEach | Hackathon_242VMTR01589/nova/response_generator.py:82-91 | Every item occurs in the formatted list |
| ResponseGenerator.TwoItems | Hackathon_242VMTR01589/nova/response_generator.py:90-91 | Two items are joined with a serial comma: "a, and b" |
| ResponseGenerator.ListPrepend | Hackathon_242VMTR01589/nova/response_generator.py:90-91 | An item put in front of two or more items is followed by ", " and then the rest of the list as it is spoken on its own |
| ResponseGenerator.ThreeItems | Hackathon_242VMTR01589/nova/response_generator.py:90-91 | Three items are spoken "a, b, and c" |
| ResponseGenerator.DurationOf | Hackathon_242VMTR01589/nova/response_generator.py:93-103 | Below a minute the seconds are kept; then whole minutes below an hour; then whole hours and the minutes left over, each bucket bracketing the input within a minute |
| ResponseGenerator.Counted | Hackathon_242VMTR01589/nova/response_generator.py:96 | The count, a space and the unit, followed by "s" exactly when the count is not one |
| ResponseGenerator.FormatTimeDuration | Hackathon_242VMTR01589/nova/response_generator.py:93-107 | Below 60 the seconds are counted; below 3600 the whole minutes; from there the whole hours, with " and " and the minutes left over when those are not zero |
| ResponseGenerator.SecondsDropped | Hackathon_242VMTR01589/nova/response_generator.py:98-100 | From a minute up, durations within the same whole minute are spoken alike |
| ResponseGenerator.DurationOfHours | Hackathon_242VMTR01589/nova/response_generator.py:102-103 | A whole number of hours and minutes is bucketed into exactly those hours and minutes |
| ResponseGenerator.ExampleSeconds | Hackathon_242VMTR01589/nova/response_generator.py:95-96 | One second is singular and 45 seconds plural |
| ResponseGenerator.HoursAndMinutes | Hackathon_242VMTR01589/nova/response_generator.py:102-107 | Whole hours and a non-zero number of minutes are spoken as both counts joined by " and " |
| ResponseGenerator.WholeHours | Hackathon_242VMTR01589/nova/response_generator.py:105-106 | Whole hours are spoken without minutes |
| ResponseGenerator.ExampleHour | Hackathon_242VMTR01589/nova/response_generator.py:105-106 | 3600 seconds is "1 hour" |
| AppCommands.ExtractAppName | Hackathon_242VMTR01589/commands/app_commands.py:111-130 | With a match the name is its group, stripped and lower-cased; else the group of `(open|launch|start|run)\s+([\w\s]+)`; else the stripped text after the first verb, in list order, that occurs; there is no name exactly when no verb occurs; every name is trimmed |
| AppCommands.ExtractAppNameRoundTrip | Hackathon_242VMTR01589/commands/app_commands.py:117-121 | A verb, a space and a lower-case trimmed name of word characters and spaces yields exactly that name |
| AppCommands.Run | Hackathon_242VMTR01589/commands/app_commands.py:172-178 | A launch succeeds exactly when it does not raise, with an empty message, and otherwise reports the exception's text |
| AppCommands.Open | Hackathon_242VMTR01589/commands/app_commands.py:158-186 | An executable starts from its first path that exists, the alternative only when it is not empty, and otherwise fails with "Application path not found." without starting anything; a Windows app starts its program; the browser opens Google |
| AppCommands.AppLookup | Hackathon_242VMTR01589/commands/app_commands.py:141-142 | The entry used is the first, in table order, whose key occurs in the name or that occurs in the key; none exactly when no entry qualifies |
| AppCommands.OpenApplication | Hackathon_242VMTR01589/commands/app_commands.py:132-156 | The first table entry the normalised name selects is opened with that entry's own method; the shell is used exactly when no entry matches, and then the shell command is the name itself, failing only when the launch raises |
| AppCommands.Reply | Hackathon_242VMTR01589/commands/app_commands.py:106-109 | The reply names the application, as "Opening X." on success and with the failure message otherwise |
| AppCommands.Process | Hackathon_242VMTR01589/commands/app_commands.py:92-109 | Without a name, or with an empty one, the reply is the fixed clarification and nothing is opened; otherwise exactly the opening's actions happen and the reply names the application |
| AppCommands.SpokenNameOpens | Hackathon_242VMTR01589/commands/app_commands.py:98-104 | Whatever the verb, "verb name" opens the name as spoken |
| AppCommands.GoogleChromeOpensChrome | Hackathon_242VMTR01589/commands/app_commands.py:138-149 | "google chrome" selects the chrome entry, and when Chrome's first path exists it is started from there |
| AppCommands.BareVerbAsksForName | Hackathon_242VMTR01589/commands/app_commands.py:124-130 | "open" alone leaves an empty name, so the reply is the clarification and nothing is launched |
| SystemCommands.Anchored | Hackathon_242VMTR01589/commands/system_commands.py:40-43 | The router's matched text selects the first handler pattern, in table order, that matches at its start |
| SystemCommands.Searched | Hackathon_242VMTR01589/commands/system_commands.py:46-48 | The first handler pattern found anywhere in the lower-cased text selects its command |
| SystemCommands.ByKeyword | Hackathon_242VMTR01589/commands/system_commands.py:51-62 | The keyword chain picks the first command, in the order shutdown, restart, logout, lock, sleep, hibernate, one of whose keywords occurs |
| SystemCommands.Choose | Hackathon_242VMTR01589/commands/system_commands.py:37-62 | The router's match against the anchored table decides first, then the searched table, then the keyword chain, each only when the one before found nothing; no command is chosen exactly when all three find nothing |
| SystemCommands.ShutdownKeywordFirst | Hackathon_242VMTR01589/commands/system_commands.py:51-52 | Once no pattern matched, "shutdown" or "turn off" anywhere selects shutdown, whatever else the text says |
| SystemCommands.TimeDelay | Hackathon_242VMTR01589/commands/system_commands.py:201-222 | A number of seconds is preferred to minutes, and minutes to hours; minutes count 60 and hours 3600; the delay is zero unless one of them is found |
| SystemCommands.DelayAtStart | Hackathon_242VMTR01589/commands/system_commands.py:207-209 | A number followed by a space and a unit is read back as that number |
| SystemCommands.SpokenSeconds | Hackathon_242VMTR01589/commands/system_commands.py:207-209 | "N seconds" is a delay of N |
| SystemCommands.SpokenMinutes | Hackathon_242VMTR01589/commands/system_commands.py:211-214 | "N minutes" is a delay of 60 N |
| SystemCommands.SpokenHours | Hackathon_242VMTR01589/commands/system_commands.py:216-219 | "N hours" is a delay of 3600 N |
| SystemCommands.When | Hackathon_242VMTR01589/commands/system_commands.py:75-78 | The timing phrase is " now" exactly for no delay, and " in N seconds" for a delay of N |
| SystemCommands.Confirm | Hackathon_242VMTR01589/commands/system_commands.py:116-123 | A confirming handler speaks its question and replies that it acts after confirmation |
| SystemCommands.LockNow | Hackathon_242VMTR01589/commands/system_commands.py:137-152 | Windows locks the workstation and reports a failure; macOS and Linux run their screen-lock command and always say "Locking your computer." |
| SystemCommands.Subject | Hackathon_242VMTR01589/commands/system_commands.py:68-184 | Shutdown and restart name their action and the timing phrase of the delay read from the text; logout, sleep and hibernation have their fixed subjects |
| SystemCommands.Execute | Hackathon_242VMTR01589/commands/system_commands.py:68-199 | Every command but lock only asks for confirmation of its own subject; no shutdown, restart, logout, sleep or hibernation is ever carried out |
| SystemCommands.ShutdownConfirmation | Hackathon_242VMTR01589/commands/system_commands.py:68-78 | A shutdown replies "I'll shut down your computer in N seconds after confirmation." for a delay of N, and "… now after confirmation." without one |
| SystemCommands.RestartConfirmation | Hackathon_242VMTR01589/commands/system_commands.py:92-102 | A restart replies "I'll restart your computer in N seconds after confirmation." for a delay of N, and "… now after confirmation." without one |
| SystemCommands.LogoutConfirmation | Hackathon_242VMTR01589/commands/system_commands.py:116-123 | Logging out asks "I'll log you out. Are you sure?" and replies "I'll log you out after confirmation." |
| SystemCommands.SleepConfirmation | Hackathon_242VMTR01589/commands/system_commands.py:154-161 | Sleep asks "I'll put your computer to sleep. Are you sure?" and replies with the same subject "after confirmation." |
| SystemCommands.HibernateConfirmation | Hackathon_242VMTR01589/commands/system_commands.py:177-184 | Hibernation asks "I'll hibernate your computer. Are you sure?" and replies with the same subject "after confirmation." |
| SystemCommands.Process | Hackathon_242VMTR01589/commands/system_commands.py:32-66 | The fixed "not sure" message is the reply exactly when no command is chosen; otherwise the chosen command runs |
| SystemCommands.UnknownIsNoReply | Hackathon_242VMTR01589/commands/system_commands.py:64-66 | No command's outcome is the "not sure" message |
| SystemCommands.ShutdownNamesDelay | Hackathon_242VMTR01589/commands/system_commands.py:32-78 | The text "shutdown in N minutes", with no match from the router, is handled as a shutdown whose confirmation names 60 N seconds |
| SystemCommands.LacksLetters | Hackathon_242VMTR01589/commands/system_commands.py:23-30 | A text without the letters c, l and y matches none of the handler patterns |
| SystemCommands.DelayAfter | Hackathon_242VMTR01589/commands/system_commands.py:207-214 | After text without digits, a number, a space and a unit are read back as that number of the unit |
| NetworkCommands.TurnOn | Hackathon_242VMTR01589/commands/network_commands.py:80-86 | With a match the radio goes on exactly when the captured word is "on"; without one, exactly when "on" occurs and "off" does not |
| NetworkCommands.SwitchWifiTo | Hackathon_242VMTR01589/commands/network_commands.py:88-107 | Only Windows switches WiFi, and reports the new state or the error; elsewhere the reply says WiFi control is Windows-only |
| NetworkCommands.SwitchBluetoothTo | Hackathon_242VMTR01589/commands/network_commands.py:120-128 | Bluetooth is never switched: Windows replies that control is not fully implemented and that it would enable or disable Bluetooth as asked; elsewhere the reply is Windows-only |
| NetworkCommands.ShowAddresses | Hackathon_242VMTR01589/commands/network_commands.py:130-160 | When the socket or the host name cannot be read, the reply is the error reply with its message; otherwise the report starts "Your local IP address is" and names the local address or 127.0.0.1, the host name, and the public address or "Could not determine" |
| NetworkCommands.DisconnectSaysConnect | Hackathon_242VMTR01589/commands/network_commands.py:166 | A text that says "disconnect" also says "connect" and is never a connection request |
| NetworkCommands.NameFromWords | Hackathon_242VMTR01589/commands/network_commands.py:174-182 | The name is the words after the first "to" word, or none when that word is last; without a "to" word, the words after the first "from" word in the same way; none when neither word occurs |
| NetworkCommands.NameFromWordsRoundTrip | Hackathon_242VMTR01589/commands/network_commands.py:174-178 | "connect to" followed by words none of which is "to" names exactly those words |
| NetworkCommands.DropTrailingPunct | Hackathon_242VMTR01589/commands/network_commands.py:188 | One trailing mark from `.,;!?` is removed, and nothing else changes |
| NetworkCommands.DropTrailingPunctRoundTrip | Hackathon_242VMTR01589/commands/network_commands.py:188 | Adding one mark and removing it gives the name back; of two marks one survives |
| NetworkCommands.ConnectionName | Hackathon_242VMTR01589/commands/network_commands.py:169-182 | With a match the name is its network group, stripped; otherwise it comes from the words |
| NetworkCommands.Connection | Hackathon_242VMTR01589/commands/network_commands.py:190-208 | Only Windows connects or disconnects, connecting to exactly the name given; success replies "Connected to NAME." or "Disconnected from the current network.", and a call that raises gives the error reply with its message |
| NetworkCommands.ManageAsWritten | Hackathon_242VMTR01589/commands/network_commands.py:162-208 | As written, the clarification is the reply exactly when the name is missing or empty before its punctuation is removed, so on Windows a connection request whose network group is "?" asks to join the network with the empty name |
| NetworkCommands.ConnectsToEmptyName | Hackathon_242VMTR01589/commands/network_commands.py:184-195 | "connect to ?" on Windows asks to connect to a network with an empty name |
| NetworkCommands.Manage | Hackathon_242VMTR01589/commands/network_commands.py:162-208 | Corrected: no connection to an empty name is ever requested, and the clarification is the reply exactly when the name is missing or empty once punctuation is removed |
| NetworkCommands.Anchored | Hackathon_242VMTR01589/commands/network_commands.py:36-40 | The router's matched text selects the first handler pattern that matches at its start; none exactly when none does |
| NetworkCommands.Searched | Hackathon_242VMTR01589/commands/network_commands.py:43-46 | The first handler pattern, in table order, found in the text selects its handler together with that pattern's leftmost match; none exactly when no pattern is found |
| NetworkCommands.Run | Hackathon_242VMTR01589/commands/network_commands.py:22-27 | Each pattern leads to its handler: the toggles follow the captured word, the address report, and the connection manager as the code writes it |
| NetworkCommands.TopicOf | Hackathon_242VMTR01589/commands/network_commands.py:49-71 | Each topic is chosen exactly when its words occur and no earlier topic's do: WiFi ("wifi" or "wireless"), then Bluetooth, then the address ("ip"), then connections ("connect"); otherwise none |
| NetworkCommands.ByKeyword | Hackathon_242VMTR01589/commands/network_commands.py:49-75 | For WiFi and for Bluetooth, "on" switches on, otherwise "off" switches off, otherwise the radio is asked about; the address topic shows the addresses; connections ask for a name; no topic gives the fixed suggestion |
| NetworkCommands.ProcessOnlyNetworks | Hackathon_242VMTR01589/commands/network_commands.py:29-75 | The network handler only ever switches WiFi or joins or leaves a wireless network |
| NetworkCommands.Process | Hackathon_242VMTR01589/commands/network_commands.py:29-75 | The anchored table decides first, with the router's match; then the searched table, with its own match; then the keyword chain |
| NetworkCommands.OnlyWindowsActs | Hackathon_242VMTR01589/commands/network_commands.py:29-75 | Off Windows the network handler asks the machine to do nothing |
| UtilityCommands.OpenUtility | Hackathon_242VMTR01589/commands/utility_commands.py:111-117 | The command goes to the shell, and the reply names the utility whether or not the launch raised |
| UtilityCommands.Processes | Hackathon_242VMTR01589/commands/utility_commands.py:131-150 | Each of the first ten processes is named in the reply; none gives the fixed reply; a failure reports its message |
| UtilityCommands.CoreLines | Hackathon_242VMTR01589/commands/utility_commands.py:163 | One line per core, numbered from zero in order |
| UtilityCommands.Cpu | Hackathon_242VMTR01589/commands/utility_commands.py:152-168 | The reply names the overall figure and every core's line |
| UtilityCommands.Memory | Hackathon_242VMTR01589/commands/utility_commands.py:170-187 | The reply names the percentage, the gigabytes used and the total |
| UtilityCommands.Press | Hackathon_242VMTR01589/commands/utility_commands.py:202-216 | Every press is of the same key; when no press raises all are made; otherwise the presses stop at the first that raises, which is still made, and its error is returned |
| UtilityCommands.AdjustVolume | Hackathon_242VMTR01589/commands/utility_commands.py:189-226 | Mute is looked for before up, up before down, down before "to"; only Windows presses keys, mute once and up and down five times each, stopping at the first press that raises and reporting its error; "to" is never implemented; anything else ends in the "not sure" reply |
| UtilityCommands.PressCounts | Hackathon_242VMTR01589/commands/utility_commands.py:196-216 | A volume request presses at most five keys, all the same, and reaches the fifth only when the first four presses succeeded |
| UtilityCommands.Anchored | Hackathon_242VMTR01589/commands/utility_commands.py:75-78 | The router's matched text selects the first handler pattern that matches at its start |
| UtilityCommands.Searched | Hackathon_242VMTR01589/commands/utility_commands.py:81-83 | The first handler pattern found in the text selects its utility |
| UtilityCommands.ByMapping | Hackathon_242VMTR01589/commands/utility_commands.py:86-89 | A table entry is used only when the text says "open", and then it is the first entry whose name occurs |
| UtilityCommands.ByKeyword | Hackathon_242VMTR01589/commands/utility_commands.py:92-105 | The chain picks the first utility whose cue is heard, cpu and memory needing "usage" or "load" too |
| UtilityCommands.Run | Hackathon_242VMTR01589/commands/utility_commands.py:119-129 | Control Panel, Task Manager and File Explorer go to the shell as `control`, `taskmgr` and `explorer`; the reports read the machine; only the volume handler reads the text |
| UtilityCommands.Process | Hackathon_242VMTR01589/commands/utility_commands.py:67-109 | The anchored table, the searched table, the utility table and the keyword chain decide in that order, and the fixed message ends the chain |
| UtilityCommands.ControlPanelAlwaysOpens | Hackathon_242VMTR01589/commands/utility_commands.py:86-93 | Once no pattern matched, a text saying "control panel" opens the Control Panel whether or not it says "open" |
| UtilityCommands.RunNeverOpensSettings | Hackathon_242VMTR01589/commands/utility_commands.py:119-129 | No utility reached through a table opens Windows Settings |
| UtilityCommands.ProcessOnlyUtilities | Hackathon_242VMTR01589/commands/utility_commands.py:67-109 | The utility handler only ever runs shell commands or presses volume keys |
| UtilityCommands.SettingsNeedsOpen | Hackathon_242VMTR01589/commands/utility_commands.py:86-89 | Windows Settings is opened only for a text that says "open" |
| SearchCommands.QueryAfter | Hackathon_242VMTR01589/commands/search_commands.py:63-67 | A prefix gives a query exactly when it occurs and something other than whitespace follows its first occurrence; the query is then the text after that first occurrence, stripped |
| SearchCommands.FirstQuery | Hackathon_242VMTR01589/commands/search_commands.py:62-67 | The query comes from the first prefix, in list order, that gives one; prefixes that leave nothing are skipped |
| SearchCommands.FirstQueryWins | Hackathon_242VMTR01589/commands/search_commands.py:62-67 | A prefix that gives a query, when no earlier prefix does, decides the query |
| SearchCommands.ExtractSearchQuery | Hackathon_242VMTR01589/commands/search_commands.py:40-77 | The query is never longer than the text, and is empty only for the empty text |
| SearchCommands.QueryAfterPrefixRoundTrip | Hackathon_242VMTR01589/commands/search_commands.py:42-67 | A prefix, a space and a trimmed query, with no earlier prefix in the text, yields exactly that query, so "search for x" gives "x" |
| SearchCommands.NoPrefixWholeText | Hackathon_242VMTR01589/commands/search_commands.py:69-77 | When no prefix gives a query, the whole lower-cased text is the query |
| SearchCommands.PrefixQuery | Hackathon_242VMTR01589/commands/search_commands.py:63-67 | A prefix at the start followed by a space and a trimmed query gives that query |
| SearchCommands.Process | Hackathon_242VMTR01589/commands/search_commands.py:19-38 | The empty text gets the clarification; a non-empty answer from the page is the reply; otherwise a browser opens on the query and the reply names it |
| SearchCommands.Opened | Hackathon_242VMTR01589/commands/search_commands.py:36-38 | The browser opens on the query and the reply names it |
| SystemInfo.DeltaOf | Hackathon_242VMTR01589/utils/system_info.py:123-137 | Below a minute the seconds are kept; below an hour minutes and seconds add up to the input; below a day hours and minutes bracket it within a minute; from a day on, days, hours under 24 and minutes under 60 do |
| SystemInfo.FormatTimeDelta | Hackathon_242VMTR01589/utils/system_info.py:123-137 | Below 60 the seconds; below 3600 the whole minutes and the seconds left; below 86400 the whole hours and the minutes left; from there the whole days, hours and minutes, every unit in the plural |
| SystemInfo.FormatTimeDeltaExactBelowAnHour | Hackathon_242VMTR01589/utils/system_info.py:128-130 | Between one minute and one hour, different spans are spoken differently |
| SystemInfo.FormatTimeDeltaDropsSeconds | Hackathon_242VMTR01589/utils/system_info.py:132-134 | From an hour up the seconds are dropped: 3600 and 3601 both give "1 hours, 0 minutes" |
| SystemInfo.MacAddressAsWritten | Hackathon_242VMTR01589/utils/system_info.py:139-143 | As written, the address is two groups of two lower-case hexadecimal digits around one colon, and decodes to the node number modulo 2^16: only two bytes survive |
| SystemInfo.MacAddressAsWrittenCollides | Hackathon_242VMTR01589/utils/system_info.py:141-142 | As written, node numbers 2^16 apart give the same address |
| SystemInfo.MacAddress | Hackathon_242VMTR01589/utils/system_info.py:139-143 | Corrected to six bytes, the address is six groups of two lower-case hexadecimal digits separated by colons, 17 characters long, and decodes to the node number modulo 2^48 |
| SystemInfo.MacAddressInjective | Hackathon_242VMTR01589/utils/system_info.py:139-143 | Corrected, two node numbers that differ in their low 48 bits get different addresses |
| Patterns.Find | Hackathon_242VMTR01589/nova/command_processor.py:135 | A search returns the match at the leftmost position where the pattern matches, and nothing exactly when it matches nowhere |
| Patterns.OpenUtilityImpliesOpenAny | Hackathon_242VMTR01589/nova/command_processor.py:52-77 | Wherever the utility open pattern matches, the application open pattern matches too |
| Patterns.RestartImpliesStartAny | Hackathon_242VMTR01589/nova/command_processor.py:56-61 | Whenever the restart pattern is found, the application start pattern is found too, since "restart" ends in "start" |

## Left out

- Microphone capture, the speech service, text-to-speech, the GUI, threads and `main.py` are not modelled. Recalibration, capture and recognition are reduced to the outcome they report (`Session`, `Recognition`), and speaking is an `Action`. Opening the microphone is assumed to succeed: it sits outside the `try` of `listen_for_audio`, and a failure there would end the caller.
- The listening loop of `nova/assistant.py` is not part of this model. Its point is concurrency between threads. The wake and command decisions it relies on are modelled in `VoiceRecognition`.
- Every call into the operating system, the network, `psutil`, `subprocess`, `ctypes` and `webbrowser` becomes an `Action`. Whether it raises is `Host.attempt`.
- The launch through the shell and `os.system` raise only when they cannot be started. A non-zero exit status is not a failure, as in the source.
- `datetime.now()` and `random.choice` become `Host` values: the clock and date already formatted, and the picked index.
- Floating-point formatting is left to the machine. CPU percentages, memory gigabytes and `format_bytes` arrive in the `Host` as text.
- `search_google` scraping and `urllib.parse.quote_plus` are `Host.webAnswer` and the `OpenSearch` action. The search handler is modelled on its own: the router in `command_processor.py` never routes to it.
- The `{username}` rewrite of the Spotify path (`app_commands.py:144-146`) is left out. It reads an environment variable and mutates the table, so the path keeps its placeholder.
- Lower-casing and the classes `\w` and `\d` are ASCII only; Python's Unicode case mapping is not modelled. Whitespace is Python's full `str.isspace()` set.
- `re.IGNORECASE` is modelled by matching on lower-cased text. This agrees with the source only for ASCII letters.
- The `except` branches of `_shutdown`, `_restart`, `_logout`, `_sleep` and `_hibernate` are left out. Their `try` holds only a `speak` call and string formatting, and speaking is an `Action` that is not given a failure.
- `NameFromWords` models the fallback on the words of the text, which `_manage_network_connection` takes when it has no match. In the running program it is never taken: the handler is reached only through the `Connect` pattern, whose match always has the `network` group, and the keyword chain replies without calling it.
- The delay pattern `(\d+)\s+unit` is searched by its own function, `Patterns.FindDelay`. It is not a case of `Patterns.Pattern`, because its unit is a parameter.
- CommandProcessor.Process: carries no contract of its own. Its properties are stated for `Respond` over any handlers, and the four `NeverStops` lemmas discharge them for the assistant's handlers.
- SearchCommands.ExtractSearchQuery: its own contract states only length and emptiness. Which prefix decides is stated by `FirstQuery`, `FirstQueryWins` and `QueryAfterPrefixRoundTrip`.

## Findings

| source | as written | input that shows it | evidently intended | confidence | as-written member | corrected member |
|---|---|---|---|---|---|---|
| Hackathon_242VMTR01589/utils/system_info.py:141-142 | `range(0, 2*6, 8)` yields the shifts 0 and 8 only, so the "MAC address" has two bytes | node numbers 0 and 65536 give the same string "00:00" | the six bytes of a 48-bit address, `range(0, 6*8, 8)` | high; not executed | SystemInfo.MacAddressAsWrittenCollides | SystemInfo.MacAddress |
| Hackathon_242VMTR01589/nova/voice_recognition.py:174-177 | the wake acknowledgement fires whenever no command was extracted, even when no wake phrase was heard | the utterance "open chrome" | as the comment above the call says, acknowledge only when the wake word was heard without a command | medium; not executed | VoiceRecognition.AnnouncesWithoutWakeWord | VoiceRecognition.DetectWakeWordAndCommand |
| Hackathon_242VMTR01589/commands/network_commands.py:184-188 | the name is checked for emptiness before its trailing punctuation is removed | "connect to ?" on Windows requests a connection to the empty name | remove the punctuation, then check for emptiness | medium; not executed | NetworkCommands.ManageAsWritten | NetworkCommands.Manage |

=== FILE: app_commands.dfy ===
/** The application handler: where the name of the application comes from,
    which table entry it selects, and what the reply says. Launching is an
    `Action` whose failure the `Host` decides. */
module AppCommands {
  import opened Options
  import opened Text
  import opened Scan
  import opened Patterns
  import opened Effects

  /** How a table entry is opened: `_open_executable` with a path and an
      alternative path, `_open_windows_app` with a program name, or
      `_open_default_browser`. */
  datatype Opener =
    | Executable(path: string, altPath: string)
    | WindowsApp(program: string)
    | DefaultBrowser

  datatype App = App(key: string, opener: Opener)

  /** The application table, in its insertion order. */
  const Apps: seq<App> := [
    App("chrome", Executable(ChromePath, ChromeAltPath)),
    App("firefox", Executable(FirefoxPath, FirefoxAltPath)),
    App("edge", Executable(EdgePath, "")),
    App("browser", DefaultBrowser),
    App("word", Executable(WordPath, WordAltPath)),
    App("excel", Executable(ExcelPath, ExcelAltPath)),
    App("powerpoint", Executable(PowerPointPath, PowerPointAltPath)),
    App("calculator", WindowsApp("calc.exe")),
    App("notepad", WindowsApp("notepad.exe")),
    App("paint", WindowsApp("mspaint.exe")),
    App("spotify", Executable(SpotifyPath, "")),
    App("vlc", Executable(VlcPath, VlcAltPath))
  ]

  const ChromePath := @"C:\Program Files\Google\Chrome\Application\chrome.exe"
  const ChromeAltPath := @"C:\Program Files (x86)\Google\Chrome\Application\chrome.exe"
  const FirefoxPath := @"C:\Program Files\Mozilla Firefox\firefox.exe"
  const FirefoxAltPath := @"C:\Program Files (x86)\Mozilla Firefox\firefox.exe"
  const EdgePath := @"C:\Program Files (x86)\Microsoft\Edge\Application\msedge.exe"
  const WordPath := @"C:\Program Files\Microsoft Office\root\Office16\WINWORD.EXE"
  const WordAltPath := @"C:\Program Files (x86)\Microsoft Office\root\Office16\WINWORD.EXE"
  const ExcelPath := @"C:\Program Files\Microsoft Office\root\Office16\EXCEL.EXE"
  const ExcelAltPath := @"C:\Program Files (x86)\Microsoft Office\root\Office16\EXCEL.EXE"
  const PowerPointPath := @"C:\Program Files\Microsoft Office\root\Office16\POWERPNT.EXE"
  const PowerPointAltPath := @"C:\Program Files (x86)\Microsoft Office\root\Office16\POWERPNT.EXE"
  /** The `{username}` placeholder is left in place; see the README. */
  const SpotifyPath := @"C:\Users\{username}\AppData\Roaming\Spotify\Spotify.exe"
  const VlcPath := @"C:\Program Files\VideoLAN\VLC\vlc.exe"
  const VlcAltPath := @"C:\Program Files (x86)\VideoLAN\VLC\vlc.exe"

  const NoAppName := "I didn't catch which application you want to open. Can you specify the application name?"
  const PathNotFound := "Application path not found."
  const NotFound := "Application not found or could not be opened."
  const HomePage := "https://www.google.com"

  // ---------------------------------------------------------------------------
  // The application name
  // ---------------------------------------------------------------------------

  /** `_extract_app_name`. `hit` is the router's match; the router only hands
      this handler matches of its application patterns, whose one group is
      the name. Without a hit, `(open|launch|start|run)\s+([\w\s]+)` is
      searched, and failing that the text after the first occurrence of the
      first verb that occurs is taken, which may be empty. */
  function ExtractAppName(text: string, hit: Option<Hit>): (r: Option<string>)
    ensures r.Some? ==> Trimmed(r.value)
    ensures hit.Some? ==> r == Some(Strip(Lower(hit.value.slot)))
    ensures hit.None? && Find(VerbWords, Lower(text)).Some? ==> r == Some(Strip(Find(VerbWords, Lower(text)).value.slot))
    ensures hit.None? && Find(VerbWords, Lower(text)).None? ==>
              forall k :: 0 <= k < |AppVerbs| && Contains(Lower(text), AppVerbs[k])
                          && (forall j :: 0 <= j < k ==> !Contains(Lower(text), AppVerbs[j]))
                          ==> r == Some(Strip(After(Lower(text), AppVerbs[k])))
    ensures hit.None? ==> (r.None? <==> forall k :: 0 <= k < |AppVerbs| ==> !Contains(Lower(text), AppVerbs[k]))
  {
    if hit.Some? then Some(Strip(Lower(hit.value.slot)))
    else
      var lower := Lower(text);
      match Find(VerbWords, lower)
      case Some(m) =>
        VerbWordsHasVerb(lower, m);
        Some(Strip(m.slot))
      case None =>
        var k :- First(AppVerbs, (verb: string) => Contains(lower, verb));
        Some(Strip(After(lower, AppVerbs[k])))
  }

  /** Wherever the stage-two pattern matches, one of the verbs occurs. */
  lemma VerbWordsHasVerb(s: string, m: Hit)
    requires Find(VerbWords, s) == Some(m)
    ensures exists k :: 0 <= k < |AppVerbs| && Contains(s, AppVerbs[k])
  {
    var k :| 0 <= k < |AppVerbs| && OccursAt(s, AppVerbs[k], m.start);
    assert Contains(s, AppVerbs[k]);
  }

  /** Characters the stage-two group `[\w\s]+` accepts. */
  ghost predicate WordsAndSpaces(s: string) {
    forall i :: 0 <= i < |s| ==> IsWordChar(s[i]) || IsSpace(s[i])
  }

  /** Saying a verb, a space and a name made of letters, digits, underscores
      and spaces yields exactly that name. */
  lemma ExtractAppNameRoundTrip(k: nat, name: string)
    requires k < |AppVerbs|
    requires name != [] && Trimmed(name) && NoUpper(name) && WordsAndSpaces(name)
    ensures ExtractAppName(AppVerbs[k] + " " + name, None) == Some(name)
  {
    var s := AppVerbs[k] + " " + name;
    SpokenLower(AppVerbs[k], name);
    VerbWordsAtStart(k, name);
    var r := Find(VerbWords, s);
    assert r.Some? && r.value.start == 0;
    StripTrimmed(name);
  }

  lemma SpokenLower(verb: string, name: string)
    requires NoUpper(verb) && NoUpper(name)
    ensures Lower(verb + " " + name) == verb + " " + name
  {
    LowerOfNoUpper(verb);
    LowerOfNoUpper(name);
    LowerAppend(verb, " ");
    LowerAppend(verb + " ", name);
  }

  lemma VerbWordsAtStart(k: nat, name: string)
    requires k < |AppVerbs|
    requires name != [] && WordsAndSpaces(name) && IsWordChar(name[0])
    ensures MatchAt(VerbWords, AppVerbs[k] + " " + name, 0) == Some(Hit(0, AppVerbs[k] + " " + name, name))
  {
    var s := AppVerbs[k] + " " + name;
    NameAfterVerb(AppVerbs[k], name);
    VerbsDifferAtStart(s, k);
    assert s[0..|s|] == s;
  }

  /** The shape of "verb name": the verb, one space, then a run of word
      characters and spaces that reaches the end. */
  lemma NameAfterVerb(verb: string, name: string)
    requires verb != [] && name != [] && WordsAndSpaces(name) && IsWordChar(name[0])
    ensures OccursAt(verb + " " + name, verb, 0)
    ensures IsSpace((verb + " " + name)[|verb|])
    ensures SpaceEnd(verb + " " + name, |verb|) == |verb| + 1
    ensures IsWordChar((verb + " " + name)[|verb| + 1])
    ensures WordSpaceEnd(verb + " " + name, |verb| + 1) == |verb + " " + name|
    ensures (verb + " " + name)[|verb| + 1..] == name
  {
    var s := verb + " " + name;
    var w := |verb| + 1;
    assert s[..|verb|] == verb;
    assert s[w] == name[0];
    assert forall i :: w <= i < |s| ==> s[i] == name[i - w];
    assert s[w..] == name;
  }

  /** The four verbs start with four different letters, so at the start of a
      text at most one of them occurs and the group of alternatives picks it. */
  lemma VerbsDifferAtStart(s: string, k: nat)
    requires k < |AppVerbs| && OccursAt(s, AppVerbs[k], 0)
    ensures AnyWord(s, 0, AppVerbs) == Some((|AppVerbs[k]|, AppVerbs[k]))
  {
    assert s[0] == s[..|AppVerbs[k]|][0] == AppVerbs[k][0];
    var v := AnyWord(s, 0, AppVerbs).value.1;
    assert s[0] == s[..|v|][0] == v[0];
  }

  // ---------------------------------------------------------------------------
  // Opening
  // ---------------------------------------------------------------------------

  /** `{"success": ..., "message": ...}` together with the calls that were made. */
  datatype Opened = Opened(success: bool, message: string, actions: seq<Action>)

  /** One call wrapped in `try`/`except Exception as e: ... str(e)`. */
  function Run(a: Action, host: Host): (r: Opened)
    ensures r.actions == [a]
    ensures r.success <==> host.attempt(a).None?
    ensures r.success ==> r.message == []
    ensures !r.success ==> r.message == host.attempt(a).value
  {
    match host.attempt(a)
    case None => Opened(true, [], [a])
    case Some(m) => Opened(false, m, [a])
  }

  /** The three open methods. An executable is started from its first path
      that exists; the alternative path is only looked at when it is not empty. */
  function Open(opener: Opener, host: Host): (r: Opened)
    ensures |r.actions| <= 1
    ensures forall a :: a in r.actions ==> a.Spawn? || a.OpenUrl?
    ensures r.success <==> r.actions != [] && host.attempt(r.actions[0]).None?
    ensures opener.Executable? && r.actions != [] ==>
              r.actions[0].Spawn? && host.pathExists(r.actions[0].program)
              && r.actions[0].program in {opener.path, opener.altPath} && r.actions[0].program != []
    ensures opener.Executable? && opener.path != [] && host.pathExists(opener.path) ==> r.actions == [Spawn(opener.path)]
    ensures opener.Executable? && r.actions == [] ==> r.message == PathNotFound
    ensures opener.WindowsApp? ==> r.actions == [Spawn(opener.program)]
    ensures opener.DefaultBrowser? ==> r.actions == [OpenUrl(HomePage)]
  {
    match opener
    case Executable(path, altPath) =>
      if path != [] && host.pathExists(path) then Run(Spawn(path), host)
      else if altPath != [] && host.pathExists(altPath) then Run(Spawn(altPath), host)
      else Opened(false, PathNotFound, [])
    case WindowsApp(program) => Run(Spawn(program), host)
    case DefaultBrowser => Run(OpenUrl(HomePage), host)
  }

  /** A name selects an entry when the key occurs in it or it occurs in the key. */
  predicate Selects(name: string, key: string) {
    Contains(name, key) || Contains(key, name)
  }

  /** The loop over the table in `_open_application`: the first entry the name selects. */
  function AppLookup(name: string): (r: Option<nat>)
    ensures r.Some? ==> r.value < |Apps| && Selects(name, Apps[r.value].key)
    ensures r.Some? ==> forall j :: 0 <= j < r.value ==> !Selects(name, Apps[j].key)
    ensures r.None? <==> forall j :: 0 <= j < |Apps| ==> !Selects(name, Apps[j].key)
  {
    First(Apps, (app: App) => Selects(name, app.key))
  }

  /** Opening the table entry at `k` never goes through the shell. */
  function OpenEntry(k: nat, host: Host): (r: Opened)
    requires k < |Apps|
    ensures r == Open(Apps[k].opener, host)
    ensures r.success ==> r.message == [] && |r.actions| == 1
    ensures forall a :: a in r.actions ==> a.Spawn? || a.OpenUrl?
  {
    Open(Apps[k].opener, host)
  }

  /** `_open_application`: a table entry's own method, or else a shell
      command made of the name itself, which only reports failure when
      starting the shell raises. */
  function OpenApplication(appName: string, host: Host): (r: Opened)
    ensures var name := Strip(Lower(appName));
            (exists j :: 0 <= j < |Apps| && Selects(name, Apps[j].key))
            <==> Shell(name) !in r.actions
    ensures var name := Strip(Lower(appName));
            AppLookup(name).Some? ==> r == Open(Apps[AppLookup(name).value].opener, host)
    ensures var name := Strip(Lower(appName));
            AppLookup(name).None? ==> r.actions == [Shell(name)]
                                      && (r.success <==> host.attempt(Shell(name)).None?)
                                      && (!r.success ==> r.message == NotFound)
    ensures r.success ==> r.message == [] && |r.actions| == 1
    ensures forall a :: a in r.actions ==> a.Spawn? || a.OpenUrl? || a.Shell?
  {
    var name := Strip(Lower(appName));
    match AppLookup(name)
    case Some(k) => OpenEntry(k, host)
    case None =>
      var a := Shell(name);
      if host.attempt(a).None? then Opened(true, [], [a]) else Opened(false, NotFound, [a])
  }

  // ---------------------------------------------------------------------------
  // The handler
  // ---------------------------------------------------------------------------

  /** The reply once a name was extracted and opening it was tried. */
  function Reply(app: string, o: Opened): (r: string)
    ensures Contains(r, app)
    ensures o.success ==> r == "Opening " + app + "."
    ensures !o.success ==> r == "I couldn't open " + app + ". " + o.message
  {
    if o.success then
      OccursInMiddle("Opening ", app, ".");
      "Opening " + app + "."
    else
      OccursInMiddle("I couldn't open ", app, ". " + o.message);
      assert "I couldn't open " + app + ". " + o.message == "I couldn't open " + app + (". " + o.message);
      "I couldn't open " + app + ". " + o.message
  }

  /** `AppCommands.process`: nothing is opened without a name, and the
      reply names the application as it was extracted. */
  function Process(text: string, hit: Option<Hit>, host: Host): (r: Outcome)
    ensures var name := ExtractAppName(text, hit);
            name.None? || name.value == [] ==> r == Say(NoAppName)
    ensures var name := ExtractAppName(text, hit);
            name.Some? && name.value != [] ==>
              r.actions == OpenApplication(name.value, host).actions
              && r.reply == Reply(name.value, OpenApplication(name.value, host))
              && Contains(r.reply, name.value)
  {
    var name := ExtractAppName(text, hit);
    if name.None? || name.value == [] then Say(NoAppName)
    else
      var o := OpenApplication(name.value, host);
      Outcome(Reply(name.value, o), o.actions)
  }

  /** The application handler only ever starts programs, runs the shell
      or opens the browser. */
  lemma ProcessOnlyStarts(text: string, hit: Option<Hit>, host: Host)
    ensures forall a :: a in Process(text, hit, host).actions ==> a.Spawn? || a.Shell? || a.OpenUrl?
  {
  }

  /** The name is stripped and lower-cased again before the lookup, which
      changes nothing: whatever the spoken verb, the name reaches the table
      as it was said. */
  lemma SpokenNameOpens(k: nat, name: string, host: Host)
    requires k < |AppVerbs|
    requires name != [] && Trimmed(name) && NoUpper(name) && WordsAndSpaces(name)
    ensures Process(AppVerbs[k] + " " + name, None, host).actions == OpenApplication(name, host).actions
    ensures Strip(Lower(name)) == name
  {
    ExtractAppNameRoundTrip(k, name);
    CleanName(name);
  }

  /** "google chrome" selects the chrome entry, which starts the first of its
      paths that exists. */
  lemma GoogleChromeOpensChrome(host: Host)
    requires host.pathExists(ChromePath)
    ensures OpenApplication("google chrome", host).actions == [Spawn(ChromePath)]
  {
    GoogleChromeIsChrome();
    assert Apps[0].opener == Executable(ChromePath, ChromeAltPath);
    assert ChromePath != [];
  }

  lemma GoogleChromeIsChrome()
    ensures Strip(Lower("google chrome")) == "google chrome"
    ensures AppLookup("google chrome") == Some(0)
  {
    GoogleChromeIsClean();
    GoogleChromeSelectsChrome();
  }

  lemma GoogleChromeIsClean()
    ensures Strip(Lower("google chrome")) == "google chrome"
  {
    GoogleChromeNoUpper();
    GoogleChromeTrimmed();
    CleanName("google chrome");
  }

  lemma GoogleChromeNoUpper()
    ensures NoUpper("google chrome")
  {
  }

  lemma GoogleChromeTrimmed()
    ensures Trimmed("google chrome")
  {
    var name := "google chrome";
    assert name[0] == 'g' && name[12] == 'e';
  }

  /** A name that is already lower-case and trimmed is left as it is. */
  lemma CleanName(name: string)
    requires NoUpper(name) && Trimmed(name)
    ensures Strip(Lower(name)) == name
  {
    LowerOfNoUpper(name);
    StripTrimmed(name);
  }

  lemma GoogleChromeSelectsChrome()
    ensures AppLookup("google chrome") == Some(0)
  {
    var name := "google chrome";
    assert name[7..13] == "chrome";
    assert OccursAt(name, "chrome", 7);
    assert Selects(name, Apps[0].key);
  }

  /** A bare verb gets through stage three with nothing after it, so the
      reply is the clarification and nothing is launched. */
  lemma BareVerbAsksForName(host: Host)
    ensures Process("open", None, host) == Say(NoAppName)
  {
    var s := "open";
    OpenAloneIsLower();
    OpenAloneHasNoSlot();
    assert Contains(s, AppVerbs[0]);
    OpenAloneLeavesNothing();
    assert ExtractAppName(s, None) == Some(Strip([]));
  }

  lemma OpenAloneIsLower()
    ensures Lower("open") == "open"
  {
    assert NoUpper("open");
    LowerOfNoUpper("open");
  }

  /** Nothing follows the verb, so the stage-two pattern finds no match. */
  lemma OpenAloneHasNoSlot()
    ensures Find(VerbWords, "open").None?
  {
    var s := "open";
    forall j | 0 <= j <= |s|
      ensures MatchAt(VerbWords, s, j).None?
    {
      VerbAloneHasNoSlot(s, j);
    }
  }

  lemma VerbAloneHasNoSlot(s: string, j: nat)
    requires s == "open" && j <= |s|
    ensures VerbWordsAt(s, j).None?
  {
    var v := AnyWord(s, j, AppVerbs);
    if v.Some? {
      assert v.value.0 == |s|;
    }
  }

  lemma OpenAloneLeavesNothing()
    ensures Contains("open", "open") && After("open", "open") == []
  {
    assert OccursAt("open", "open", 0);
  }
}

=== FILE: command_processor.dfy ===
/** The command router: the wake word is removed, then the built-in
    intents, the category pattern table and the category keywords are
    consulted in that order, and the first that applies decides. Patterns
    are searched for anywhere in the text, so a category listed early can
    claim a text that a later category's pattern was written for. */
module CommandProcessor {
  import opened Options
  import opened Text
  import opened Scan
  import opened Patterns
  import opened Effects
  import VoiceRecognition
  import AppCommands
  import SystemCommands
  import NetworkCommands
  import UtilityCommands

  datatype Category = App | System | Network | Utility

  datatype Builtin = Hello | Time | Date | Help | WhoAreYou | WhatCanYouDo | ThankYou | Exit | StopListening

  /** The built-in intents in insertion order: the first key contained in
      the lower-cased text wins. */
  const Builtins: seq<(string, Builtin)> := [
    ("hello", Hello),
    ("hi", Hello),
    ("hey", Hello),
    ("time", Time),
    ("date", Date),
    ("help", Help),
    ("who are you", WhoAreYou),
    ("what can you do", WhatCanYouDo),
    ("thank you", ThankYou),
    ("thanks", ThankYou),
    ("exit", Exit),
    ("quit", Exit),
    ("stop listening", StopListening)
  ]

  /** The category pattern table flattened in the order it is scanned:
      every pattern of a category before any pattern of the next. */
  const Routes: seq<(Pattern, Category)> := [
    (OpenAny, App),
    (LaunchAny, App),
    (StartAny, App),
    (RunAny, App),
    (ShutdownMachine, System),
    (RestartMachine, System),
    (LockMachine, System),
    (SleepMachine, System),
    (HibernateMachine, System),
    (LogOut, System),
    (ToggleRadio, Network),
    (ShowIp, Network),
    (Connect, Network),
    (OpenUtility, Utility),
    (ShowReport, Utility),
    (SetVolume, Utility)
  ]

  /** The keyword fallback, in the order its tests run. */
  const Keywords: seq<(seq<string>, Category)> := [
    (["open", "launch", "start", "run"], App),
    (["shutdown", "restart", "lock", "sleep", "hibernate", "log out"], System),
    (["wifi", "wireless", "bluetooth", "ip address", "network"], Network),
    (["control panel", "task manager", "file explorer", "processes", "volume"], Utility)
  ]

  const NotCaught := "I didn't catch that. Can you please repeat?"
  const HelpText := "I can help you with various tasks. Try commands like:\n- Open Chrome\n- What time is it?\n- Shutdown my computer\n- Turn off WiFi\n- Show my IP address\n- Open Task Manager"
  const Identity := "I'm Nova, your personal AI assistant. I'm designed to help you control your computer, open applications, and provide information through voice commands."
  const Capabilities := "I can help you with various tasks on your computer. I can open applications, control system functions like shutdown or restart, manage network settings, and open system utilities. Just tell me what you need!"
  const Goodbye := "Goodbye! Nova is shutting down."
  const StopListeningReply := "I'll stop listening now. Call my name if you need me again."

  /** The assistant's greetings, one of which `random.choice` picks. */
  const Greetings: seq<string> := [
    "Hello! I'm Nova, your virtual assistant.",
    "Hi there! Nova at your service.",
    "Greetings! Nova is ready to assist you.",
    "Hello! Nova is listening.",
    "Hi! I'm Nova, how can I help you today?"
  ]

  const ThankYouReplies: seq<string> := [
    "You're welcome!",
    "Happy to help!",
    "No problem at all!",
    "Anytime!",
    "Glad I could assist!"
  ]

  // ---------------------------------------------------------------------------
  // The wake word
  // ---------------------------------------------------------------------------

  /** The characters of `[,\s]`. */
  predicate IsCommaOrSpace(c: char) {
    c == ',' || IsSpace(c)
  }

  /** The end of the run of commas and whitespace that starts at `i`. */
  function CommaSpaceEnd(s: string, i: nat): (j: nat)
    requires i <= |s|
    decreases |s| - i
    ensures i <= j <= |s|
    ensures forall k :: i <= k < j ==> IsCommaOrSpace(s[k])
    ensures j == |s| || !IsCommaOrSpace(s[j])
  {
    if i == |s| || !IsCommaOrSpace(s[i]) then i else CommaSpaceEnd(s, i + 1)
  }

  /** `_remove_wake_word`: when the text starts with the wake word, in any
      case, the wake word and the commas and whitespace after it are removed
      and the rest is stripped; any other text is left as it is. */
  function RemoveWakeWord(text: string): (r: string)
    ensures !StartsWith(Lower(text), VoiceRecognition.WakeWord) ==> r == text
    ensures StartsWith(Lower(text), VoiceRecognition.WakeWord) ==>
              Trimmed(r) && |r| <= |text| - |VoiceRecognition.WakeWord|
              && exists j :: |VoiceRecognition.WakeWord| <= j <= |text| && r == Strip(text[j..])
                             && (forall k :: |VoiceRecognition.WakeWord| <= k < j ==> IsCommaOrSpace(text[k]))
                             && (j == |text| || !IsCommaOrSpace(text[j]))
    ensures |r| <= |text|
  {
    var w := VoiceRecognition.WakeWord;
    if StartsWith(Lower(text), w) then
      var j := CommaSpaceEnd(text, |w|);
      Strip(text[j..])
    else text
  }

  /** The wake word, one space and a trimmed rest that does not begin with
      a comma leaves exactly that rest. */
  lemma DropsOneWakeWord(rest: string)
    requires rest != [] && Trimmed(rest) && !IsCommaOrSpace(rest[0])
    ensures RemoveWakeWord("nova " + rest) == rest
  {
    var s := "nova " + rest;
    assert Lower(s)[..4] == "nova" by {
      assert Lower(s)[0] == LowerChar('n');
      assert Lower(s)[1] == LowerChar('o');
      assert Lower(s)[2] == LowerChar('v');
      assert Lower(s)[3] == LowerChar('a');
    }
    assert CommaSpaceEnd(s, 4) == 5 by {
      assert IsCommaOrSpace(s[4]);
      assert s[5] == rest[0];
    }
    assert s[5..] == rest;
    StripTrimmed(rest);
  }

  /** Removing the wake word is not idempotent: a text that says it twice
      loses one occurrence per application. */
  lemma RemoveWakeWordNotIdempotent(x: string)
    requires x != [] && Trimmed(x) && !IsCommaOrSpace(x[0])
    ensures RemoveWakeWord("nova " + ("nova " + x)) == "nova " + x
    ensures RemoveWakeWord(RemoveWakeWord("nova " + ("nova " + x))) != RemoveWakeWord("nova " + ("nova " + x))
  {
    var once := "nova " + x;
    assert Trimmed(once) by {
      assert once[0] == 'n';
      assert once[|once| - 1] == x[|x| - 1];
    }
    DropsOneWakeWord(once);
    DropsOneWakeWord(x);
  }

  // ---------------------------------------------------------------------------
  // Routing
  // ---------------------------------------------------------------------------

  /** Where a text is sent. */
  datatype Route =
    | Silence                                 // empty input
    | BuiltinIntent(intent: Builtin)          // a built-in key occurs
    | Categorized(category: Category, hit: Hit)  // a category pattern was found
    | ByKeyword(category: Category)           // only a category keyword occurs
    | Unrecognized(command: string)           // nothing applies

  /** The value of the first entry of `table` whose key the lower-cased
      text contains: how the built-in dictionary is scanned. */
  function FirstKey<T>(lower: string, table: seq<(string, T)>): (r: Option<T>)
    ensures r.Some? ==> exists k :: 0 <= k < |table| && r.value == table[k].1 && Contains(lower, table[k].0)
                                    && forall j :: 0 <= j < k ==> !Contains(lower, table[j].0)
    ensures r.None? <==> forall k :: 0 <= k < |table| ==> !Contains(lower, table[k].0)
  {
    var k :- First(table, (e: (string, T)) => Contains(lower, e.0));
    Some(table[k].1)
  }

  /** An entry whose key occurs, after none of whose predecessors' keys
      occur, is the one chosen. */
  lemma FirstKeyWins<T>(lower: string, table: seq<(string, T)>, k: nat)
    requires k < |table| && Contains(lower, table[k].0)
    requires forall j :: 0 <= j < k ==> !Contains(lower, table[j].0)
    ensures FirstKey(lower, table) == Some(table[k].1)
  {
    var m :| 0 <= m < |table| && FirstKey(lower, table).value == table[m].1 && Contains(lower, table[m].0)
             && forall j :: 0 <= j < m ==> !Contains(lower, table[j].0);
    assert !(m < k) && !(k < m);
  }

  /** The first built-in key that the lower-cased text contains. */
  function FirstBuiltin(lower: string): Option<Builtin> {
    FirstKey(lower, Builtins)
  }

  /** The first pattern of `routes`, in table order, that is found anywhere
      in the lower-cased text, with its value and its match. */
  function FirstRoute<T>(lower: string, routes: seq<(Pattern, T)>): (r: Option<(T, Hit)>)
    ensures r.Some? ==> exists k :: 0 <= k < |routes| && r.value.0 == routes[k].1
                                    && Find(routes[k].0, lower) == Some(r.value.1)
                                    && forall j :: 0 <= j < k ==> Find(routes[j].0, lower).None?
    ensures r.None? <==> forall k :: 0 <= k < |routes| ==> Find(routes[k].0, lower).None?
  {
    var k :- First(routes, (e: (Pattern, T)) => Find(e.0, lower).Some?);
    Some((routes[k].1, Find(routes[k].0, lower).value))
  }

  /** When the pattern of entry `p` is found, the entry chosen is `p` or
      one before it. */
  lemma FirstRouteAtMost<T>(lower: string, routes: seq<(Pattern, T)>, p: nat)
    requires p < |routes| && Find(routes[p].0, lower).Some?
    ensures FirstRoute(lower, routes).Some?
    ensures exists k :: 0 <= k <= p && FirstRoute(lower, routes).value.0 == routes[k].1
  {
    var k :| 0 <= k < |routes| && FirstRoute(lower, routes).value.0 == routes[k].1
             && Find(routes[k].0, lower) == Some(FirstRoute(lower, routes).value.1)
             && forall j :: 0 <= j < k ==> Find(routes[j].0, lower).None?;
    assert k <= p;
  }

  /** `_categorize_command`. */
  function Categorize(lower: string): Option<(Category, Hit)> {
    FirstRoute(lower, Routes)
  }

  /** The keyword fallback: the first category one of whose keywords occurs. */
  function KeywordCategory(lower: string): (r: Option<Category>)
    ensures r.Some? ==> exists k :: 0 <= k < |Keywords| && r.value == Keywords[k].1 && ContainsAny(lower, Keywords[k].0)
                                    && forall j :: 0 <= j < k ==> !ContainsAny(lower, Keywords[j].0)
    ensures r.None? <==> forall k :: 0 <= k < |Keywords| ==> !ContainsAny(lower, Keywords[k].0)
  {
    var k :- First(Keywords, (e: (seq<string>, Category)) => ContainsAny(lower, e.0));
    Some(Keywords[k].1)
  }

  /** The decision `process` makes, before any handler runs. */
  function RouteOf(text: string): (r: Route)
    ensures text == [] <==> r == Silence
    ensures text != [] && FirstBuiltin(Lower(RemoveWakeWord(text))).Some? ==>
              r == BuiltinIntent(FirstBuiltin(Lower(RemoveWakeWord(text))).value)
    ensures (text != [] && FirstBuiltin(Lower(RemoveWakeWord(text))).None?
             && Categorize(Lower(RemoveWakeWord(text))).Some?) ==>
              r == Categorized(Categorize(Lower(RemoveWakeWord(text))).value.0,
                               Categorize(Lower(RemoveWakeWord(text))).value.1)
    ensures (text != [] && FirstBuiltin(Lower(RemoveWakeWord(text))).None?
             && Categorize(Lower(RemoveWakeWord(text))).None?
             && KeywordCategory(Lower(RemoveWakeWord(text))).Some?) ==>
              r == ByKeyword(KeywordCategory(Lower(RemoveWakeWord(text))).value)
    ensures (text != [] && FirstBuiltin(Lower(RemoveWakeWord(text))).None?
             && Categorize(Lower(RemoveWakeWord(text))).None?
             && KeywordCategory(Lower(RemoveWakeWord(text))).None?) ==>
              r == Unrecognized(RemoveWakeWord(text))
  {
    if text == [] then Silence
    else
      var command := RemoveWakeWord(text);
      var lower := Lower(command);
      match FirstBuiltin(lower)
      case Some(b) => BuiltinIntent(b)
      case None =>
        match Categorize(lower)
        case Some((c, h)) => Categorized(c, h)
        case None =>
          match KeywordCategory(lower)
          case Some(c) => ByKeyword(c)
          case None => Unrecognized(command)
  }

  // ---------------------------------------------------------------------------
  // Running the decision
  // ---------------------------------------------------------------------------

  /** The built-in handlers. The time and the date are read from the host
      already formatted; the greeting and the thanks are the host's pick. */
  function RunBuiltin(b: Builtin, host: Host): (o: Outcome)
    ensures StopAssistant in o.actions <==> b == Exit || b == StopListening
    ensures b != Exit && b != StopListening ==> o.actions == []
    ensures b == Hello ==> o.reply in Greetings
    ensures b == ThankYou ==> o.reply in ThankYouReplies
    ensures b == Time ==> Contains(o.reply, host.clockText)
    ensures b == Date ==> Contains(o.reply, host.dateText)
    ensures b == Exit ==> o == Outcome(Goodbye, [StopAssistant])
    ensures b == StopListening ==> o == Outcome(StopListeningReply, [StopAssistant])
  {
    match b
    case Hello => Say(Greetings[host.pick])
    case Time =>
      OccursInMiddle("The current time is ", host.clockText, ".");
      Say("The current time is " + host.clockText + ".")
    case Date =>
      OccursInMiddle("Today is ", host.dateText, ".");
      Say("Today is " + host.dateText + ".")
    case Help => Say(HelpText)
    case WhoAreYou => Say(Identity)
    case WhatCanYouDo => Say(Capabilities)
    case ThankYou => Say(ThankYouReplies[host.pick])
    case Exit => Outcome(Goodbye, [StopAssistant])
    case StopListening => Outcome(StopListeningReply, [StopAssistant])
  }

  /** A category handler: from the wake-stripped text and the pattern's
      match, when there was one, to what is said and done. */
  type Handler = (string, Option<Hit>, Host) -> Outcome

  /** The handler objects a processor holds, one per category. */
  datatype Handlers = Handlers(app: Handler, system: Handler, network: Handler, utility: Handler)

  /** The handlers `CommandProcessor.__init__` creates. */
  const NovaHandlers := Handlers(AppCommands.Process, SystemCommands.Process,
                                 NetworkCommands.Process, UtilityCommands.Process)

  /** A category's handler, given the wake-stripped text and the match. */
  function Handle(hs: Handlers, c: Category, command: string, hit: Option<Hit>, host: Host): Outcome {
    match c
    case App => hs.app(command, hit, host)
    case System => hs.system(command, hit, host)
    case Network => hs.network(command, hit, host)
    case Utility => hs.utility(command, hit, host)
  }

  /** The reply to a text nothing applies to. */
  function NotSure(command: string): (r: string)
    ensures Contains(r, command)
  {
    OccursInMiddle("I'm not sure how to handle '", command, "'. Try asking for help to see what I can do.");
    "I'm not sure how to handle '" + command + "'. Try asking for help to see what I can do."
  }

  /** `CommandProcessor.process`, for a processor holding the handlers `hs`. */
  function Respond(hs: Handlers, text: string, host: Host): (o: Outcome)
    ensures text == [] ==> o == Say(NotCaught)
    ensures RouteOf(text).BuiltinIntent? ==> o == RunBuiltin(RouteOf(text).intent, host)
    ensures RouteOf(text).Categorized? ==>
              o == Handle(hs, RouteOf(text).category, RemoveWakeWord(text), Some(RouteOf(text).hit), host)
    ensures RouteOf(text).ByKeyword? ==> o == Handle(hs, RouteOf(text).category, RemoveWakeWord(text), None, host)
    ensures RouteOf(text).Unrecognized? ==> o.actions == [] && Contains(o.reply, RemoveWakeWord(text))
  {
    match RouteOf(text)
    case Silence => Say(NotCaught)
    case BuiltinIntent(b) => RunBuiltin(b, host)
    case Categorized(c, h) => Handle(hs, c, RemoveWakeWord(text), Some(h), host)
    case ByKeyword(c) => Handle(hs, c, RemoveWakeWord(text), None, host)
    case Unrecognized(command) => Say(NotSure(command))
  }

  /** `CommandProcessor.process` of the assistant itself. */
  function Process(text: string, host: Host): Outcome {
    Respond(NovaHandlers, text, host)
  }

  // ---------------------------------------------------------------------------
  // Consequences of the orders
  // ---------------------------------------------------------------------------

  /** "which" contains "hi", so any text that says "which" is a greeting. */
  lemma WhichGreets(text: string)
    requires text != [] && Contains(Lower(RemoveWakeWord(text)), "which")
    ensures RouteOf(text) == BuiltinIntent(Hello)
  {
    var lower := Lower(RemoveWakeWord(text));
    WhichSaysHi(lower);
    if Contains(lower, "hello") {
      FirstKeyWins(lower, Builtins, 0);
    } else {
      FirstKeyWins(lower, Builtins, 1);
    }
  }

  lemma WhichSaysHi(lower: string)
    requires Contains(lower, "which")
    ensures Contains(lower, Builtins[1].0)
  {
    assert OccursAt("which", "hi", 1);
    ContainsTransitive(lower, "which", "hi");
  }

  /** A question about the time reaches the time handler as long as it
      contains no greeting key. */
  lemma TimeQuestion(text: string)
    requires text != []
    requires Contains(Lower(RemoveWakeWord(text)), "time")
    requires !Contains(Lower(RemoveWakeWord(text)), "hello")
    requires !Contains(Lower(RemoveWakeWord(text)), "hi")
    requires !Contains(Lower(RemoveWakeWord(text)), "hey")
    ensures RouteOf(text) == BuiltinIntent(Time)
  {
    BuiltinKeys();
    FirstKeyWins(Lower(RemoveWakeWord(text)), Builtins, 3);
  }

  lemma BuiltinKeys()
    ensures Builtins[0] == ("hello", Hello) && Builtins[1] == ("hi", Hello)
    ensures Builtins[2] == ("hey", Hello) && Builtins[3] == ("time", Time)
  {
  }

  /** The pattern found first belongs to the application category whenever
      one of the application patterns is found. */
  lemma AppPatternWins(lower: string, p: nat)
    requires p < 4 && Find(Routes[p].0, lower).Some?
    ensures Categorize(lower).Some? && Categorize(lower).value.0 == App
  {
    FirstRouteAtMost(lower, Routes, p);
    AppRoutesFirst();
  }

  /** The four application patterns head the table. */
  lemma AppRoutesFirst()
    ensures forall k :: 0 <= k < 4 ==> Routes[k].1 == App
  {
  }

  lemma RestartPatternIsApp(lower: string)
    requires Find(RestartMachine, lower).Some?
    ensures Categorize(lower).Some? && Categorize(lower).value.0 == App
  {
    RestartImpliesStartAny(lower);
    AppRoutes();
    AppPatternWins(lower, 2);
  }

  lemma OpenUtilityPatternIsApp(lower: string)
    requires Find(OpenUtility, lower).Some?
    ensures Categorize(lower).Some? && Categorize(lower).value.0 == App
  {
    OpenUtilityImpliesOpenAny(lower);
    AppRoutes();
    AppPatternWins(lower, 0);
  }

  lemma AppRoutes()
    ensures Routes[0].0 == OpenAny && Routes[2].0 == StartAny
  {
  }

  lemma RestartKeywordSaysStart(lower: string)
    requires Contains(lower, "restart")
    ensures KeywordCategory(lower) == Some(App)
  {
    assert OccursAt("restart", "start", 2);
    ContainsTransitive(lower, "restart", "start");
    assert Contains(lower, Keywords[0].0[2]);
    ContainsAnyIndex(lower, Keywords[0].0);
  }

  /** "restart computer" is sent to the application handler: the restart
      pattern's text contains "start" followed by whitespace, and the
      application pattern `start\s+` is scanned first. */
  lemma RestartComputerIsApp(text: string)
    requires text != []
    requires FirstBuiltin(Lower(RemoveWakeWord(text))).None?
    requires Find(RestartMachine, Lower(RemoveWakeWord(text))).Some?
    ensures RouteOf(text).Categorized? && RouteOf(text).category == App
  {
    RestartPatternIsApp(Lower(RemoveWakeWord(text)));
  }

  /** "open control panel" is sent to the application handler, not the
      utility handler. */
  lemma OpenControlPanelIsApp(text: string)
    requires text != []
    requires FirstBuiltin(Lower(RemoveWakeWord(text))).None?
    requires Find(OpenUtility, Lower(RemoveWakeWord(text))).Some?
    ensures RouteOf(text).Categorized? && RouteOf(text).category == App
  {
    OpenUtilityPatternIsApp(Lower(RemoveWakeWord(text)));
  }

  /** Among the keywords, "restart" contains "start", so a text that only
      says "restart" falls back to the application handler. */
  lemma RestartKeywordIsApp(text: string)
    requires text != []
    requires FirstBuiltin(Lower(RemoveWakeWord(text))).None?
    requires Categorize(Lower(RemoveWakeWord(text))).None?
    requires Contains(Lower(RemoveWakeWord(text)), "restart")
    ensures RouteOf(text) == ByKeyword(App)
  {
    RestartKeywordSaysStart(Lower(RemoveWakeWord(text)));
  }

  /** A handler that never stops the assistant, whatever it is given. */
  ghost predicate NeverStops(h: Handler) {
    forall command, hit, host :: StopAssistant !in h(command, hit, host).actions
  }

  lemma AppNeverStops()
    ensures NeverStops(AppCommands.Process)
  {
    forall command, hit, host ensures StopAssistant !in AppCommands.Process(command, hit, host).actions {
      AppCommands.ProcessOnlyStarts(command, hit, host);
    }
  }

  lemma SystemNeverStops()
    ensures NeverStops(SystemCommands.Process)
  {
  }

  lemma NetworkNeverStops()
    ensures NeverStops(NetworkCommands.Process)
  {
    forall command, hit, host ensures StopAssistant !in NetworkCommands.Process(command, hit, host).actions {
      NetworkCommands.ProcessOnlyNetworks(command, hit, host);
    }
  }

  lemma UtilityNeverStops()
    ensures NeverStops(UtilityCommands.Process)
  {
    forall command, hit, host ensures StopAssistant !in UtilityCommands.Process(command, hit, host).actions {
      UtilityCommands.ProcessOnlyUtilities(command, hit, host);
    }
  }

  /** With handlers none of which stops the assistant, the assistant is
      stopped exactly when the text reaches the exit or the stop-listening
      intent. The four handlers of `NovaHandlers` are such handlers. */
  lemma StopsOnlyOnRequest(hs: Handlers, text: string, host: Host)
    requires NeverStops(hs.app) && NeverStops(hs.system) && NeverStops(hs.network) && NeverStops(hs.utility)
    ensures StopAssistant in Respond(hs, text, host).actions
            <==> RouteOf(text) == BuiltinIntent(Exit) || RouteOf(text) == BuiltinIntent(StopListening)
  {
    match RouteOf(text)
    case Categorized(c, h) => HandleNeverStops(hs, c, RemoveWakeWord(text), Some(h), host);
    case ByKeyword(c) => HandleNeverStops(hs, c, RemoveWakeWord(text), None, host);
    case _ =>
  }

  lemma HandleNeverStops(hs: Handlers, c: Category, command: string, hit: Option<Hit>, host: Host)
    requires NeverStops(hs.app) && NeverStops(hs.system) && NeverStops(hs.network) && NeverStops(hs.utility)
    ensures StopAssistant !in Handle(hs, c, command, hit, host).actions
  {
  }
}

=== FILE: effects.dfy ===
/** The world outside the assistant's text logic. Every call into the
    operating system, the speech engine, the network or the clock is either
    recorded as an `Action` the handler asks for, or read from a `Host` that
    the caller supplies; nothing here performs it. */
module Effects {
  import opened Options

  /** `os.name == 'nt'` is `Windows`; otherwise `platform.system() == "Darwin"` is `MacOS`. */
  datatype Platform = Windows | MacOS | Linux

  datatype VolumeKey = Mute | Up | Down

  datatype Action =
    | Spawn(program: string)          // subprocess.Popen([path])
    | Shell(command: string)          // subprocess.Popen(command, shell=True) or os.system(command)
    | OpenUrl(url: string)            // webbrowser.open(url)
    | SetWifi(enabled: bool)          // netsh interface set interface Wi-Fi enabled|disabled
    | ConnectWifi(network: string)    // netsh wlan connect name=<network>
    | DisconnectWifi                  // netsh wlan disconnect
    | LockWorkstation                 // user32.LockWorkStation()
    | SendVolumeKey(key: VolumeKey)   // one powershell SendKeys call
    | Speak(text: string)             // assistant.speak(text)
    | Announce                        // assistant.on_wake_word_detected()
    | StopAssistant                   // assistant.stop()
    | OpenSearch(query: string)       // open_browser_search(query)

  /** A reading that either succeeds or raises with a message. */
  datatype Probe<T> = Read(value: T) | ProbeFailed(message: string)

  /** One of the five entries of a `random.choice` over a five-element list. */
  type Pick = k: nat | k < 5

  /** What the handlers observe of the machine. `attempt(a)` is `None` when
      the call for `a` returns and `Some(m)` when it raises, `m` being the
      text the handler reports (`str(e)`, or the captured stderr of a
      failing `subprocess.run(..., check=True)`). A handler that sends the
      same key several times asks `pressKey(key, i)` for the `i`-th press
      (counting from 0) instead, since the machine may answer each press
      differently. `hostname` fails when creating the socket for the local
      address or `socket.gethostname` raises. Readings that the source
      formats from floating-point values arrive here already formatted. */
  datatype Host = Host(
    platform: Platform,
    pathExists: string -> bool,
    attempt: Action -> Option<string>,
    pressKey: (VolumeKey, nat) -> Option<string>,
    localIp: Option<string>,
    hostname: Probe<string>,
    publicIp: Option<string>,
    topProcesses: Probe<seq<string>>,
    cpuUsage: Probe<(string, seq<string>)>,
    memoryUsage: Probe<(string, string, string)>,
    clockText: string,
    dateText: string,
    webAnswer: string -> Option<string>,
    pick: Pick)

  /** A handler's reply together with the effects it asked for, in order. */
  datatype Outcome = Outcome(reply: string, actions: seq<Action>)

  function Say(reply: string): Outcome {
    Outcome(reply, [])
  }
}

=== FILE: network_commands.dfy ===
/** The network handler: which network command a text asks for, whether a
    radio is to be switched on or off, and which network a connection
    request names. Switching and connecting are `Action`s; only Windows
    performs any of them. */
module NetworkCommands {
  import opened Options
  import opened Text
  import opened Scan
  import opened Patterns
  import opened Effects

  datatype NetworkCommand = SwitchWifi | SwitchBluetooth | ShowAddress | ManageConnection

  /** The handler's pattern table, in insertion order. */
  const HandlerPatterns: seq<(Pattern, NetworkCommand)> := [
    (ToggleWifi, SwitchWifi),
    (ToggleBluetooth, SwitchBluetooth),
    (ShowIp, ShowAddress),
    (Connect, ManageConnection)
  ]

  const AskWifi := "Would you like me to turn WiFi on or off?"
  const AskBluetooth := "Would you like me to turn Bluetooth on or off?"
  const SpecifyNetwork := "Please specify the network name you want to connect to or disconnect from."
  const Unknown := "I'm not sure which network command you want to execute. Try saying 'turn on WiFi', 'turn off Bluetooth', or 'show my IP address'."
  const NoNetworkName := "I didn't catch which network you want to connect to. Please specify the network name."
  const WifiOnlyOnWindows := "I'm sorry, WiFi control is currently only implemented for Windows."
  const BluetoothOnlyOnWindows := "I'm sorry, Bluetooth control is currently only implemented for Windows."
  const ConnectionOnlyOnWindows := "I'm sorry, network connection management is currently only implemented for Windows."
  const FallbackIp := "127.0.0.1"
  const UnknownPublicIp := "Could not determine"

  // ---------------------------------------------------------------------------
  // On or off
  // ---------------------------------------------------------------------------

  /** The decision `_toggle_wifi` and `_toggle_bluetooth` make when the caller
      did not: the word the pattern captured when there is a match, otherwise
      "on" in the text and "off" not in it. */
  function TurnOn(text: string, hit: Option<Hit>): (on: bool)
    ensures hit.Some? ==> (on <==> hit.value.slot == "on")
    ensures hit.None? ==> (on <==> Contains(Lower(text), "on") && !Contains(Lower(text), "off"))
  {
    if hit.Some? then hit.value.slot == "on"
    else Contains(Lower(text), "on") && !Contains(Lower(text), "off")
  }

  /** Without a match, a text that says "off" anywhere is read as off, even
      when it also says "on". */
  lemma OffWinsWithoutMatch(text: string)
    requires Contains(Lower(text), "off")
    ensures !TurnOn(text, None)
  {
  }

  /** A toggle pattern (`turn\s+(on|off)\s+(targets)`, whatever the targets)
      captures "on" or "off", and the decision follows it. */
  lemma TurnOnFollowsCapture(text: string, s: string, i: nat, targets: seq<string>)
    requires Toggle(s, i, targets).Some?
    ensures TurnOn(text, Toggle(s, i, targets)) <==> OccursAt(s, "on", SpaceEnd(s, i + 4))
  {
  }

  /** `_toggle_wifi` once the decision is made. */
  function SwitchWifiTo(on: bool, host: Host): (o: Outcome)
    ensures !host.platform.Windows? ==> o == Say(WifiOnlyOnWindows)
    ensures host.platform.Windows? ==> o.actions == [SetWifi(on)]
    ensures host.platform.Windows? && host.attempt(SetWifi(on)).None? ==>
              o.reply == if on then "WiFi has been turned on." else "WiFi has been turned off."
    ensures host.platform.Windows? && host.attempt(SetWifi(on)).Some? ==>
              o.reply == "I couldn't toggle WiFi. Error: " + host.attempt(SetWifi(on)).value
  {
    if !host.platform.Windows? then Say(WifiOnlyOnWindows)
    else
      match host.attempt(SetWifi(on))
      case None => Outcome(if on then "WiFi has been turned on." else "WiFi has been turned off.", [SetWifi(on)])
      case Some(e) => Outcome("I couldn't toggle WiFi. Error: " + e, [SetWifi(on)])
  }

  /** `_toggle_bluetooth` once the decision is made: it only says what it would do. */
  function SwitchBluetoothTo(on: bool, host: Host): (o: Outcome)
    ensures o.actions == []
    ensures host.platform.Windows? ==> Contains(o.reply, if on then "enable" else "disable")
    ensures host.platform.Windows? ==>
              o.reply == "I'm sorry, Bluetooth control is not fully implemented yet. Would "
                         + (if on then "enable" else "disable") + " Bluetooth if I could."
    ensures !host.platform.Windows? ==> o.reply == BluetoothOnlyOnWindows
  {
    if !host.platform.Windows? then Say(BluetoothOnlyOnWindows)
    else
      var verb := if on then "enable" else "disable";
      OccursInMiddle("I'm sorry, Bluetooth control is not fully implemented yet. Would ", verb, " Bluetooth if I could.");
      Say("I'm sorry, Bluetooth control is not fully implemented yet. Would " + verb + " Bluetooth if I could.")
  }

  // ---------------------------------------------------------------------------
  // The address report
  // ---------------------------------------------------------------------------

  /** `_show_ip_address`: the local address falls back to the loopback
      address and the public one to a fixed phrase; a failure outside those
      two inner fallbacks ends in the error reply. */
  function ShowAddresses(host: Host): (o: Outcome)
    ensures o.actions == []
    ensures host.hostname.ProbeFailed? ==> o.reply == "I couldn't show your IP address. Error: " + host.hostname.message
    ensures host.hostname.Read? ==> StartsWith(o.reply, "Your local IP address is ")
    ensures host.hostname.Read? ==> Contains(o.reply, host.localIp.GetOr(FallbackIp))
    ensures host.hostname.Read? ==> Contains(o.reply, host.hostname.value)
    ensures host.hostname.Read? ==> Contains(o.reply, host.publicIp.GetOr(UnknownPublicIp))
  {
    match host.hostname
    case ProbeFailed(e) => Say("I couldn't show your IP address. Error: " + e)
    case Read(hostname) =>
      var local := host.localIp.GetOr(FallbackIp);
      var public := host.publicIp.GetOr(UnknownPublicIp);
      var third := public + ".";
      var second := hostname + (". Your public IP address is " + third);
      var first := local + (". Your hostname is " + second);
      ContainsHead(public, ".");
      ContainsHead(hostname, ". Your public IP address is " + third);
      ContainsHead(local, ". Your hostname is " + second);
      ContainsInConcat(". Your public IP address is ", third, public);
      ContainsInConcat(hostname, ". Your public IP address is " + third, public);
      ContainsInConcat(". Your hostname is ", second, public);
      ContainsInConcat(". Your hostname is ", second, hostname);
      ContainsInConcat(local, ". Your hostname is " + second, public);
      ContainsInConcat(local, ". Your hostname is " + second, hostname);
      ContainsInConcat("Your local IP address is ", first, public);
      ContainsInConcat("Your local IP address is ", first, hostname);
      ContainsInConcat("Your local IP address is ", first, local);
      Say("Your local IP address is " + first)
  }

  // ---------------------------------------------------------------------------
  // Connecting
  // ---------------------------------------------------------------------------

  /** `"connect" in text and not "disconnect" in text`. */
  predicate IsConnect(lower: string) {
    Contains(lower, "connect") && !Contains(lower, "disconnect")
  }

  /** "disconnect" contains "connect", so any text that says "disconnect"
      also says "connect": the second test of the keyword chain's
      `"connect" in text or "disconnect" in text` adds nothing, and such a
      text is never a connection. */
  lemma DisconnectSaysConnect(lower: string)
    requires Contains(lower, "disconnect")
    ensures Contains(lower, "connect") && !IsConnect(lower)
  {
    assert OccursAt("disconnect", "connect", 3);
    ContainsTransitive(lower, "disconnect", "connect");
  }

  /** The words after the first "to" word, or if there is no "to" word, after
      the first "from" word; a "to" in last place gives nothing. */
  function NameFromWords(lower: string): (r: Option<string>)
    ensures r.Some? ==> NameFollows(Words(lower), r.value)
    ensures forall i :: FirstWord(Words(lower), i, "to") ==> WordsAfter(Words(lower), i, r)
    ensures "to" !in Words(lower) ==> forall i :: FirstWord(Words(lower), i, "from") ==> WordsAfter(Words(lower), i, r)
    ensures "to" !in Words(lower) && "from" !in Words(lower) ==> r.None?
  {
    var ws := Words(lower);
    var to := First(ws, (w: string) => w == "to");
    var from := First(ws, (w: string) => w == "from");
    if to.Some? then NameAfterWord(ws, to.value)
    else if from.Some? then NameAfterWord(ws, from.value)
    else None
  }

  /** `ws[i]` is the first occurrence of `w` in `ws` (`list.index`). */
  ghost predicate FirstWord(ws: seq<string>, i: int, w: string) {
    0 <= i < |ws| && ws[i] == w && w !in ws[..i]
  }

  /** `r` is the words after position `i` joined by single spaces, or
      nothing when `ws[i]` is the last word. */
  ghost predicate WordsAfter(ws: seq<string>, i: nat, r: Option<string>) {
    (r.Some? <==> i + 1 < |ws|) && (r.Some? ==> r.value == Join(ws[i + 1..], " "))
  }

  /** `name` is what follows some "to" or "from" word of `ws`. */
  ghost predicate NameFollows(ws: seq<string>, name: string) {
    exists i :: 0 <= i < |ws| - 1 && (ws[i] == "to" || ws[i] == "from") && name == Join(ws[i + 1..], " ")
  }

  function NameAfterWord(ws: seq<string>, i: nat): (r: Option<string>)
    requires i < |ws| && (ws[i] == "to" || ws[i] == "from")
    ensures r.Some? ==> NameFollows(ws, r.value)
  {
    var r := NameAfter(ws, i);
    if r.Some? then
      assert 0 <= i < |ws| - 1 && (ws[i] == "to" || ws[i] == "from") && r.value == Join(ws[i + 1..], " ");
      r
    else r
  }

  /** The words after position `i`, if there are any. */
  function NameAfter(ws: seq<string>, i: nat): (r: Option<string>)
    requires i < |ws|
    ensures r.Some? <==> i < |ws| - 1
    ensures r.Some? ==> r.value == Join(ws[i + 1..], " ")
  {
    if i + 1 < |ws| then Some(Join(ws[i + 1..], " ")) else None
  }

  /** Saying "connect to" and then some words names exactly those words,
      spaced by single spaces. */
  lemma NameFromWordsRoundTrip(ws: seq<string>)
    requires ws != []
    requires forall k :: 0 <= k < |ws| ==> ws[k] != [] && NoSpace(ws[k]) && ws[k] != "to"
    ensures NameFromWords(Join(["connect", "to"] + ws, " ")) == Some(Join(ws, " "))
  {
    var all := ["connect", "to"] + ws;
    SpokenWords(ws);
    assert Words(Join(all, " ")) == all;
    assert all[0] != "to" && all[1] == "to";
    assert all[2..] == ws;
  }

  lemma SpokenWords(ws: seq<string>)
    requires forall k :: 0 <= k < |ws| ==> ws[k] != [] && NoSpace(ws[k])
    ensures Words(Join(["connect", "to"] + ws, " ")) == ["connect", "to"] + ws
  {
    LeadWordsHaveNoSpace();
    WordsOfPrefixed("connect", "to", ws);
  }

  /** The two words a spoken connection request starts with are single words.
      Kept apart so that the literals stay out of the costlier proof that uses it. */
  lemma LeadWordsHaveNoSpace()
    ensures NoSpace("connect") && NoSpace("to")
  {
  }

  /** Two words and then more words, all non-empty and free of spaces,
      joined by single spaces, split back into themselves. */
  lemma WordsOfPrefixed(a: string, b: string, ws: seq<string>)
    requires a != [] && NoSpace(a) && b != [] && NoSpace(b)
    requires forall k :: 0 <= k < |ws| ==> ws[k] != [] && NoSpace(ws[k])
    ensures Words(Join([a, b] + ws, " ")) == [a, b] + ws
  {
    AllWords(a, b, ws);
    WordsOfJoin([a, b] + ws);
  }

  lemma AllWords(a: string, b: string, ws: seq<string>)
    requires a != [] && NoSpace(a) && b != [] && NoSpace(b)
    requires forall k :: 0 <= k < |ws| ==> ws[k] != [] && NoSpace(ws[k])
    ensures forall k :: 0 <= k < |[a, b] + ws| ==> ([a, b] + ws)[k] != [] && NoSpace(([a, b] + ws)[k])
  {
    var all := [a, b] + ws;
    forall k | 2 <= k < |all|
      ensures all[k] == ws[k - 2]
    {
    }
  }

  /** The characters `re.sub(r'[.,;!?]$', '', name)` removes. */
  predicate IsEndPunct(c: char) {
    c in ".,;!?"
  }

  /** One trailing punctuation character is removed, no more. */
  function DropTrailingPunct(name: string): (r: string)
    ensures r == name || (name != [] && IsEndPunct(name[|name| - 1]) && r == name[..|name| - 1])
    ensures name != [] && IsEndPunct(name[|name| - 1]) ==> r == name[..|name| - 1]
    ensures name == [] || !IsEndPunct(name[|name| - 1]) ==> r == name
  {
    if name != [] && IsEndPunct(name[|name| - 1]) then name[..|name| - 1] else name
  }

  /** Adding one punctuation mark and dropping it gives the name back; a
      second mark survives. */
  lemma DropTrailingPunctRoundTrip(name: string, c: char)
    requires IsEndPunct(c)
    ensures DropTrailingPunct(name + [c]) == name
    ensures DropTrailingPunct(name + [c, c]) == name + [c]
  {
    assert (name + [c])[..|name|] == name;
    assert (name + [c, c])[..|name| + 1] == name + [c];
  }

  /** The network name before the emptiness check: the `network` group of
      the match, trimmed, or the words after "to" or "from". */
  function ConnectionName(text: string, hit: Option<Hit>): (r: Option<string>)
    ensures hit.Some? ==> r == Some(Strip(hit.value.slot))
    ensures hit.None? ==> r == NameFromWords(Lower(text))
  {
    if hit.Some? then Some(Strip(hit.value.slot)) else NameFromWords(Lower(text))
  }

  /** The Windows step once a name is known. */
  function Connection(connect: bool, name: string, host: Host): (o: Outcome)
    ensures !host.platform.Windows? ==> o == Say(ConnectionOnlyOnWindows)
    ensures host.platform.Windows? && connect ==> o.actions == [ConnectWifi(name)]
    ensures host.platform.Windows? && !connect ==> o.actions == [DisconnectWifi]
    ensures host.platform.Windows? && connect && host.attempt(ConnectWifi(name)).None? ==>
              o.reply == "Connected to " + name + "."
    ensures host.platform.Windows? && !connect && host.attempt(DisconnectWifi).None? ==>
              o.reply == "Disconnected from the current network."
    ensures var a := if connect then ConnectWifi(name) else DisconnectWifi;
            host.platform.Windows? && host.attempt(a).Some? ==>
              o.reply == "I couldn't manage the network connection. Error: " + host.attempt(a).value
  {
    if !host.platform.Windows? then Say(ConnectionOnlyOnWindows)
    else
      var a := if connect then ConnectWifi(name) else DisconnectWifi;
      match host.attempt(a)
      case None => Outcome(if connect then "Connected to " + name + "." else "Disconnected from the current network.", [a])
      case Some(e) => Outcome("I couldn't manage the network connection. Error: " + e, [a])
  }

  /** `_manage_network_connection` as written: the name is checked for
      emptiness before its trailing punctuation is removed, so a name that
      is only a punctuation mark is connected to as the empty name. */
  function ManageAsWritten(text: string, hit: Option<Hit>, host: Host): (o: Outcome)
    ensures var name := ConnectionName(text, hit);
            name.None? || name.value == [] <==> o == Say(NoNetworkName)
    ensures hit.Some? && Strip(hit.value.slot) == "?" && IsConnect(Lower(text)) && host.platform.Windows?
            ==> o.actions == [ConnectWifi([])]
  {
    var name := ConnectionName(text, hit);
    if name.None? || name.value == [] then Say(NoNetworkName)
    else
      ConnectionIsNotAsking(IsConnect(Lower(text)), DropTrailingPunct(name.value), host);
      assert name.value == "?" ==> DropTrailingPunct(name.value) == [] by {
        assert IsEndPunct('?');
        assert "?"[..0] == [];
      }
      Connection(IsConnect(Lower(text)), DropTrailingPunct(name.value), host)
  }

  lemma ConnectionIsNotAsking(connect: bool, name: string, host: Host)
    ensures Connection(connect, name, host) != Say(NoNetworkName)
  {
    var o := Connection(connect, name, host);
    if host.platform.Windows? {
      assert |o.actions| == 1;
    } else {
      assert |ConnectionOnlyOnWindows| != |NoNetworkName|;
    }
  }

  /** On Windows a network group that is only "?" gets past the check and
      ends in a request to connect to a network with no name. */
  lemma ConnectsToEmptyName(h: Hit, host: Host)
    requires h.slot == "?" && host.platform.Windows?
    ensures ManageAsWritten("connect to ?", Some(h), host).actions == [ConnectWifi([])]
  {
    ConnectNotDisconnect();
    QuestionMarkIsTrimmed(h);
    EmptyNameRequested("connect to ?", h, host);
  }

  /** A group that is only "?" is its own stripped form. */
  lemma QuestionMarkIsTrimmed(h: Hit)
    requires h.slot == "?"
    ensures Strip(h.slot) == "?"
  {
    assert Trimmed("?");
    StripTrimmed("?");
  }

  /** The same request for any text that asks to connect. */
  lemma EmptyNameRequested(text: string, h: Hit, host: Host)
    requires Strip(h.slot) == "?" && IsConnect(Lower(text)) && host.platform.Windows?
    ensures ManageAsWritten(text, Some(h), host).actions == [ConnectWifi([])]
  {
  }

  lemma ConnectNotDisconnect()
    ensures IsConnect(Lower("connect to ?"))
  {
    assert Lower("connect to ?") == "connect to ?" by { ConnectToIsLower(); }
    assert Contains("connect to ?", "connect") by { ConnectToSaysConnect(); }
    assert !Contains("connect to ?", "disconnect") by { ConnectToLacksDisconnect(); }
  }

  /** Kept apart so that the literal stays out of the costlier proof that uses it. */
  lemma ConnectToLacksDisconnect()
    ensures !Contains("connect to ?", "disconnect")
  {
    assert 'd' in "disconnect" && 'd' !in "connect to ?";
    NotContainsByChar("connect to ?", "disconnect", 'd');
  }

  /** Kept apart so that the literal stays out of the costlier proof that uses it. */
  lemma ConnectToIsLower()
    ensures Lower("connect to ?") == "connect to ?"
  {
    assert NoUpper("connect to ?");
    LowerOfNoUpper("connect to ?");
  }

  /** Kept apart so that the literal stays out of the costlier proof that uses it. */
  lemma ConnectToSaysConnect()
    ensures Contains("connect to ?", "connect")
  {
    assert "connect to ?"[0..7] == "connect";
    assert OccursAt("connect to ?", "connect", 0);
  }

  /** `_manage_network_connection` with the emptiness check moved after the
      punctuation is removed: no connection is ever requested for an empty name. */
  function Manage(text: string, hit: Option<Hit>, host: Host): (o: Outcome)
    ensures forall a :: a in o.actions ==> a == DisconnectWifi || (a.ConnectWifi? && a.network != [])
    ensures var name := ConnectionName(text, hit);
            name.None? || DropTrailingPunct(name.value) == [] ==> o == Say(NoNetworkName)
    ensures var name := ConnectionName(text, hit);
            name.Some? && DropTrailingPunct(name.value) != [] ==>
              o == Connection(IsConnect(Lower(text)), DropTrailingPunct(name.value), host)
  {
    var name := ConnectionName(text, hit);
    if name.None? then Say(NoNetworkName)
    else
      var n := DropTrailingPunct(name.value);
      if n == [] then Say(NoNetworkName) else Connection(IsConnect(Lower(text)), n, host)
  }

  /** Where the name is not empty after the punctuation is removed, the
      corrected handler does what the code does. */
  lemma ManageAgrees(text: string, hit: Option<Hit>, host: Host)
    requires ConnectionName(text, hit).Some? && DropTrailingPunct(ConnectionName(text, hit).value) != []
    ensures Manage(text, hit, host) == ManageAsWritten(text, hit, host)
  {
  }

  // ---------------------------------------------------------------------------
  // Dispatch
  // ---------------------------------------------------------------------------

  /** `re.match` of each handler pattern against the router's matched text. */
  function Anchored(matched: string): (r: Option<NetworkCommand>)
    ensures r.Some? ==> exists k :: 0 <= k < |HandlerPatterns| && r.value == HandlerPatterns[k].1
                                    && MatchStart(HandlerPatterns[k].0, matched).Some?
                                    && forall j :: 0 <= j < k ==> MatchStart(HandlerPatterns[j].0, matched).None?
    ensures r.None? <==> forall k :: 0 <= k < |HandlerPatterns| ==> MatchStart(HandlerPatterns[k].0, matched).None?
  {
    var k :- First(HandlerPatterns, (e: (Pattern, NetworkCommand)) => MatchStart(e.0, matched).Some?);
    Some(HandlerPatterns[k].1)
  }

  /** `re.search` of each handler pattern in the lower-cased text, with the
      match that the chosen handler then reads. */
  function Searched(lower: string): (r: Option<(NetworkCommand, Hit)>)
    ensures r.Some? ==> exists k :: 0 <= k < |HandlerPatterns| && r.value.0 == HandlerPatterns[k].1
                                    && Find(HandlerPatterns[k].0, lower) == Some(r.value.1)
                                    && forall j :: 0 <= j < k ==> Find(HandlerPatterns[j].0, lower).None?
    ensures r.None? <==> forall k :: 0 <= k < |HandlerPatterns| ==> Find(HandlerPatterns[k].0, lower).None?
  {
    var k :- First(HandlerPatterns, (e: (Pattern, NetworkCommand)) => Find(e.0, lower).Some?);
    Some((HandlerPatterns[k].1, Find(HandlerPatterns[k].0, lower).value))
  }

  /** A handler reached through a pattern, given the match it reads. */
  function Run(c: NetworkCommand, text: string, hit: Hit, host: Host): (o: Outcome)
    ensures c == SwitchWifi ==> o == SwitchWifiTo(hit.slot == "on", host)
    ensures c == SwitchBluetooth ==> o == SwitchBluetoothTo(hit.slot == "on", host)
    ensures c == ShowAddress ==> o == ShowAddresses(host)
    ensures c == ManageConnection ==> o == ManageAsWritten(text, Some(hit), host)
  {
    match c
    case SwitchWifi => SwitchWifiTo(TurnOn(text, Some(hit)), host)
    case SwitchBluetooth => SwitchBluetoothTo(TurnOn(text, Some(hit)), host)
    case ShowAddress => ShowAddresses(host)
    case ManageConnection => ManageAsWritten(text, Some(hit), host)
  }

  /** What the keyword chain settles on: the first of WiFi, Bluetooth, the
      address and connections that the text mentions. */
  datatype Topic = WifiTopic | BluetoothTopic | AddressTopic | ConnectionTopic | NoTopic

  /** A text that mentions `u` mentions everything `u` contains. */
  lemma MentionsPart(lower: string, u: string, t: string)
    requires Contains(u, t)
    ensures Contains(lower, u) ==> Contains(lower, t)
  {
    if Contains(lower, u) {
      ContainsTransitive(lower, u, t);
    }
  }

  function TopicOf(lower: string): (t: Topic)
    ensures t == WifiTopic <==> Contains(lower, "wifi") || Contains(lower, "wireless")
    ensures t == BluetoothTopic <==> !Contains(lower, "wifi") && !Contains(lower, "wireless") && Contains(lower, "bluetooth")
    ensures t == AddressTopic <==> (!Contains(lower, "wifi") && !Contains(lower, "wireless") && !Contains(lower, "bluetooth")
                                    && Contains(lower, "ip"))
    ensures t == ConnectionTopic <==> (!Contains(lower, "wifi") && !Contains(lower, "wireless") && !Contains(lower, "bluetooth")
                                       && !Contains(lower, "ip") && Contains(lower, "connect"))
    ensures t == NoTopic <==> (!Contains(lower, "wifi") && !Contains(lower, "wireless") && !Contains(lower, "bluetooth")
                               && !Contains(lower, "ip") && !Contains(lower, "connect"))
  {
    assert Contains(lower, "disconnect") ==> Contains(lower, "connect") by {
      if Contains(lower, "disconnect") {
        DisconnectSaysConnect(lower);
      }
    }
    assert Contains("ip address", "ip") by { assert OccursAt("ip address", "ip", 0); }
    MentionsPart(lower, "ip address", "ip");
    if Contains(lower, "wifi") || Contains(lower, "wireless") then WifiTopic
    else if Contains(lower, "bluetooth") then BluetoothTopic
    else if Contains(lower, "ip") || Contains(lower, "ip address") then AddressTopic
    else if Contains(lower, "connect") || Contains(lower, "disconnect") then ConnectionTopic
    else NoTopic
  }

  /** The keyword chain that runs when no pattern matched. Within the radio
      branches "on" comes before "off", and a radio named with neither is
      asked about. */
  function ByKeyword(lower: string, host: Host): (o: Outcome)
    ensures TopicOf(lower) == WifiTopic && Contains(lower, "on") ==> o == SwitchWifiTo(true, host)
    ensures TopicOf(lower) == WifiTopic && !Contains(lower, "on") && Contains(lower, "off") ==> o == SwitchWifiTo(false, host)
    ensures TopicOf(lower) == WifiTopic && !Contains(lower, "on") && !Contains(lower, "off") ==> o == Say(AskWifi)
    ensures TopicOf(lower) == BluetoothTopic && Contains(lower, "on") ==> o == SwitchBluetoothTo(true, host)
    ensures TopicOf(lower) == BluetoothTopic && !Contains(lower, "on") && Contains(lower, "off") ==> o == SwitchBluetoothTo(false, host)
    ensures TopicOf(lower) == BluetoothTopic && !Contains(lower, "on") && !Contains(lower, "off") ==> o == Say(AskBluetooth)
    ensures TopicOf(lower) == AddressTopic ==> o == ShowAddresses(host)
    ensures TopicOf(lower) == ConnectionTopic ==> o == Say(SpecifyNetwork)
    ensures TopicOf(lower) == NoTopic ==> o == Say(Unknown)
  {
    match TopicOf(lower)
    case WifiTopic =>
      if Contains(lower, "on") then SwitchWifiTo(true, host)
      else if Contains(lower, "off") then SwitchWifiTo(false, host)
      else Say(AskWifi)
    case BluetoothTopic =>
      if Contains(lower, "on") then SwitchBluetoothTo(true, host)
      else if Contains(lower, "off") then SwitchBluetoothTo(false, host)
      else Say(AskBluetooth)
    case AddressTopic => ShowAddresses(host)
    case ConnectionTopic => Say(SpecifyNetwork)
    case NoTopic => Say(Unknown)
  }

  /** The only thing the keyword chain ever asks the machine to do is to
      switch WiFi. */
  lemma KeywordsOnlySwitchWifi(lower: string, host: Host)
    ensures forall a :: a in ByKeyword(lower, host).actions ==> a.SetWifi?
    ensures !host.platform.Windows? ==> ByKeyword(lower, host).actions == []
  {
  }

  /** The network handler only ever switches WiFi or joins and leaves a
      wireless network. */
  lemma ProcessOnlyNetworks(text: string, hit: Option<Hit>, host: Host)
    ensures forall a :: a in Process(text, hit, host).actions ==> a.SetWifi? || a.ConnectWifi? || a.DisconnectWifi?
  {
    var lower := Lower(text);
    if hit.Some? && Anchored(hit.value.matched).Some? {
      RunOnlyNetworks(Anchored(hit.value.matched).value, text, hit.value, host);
    } else if Searched(lower).Some? {
      RunOnlyNetworks(Searched(lower).value.0, text, Searched(lower).value.1, host);
    } else {
      KeywordsOnlySwitchWifi(lower, host);
    }
  }

  lemma RunOnlyNetworks(c: NetworkCommand, text: string, hit: Hit, host: Host)
    ensures forall a :: a in Run(c, text, hit, host).actions ==> a.SetWifi? || a.ConnectWifi? || a.DisconnectWifi?
    ensures !host.platform.Windows? ==> Run(c, text, hit, host).actions == []
  {
  }

  /** `NetworkCommands.process`. The router's match is handed on to the
      handler that the anchored table picks; otherwise the handler gets the
      match of its own pattern. */
  function Process(text: string, hit: Option<Hit>, host: Host): (o: Outcome)
    ensures hit.Some? && Anchored(hit.value.matched).Some? ==>
              o == Run(Anchored(hit.value.matched).value, text, hit.value, host)
    ensures (hit.None? || Anchored(hit.value.matched).None?) && Searched(Lower(text)).Some? ==>
              o == Run(Searched(Lower(text)).value.0, text, Searched(Lower(text)).value.1, host)
    ensures (hit.None? || Anchored(hit.value.matched).None?) && Searched(Lower(text)).None? ==>
              o == ByKeyword(Lower(text), host)
  {
    if hit.Some? && Anchored(hit.value.matched).Some? then Run(Anchored(hit.value.matched).value, text, hit.value, host)
    else
      match Searched(Lower(text))
      case Some((c, h)) => Run(c, text, h, host)
      case None => ByKeyword(Lower(text), host)
  }

  /** Only Windows is ever asked to do anything. */
  lemma OnlyWindowsActs(text: string, hit: Option<Hit>, host: Host)
    requires !host.platform.Windows?
    ensures Process(text, hit, host).actions == []
  {
    var lower := Lower(text);
    if hit.Some? && Anchored(hit.value.matched).Some? {
      RunOnlyNetworks(Anchored(hit.value.matched).value, text, hit.value, host);
    } else if Searched(lower).Some? {
      RunOnlyNetworks(Searched(lower).value.0, text, Searched(lower).value.1, host);
    } else {
      KeywordsOnlySwitchWifi(lower, host);
    }
  }
}

=== FILE: options.dfy ===
/** An optional value, usable with `:-` so that a failed step of a pattern
    match or a lookup propagates `None`. */
module Options {

  datatype Option<+T> = None | Some(value: T) {

    predicate IsFailure() {
      None?
    }

    function PropagateFailure<U>(): Option<U>
      requires None?
    {
      None
    }

    function Extract(): T
      requires Some?
    {
      value
    }

    /** The wrapped value, or `default` when there is none (Python's `x or default`). */
    function GetOr(default: T): T {
      match this
      case Some(v) => v
      case None => default
    }
  }
}

=== FILE: patterns.dfy ===
/** The regular expressions of the command router and the category handlers,
    each written out as a matcher over a string.

    Every pattern is matched the way Python's `re` matches it: `MatchAt` is an
    attempt anchored at one position (`re.match` when the position is 0) and
    `Find` is `re.search`, the leftmost position where the attempt succeeds.
    Quantifiers are greedy. In these patterns the alternatives of every group
    exclude each other at any one position, so a greedy, non-backtracking
    reading gives the same match as the regex engine; the one place where the
    engine gives a character back (`\s+[\w\s]+`) is written out explicitly.
    `.` stops at a newline, as it does without `re.DOTALL`. All patterns are
    applied to lower-cased text, which stands in for `re.IGNORECASE`. */
module Patterns {
  import opened Options
  import opened Text

  datatype Pattern =
    // command router: applications
    | OpenAny            // open\s+(?P<app_name>.*)
    | LaunchAny          // launch\s+(?P<app_name>.*)
    | StartAny           // start\s+(?P<app_name>.*)
    | RunAny             // run\s+(?P<app_name>.*)
    // command router and system handler
    | ShutdownMachine    // (shutdown|turn off)\s+(computer|pc|system)
    | RestartMachine     // restart\s+(computer|pc|system)
    | LockMachine        // lock\s+(computer|pc|system)
    | SleepMachine       // sleep\s+(computer|pc|system)
    | HibernateMachine   // hibernate\s+(computer|pc|system)
    | LogOut             // log\s?out
    // command router: network
    | ToggleRadio        // turn\s+(on|off)\s+(wifi|wireless|bluetooth)
    // command router and network handler
    | ShowIp             // (show|what is|what's)\s+(my)?\s*(ip address)
    | Connect            // (connect|disconnect)\s+(to|from)\s+(?P<network>.*)
    // network handler
    | ToggleWifi         // turn\s+(on|off)\s+(wifi|wireless)
    | ToggleBluetooth    // turn\s+(on|off)\s+bluetooth
    // command router: utilities
    | OpenUtility        // open\s+(control panel|task manager|file explorer)
    | ShowReport         // (show|list)\s+(running processes|cpu usage|memory usage)
    // command router and utility handler
    | SetVolume          // (set|adjust)\s+volume\s+(to|up|down|mute)
    // utility handler
    | OpenControlPanel   // open\s+control\s*panel
    | OpenTaskManager    // open\s+task\s*manager
    | OpenFileExplorer   // open\s+file\s*explorer
    | ListProcesses      // (show|list)\s+running\s*processes
    | ShowCpu            // (show|display)\s+cpu\s*usage
    | ShowMemory         // (show|display)\s+memory\s*usage
    // application handler, second stage
    | VerbWords          // (open|launch|start|run)\s+(?P<app_name>[\w\s]+)

  /** A successful match starting at `start`: `matched` is group 0 and
      `slot` the one group its callers read (the application name, the
      network name, `on`/`off`, or the digits of a delay; empty otherwise). */
  datatype Hit = Hit(start: nat, matched: string, slot: string)

  const AppVerbs: seq<string> := ["open", "launch", "start", "run"]
  const Machines: seq<string> := ["computer", "pc", "system"]

  // ---------------------------------------------------------------------------
  // Building blocks; each returns the position after what it consumed
  // ---------------------------------------------------------------------------

  /** A literal word at `i`. */
  function Word(s: string, i: nat, w: string): (r: Option<nat>)
    ensures r.Some? <==> OccursAt(s, w, i)
    ensures r.Some? ==> r.value == i + |w|
  {
    if OccursAt(s, w, i) then Some(i + |w|) else None
  }

  /** A group of alternatives `(a|b|...)` at `i`: the first alternative that occurs there. */
  function AnyWord(s: string, i: nat, ws: seq<string>): (r: Option<(nat, string)>)
    ensures r.Some? ==> r.value.1 in ws && OccursAt(s, r.value.1, i) && r.value.0 == i + |r.value.1|
    ensures r.None? <==> forall k :: 0 <= k < |ws| ==> !OccursAt(s, ws[k], i)
  {
    if ws == [] then None
    else if OccursAt(s, ws[0], i) then Some((i + |ws[0]|, ws[0]))
    else AnyWord(s, i, ws[1..])
  }

  /** `\s+`, greedy. */
  function Spaces(s: string, i: nat): (r: Option<nat>)
    ensures r.Some? <==> i < |s| && IsSpace(s[i])
    ensures r.Some? ==> i < r.value <= |s| && r.value == SpaceEnd(s, i)
  {
    if i < |s| && IsSpace(s[i]) then Some(SpaceEnd(s, i)) else None
  }

  /** The position of the first newline at or after `i`, or the end: where `.*` stops. */
  function LineEnd(s: string, i: nat): (j: nat)
    requires i <= |s|
    decreases |s| - i
    ensures i <= j <= |s|
    ensures forall k :: i <= k < j ==> s[k] != '\n'
    ensures j == |s| || s[j] == '\n'
  {
    if i == |s| || s[i] == '\n' then i else LineEnd(s, i + 1)
  }

  /** The end of the run of `[\w\s]` characters that starts at `i`. */
  function WordSpaceEnd(s: string, i: nat): (j: nat)
    requires i <= |s|
    decreases |s| - i
    ensures i <= j <= |s|
    ensures forall k :: i <= k < j ==> IsWordChar(s[k]) || IsSpace(s[k])
    ensures j == |s| || !(IsWordChar(s[j]) || IsSpace(s[j]))
  {
    if i == |s| || !(IsWordChar(s[i]) || IsSpace(s[i])) then i else WordSpaceEnd(s, i + 1)
  }

  /** The end of the run of digits that starts at `i`. */
  function DigitEnd(s: string, i: nat): (j: nat)
    requires i <= |s|
    decreases |s| - i
    ensures i <= j <= |s|
    ensures forall k :: i <= k < j ==> IsDigit(s[k])
    ensures j == |s| || !IsDigit(s[j])
  {
    if i == |s| || !IsDigit(s[i]) then i else DigitEnd(s, i + 1)
  }

  function HitTo(s: string, i: nat, j: nat, slot: string): (h: Hit)
    requires i <= j <= |s|
  {
    Hit(i, s[i..j], slot)
  }

  // ---------------------------------------------------------------------------
  // The shapes the patterns share
  // ---------------------------------------------------------------------------

  /** `verb\s+(?P<group>.*)`: the group is the rest of the line after the spaces. */
  function VerbRest(s: string, i: nat, verb: string): (r: Option<Hit>)
    ensures r.Some? <==> OccursAt(s, verb, i) && i + |verb| < |s| && IsSpace(s[i + |verb|])
    ensures r.Some? ==> r.value.start == i && i + |r.value.matched| <= |s|
    ensures r.Some? ==> r.value.slot == [] || !IsSpace(r.value.slot[0])
  {
    var v :- Word(s, i, verb);
    var w :- Spaces(s, v);
    var e := LineEnd(s, w);
    Some(HitTo(s, i, e, s[w..e]))
  }

  /** `(a|b)\s+(c|d)`. */
  function Phrase(s: string, i: nat, firsts: seq<string>, seconds: seq<string>): (r: Option<Hit>)
    ensures r.Some? ==> r.value.start == i && i + |r.value.matched| <= |s| && r.value.slot == []
    ensures r.Some? ==> exists k :: 0 <= k < |firsts| && OccursAt(s, firsts[k], i)
  {
    var a :- AnyWord(s, i, firsts);
    var w :- Spaces(s, a.0);
    var b :- AnyWord(s, w, seconds);
    Some(HitTo(s, i, b.0, []))
  }

  /** `(a|b)\s+x\s*y`. */
  function Compound(s: string, i: nat, firsts: seq<string>, x: string, y: string): (r: Option<Hit>)
    ensures r.Some? ==> r.value.start == i && i + |r.value.matched| <= |s| && r.value.slot == []
  {
    var a :- AnyWord(s, i, firsts);
    var w :- Spaces(s, a.0);
    var e :- Word(s, w, x);
    var f :- Word(s, SpaceEnd(s, e), y);
    Some(HitTo(s, i, f, []))
  }

  /** `turn\s+(on|off)\s+(targets)`; the slot is group 1, `on` or `off`. */
  function Toggle(s: string, i: nat, targets: seq<string>): (r: Option<Hit>)
    ensures r.Some? ==> r.value.start == i && i + |r.value.matched| <= |s|
    ensures r.Some? ==> r.value.slot in ["on", "off"]
  {
    var e :- Word(s, i, "turn");
    var w :- Spaces(s, e);
    var state :- AnyWord(s, w, ["on", "off"]);
    var w2 :- Spaces(s, state.0);
    var t :- AnyWord(s, w2, targets);
    Some(HitTo(s, i, t.0, state.1))
  }

  /** `log\s?out`. */
  function LogOutAt(s: string, i: nat): (r: Option<Hit>)
    ensures r.Some? ==> r.value.start == i && i + |r.value.matched| <= |s| && r.value.slot == []
  {
    var e :- Word(s, i, "log");
    if e < |s| && IsSpace(s[e]) && OccursAt(s, "out", e + 1) then Some(HitTo(s, i, e + 4, []))
    else
      var f :- Word(s, e, "out");
      Some(HitTo(s, i, f, []))
  }

  /** `(show|what is|what's)\s+(my)?\s*(ip address)`. */
  function ShowIpAt(s: string, i: nat): (r: Option<Hit>)
    ensures r.Some? ==> r.value.start == i && i + |r.value.matched| <= |s| && r.value.slot == []
  {
    var a :- AnyWord(s, i, ["show", "what is", "what's"]);
    var w :- Spaces(s, a.0);
    if OccursAt(s, "ip address", w) then Some(HitTo(s, i, w + 10, []))
    else
      var m :- Word(s, w, "my");
      var e :- Word(s, SpaceEnd(s, m), "ip address");
      Some(HitTo(s, i, e, []))
  }

  /** `(connect|disconnect)\s+(to|from)\s+(?P<network>.*)`. */
  function ConnectAt(s: string, i: nat): (r: Option<Hit>)
    ensures r.Some? ==> r.value.start == i && i + |r.value.matched| <= |s|
  {
    var a :- AnyWord(s, i, ["connect", "disconnect"]);
    var w :- Spaces(s, a.0);
    var b :- AnyWord(s, w, ["to", "from"]);
    var w2 :- Spaces(s, b.0);
    var e := LineEnd(s, w2);
    Some(HitTo(s, i, e, s[w2..e]))
  }

  /** `(set|adjust)\s+volume\s+(to|up|down|mute)`. */
  function SetVolumeAt(s: string, i: nat): (r: Option<Hit>)
    ensures r.Some? ==> r.value.start == i && i + |r.value.matched| <= |s| && r.value.slot == []
  {
    var a :- AnyWord(s, i, ["set", "adjust"]);
    var w :- Spaces(s, a.0);
    var e :- Word(s, w, "volume");
    var w2 :- Spaces(s, e);
    var b :- AnyWord(s, w2, ["to", "up", "down", "mute"]);
    Some(HitTo(s, i, b.0, []))
  }

  /** `(open|launch|start|run)\s+(?P<app_name>[\w\s]+)`. The greedy `\s+`
      gives its last space back to the group when no word character follows
      the spaces; with a single space and no word character there is no match. */
  function VerbWordsAt(s: string, i: nat): (r: Option<Hit>)
    ensures r.Some? ==> r.value.start == i && i + |r.value.matched| <= |s|
    ensures r.Some? ==> exists k :: 0 <= k < |AppVerbs| && OccursAt(s, AppVerbs[k], i)
  {
    var v :- AnyWord(s, i, AppVerbs);
    var w :- Spaces(s, v.0);
    if w < |s| && IsWordChar(s[w]) then
      var e := WordSpaceEnd(s, w);
      Some(HitTo(s, i, e, s[w..e]))
    else if w - v.0 >= 2 then
      Some(HitTo(s, i, w, s[w - 1..w]))
    else None
  }

  /** `(\d+)\s+unit`; the slot is the digits. */
  function DelayAt(s: string, i: nat, unit: string): (r: Option<Hit>)
    ensures r.Some? ==> r.value.start == i && i + |r.value.matched| <= |s|
    ensures r.Some? ==> r.value.slot != [] && AllDigits(r.value.slot)
    ensures r.Some? ==> Contains(s, unit)
  {
    if i < |s| && IsDigit(s[i]) then
      var e := DigitEnd(s, i);
      var w :- Spaces(s, e);
      var f :- Word(s, w, unit);
      Some(HitTo(s, i, f, s[i..e]))
    else None
  }

  // ---------------------------------------------------------------------------
  // Matching and searching
  // ---------------------------------------------------------------------------

  /** One attempt of pattern `p` anchored at position `i` of `s`. */
  function MatchAt(p: Pattern, s: string, i: nat): (r: Option<Hit>)
    ensures r.Some? ==> r.value.start == i && i + |r.value.matched| <= |s|
  {
    match p
    case OpenAny => VerbRest(s, i, "open")
    case LaunchAny => VerbRest(s, i, "launch")
    case StartAny => VerbRest(s, i, "start")
    case RunAny => VerbRest(s, i, "run")
    case ShutdownMachine => Phrase(s, i, ["shutdown", "turn off"], Machines)
    case RestartMachine => Phrase(s, i, ["restart"], Machines)
    case LockMachine => Phrase(s, i, ["lock"], Machines)
    case SleepMachine => Phrase(s, i, ["sleep"], Machines)
    case HibernateMachine => Phrase(s, i, ["hibernate"], Machines)
    case LogOut => LogOutAt(s, i)
    case ToggleRadio => Toggle(s, i, ["wifi", "wireless", "bluetooth"])
    case ShowIp => ShowIpAt(s, i)
    case Connect => ConnectAt(s, i)
    case ToggleWifi => Toggle(s, i, ["wifi", "wireless"])
    case ToggleBluetooth => Toggle(s, i, ["bluetooth"])
    case OpenUtility => Phrase(s, i, ["open"], ["control panel", "task manager", "file explorer"])
    case ShowReport => Phrase(s, i, ["show", "list"], ["running processes", "cpu usage", "memory usage"])
    case SetVolume => SetVolumeAt(s, i)
    case OpenControlPanel => Compound(s, i, ["open"], "control", "panel")
    case OpenTaskManager => Compound(s, i, ["open"], "task", "manager")
    case OpenFileExplorer => Compound(s, i, ["open"], "file", "explorer")
    case ListProcesses => Compound(s, i, ["show", "list"], "running", "processes")
    case ShowCpu => Compound(s, i, ["show", "display"], "cpu", "usage")
    case ShowMemory => Compound(s, i, ["show", "display"], "memory", "usage")
    case VerbWords => VerbWordsAt(s, i)
  }

  /** `re.match(p, s)`: an attempt at the start of `s`. */
  function MatchStart(p: Pattern, s: string): Option<Hit> {
    MatchAt(p, s, 0)
  }

  function FindFrom(p: Pattern, s: string, i: nat): (r: Option<Hit>)
    requires i <= |s|
    decreases |s| - i
    ensures r.Some? ==> i <= r.value.start && MatchAt(p, s, r.value.start) == r
    ensures forall j :: i <= j <= |s| && (r.None? || j < r.value.start) ==> MatchAt(p, s, j).None?
  {
    var m := MatchAt(p, s, i);
    if m.Some? then m
    else if i == |s| then None
    else FindFrom(p, s, i + 1)
  }

  /** `re.search(p, s)`: the attempt at the leftmost position where one succeeds. */
  function Find(p: Pattern, s: string): (r: Option<Hit>)
    ensures r.Some? ==> MatchAt(p, s, r.value.start) == r
    ensures r.Some? ==> forall j :: 0 <= j < r.value.start ==> MatchAt(p, s, j).None?
    ensures r.None? <==> forall j :: 0 <= j <= |s| ==> MatchAt(p, s, j).None?
  {
    FindFrom(p, s, 0)
  }

  /** `re.search` of the delay pattern `(\d+)\s+unit`, searched on its own
      in the same leftmost way as `Find`. */
  function FindDelayFrom(s: string, unit: string, i: nat): (r: Option<Hit>)
    requires i <= |s|
    decreases |s| - i
    ensures r.Some? ==> i <= r.value.start && DelayAt(s, r.value.start, unit) == r
    ensures forall j :: i <= j <= |s| && (r.None? || j < r.value.start) ==> DelayAt(s, j, unit).None?
  {
    var m := DelayAt(s, i, unit);
    if m.Some? then m
    else if i == |s| then None
    else FindDelayFrom(s, unit, i + 1)
  }

  function FindDelay(s: string, unit: string): (r: Option<Hit>)
    ensures r.Some? ==> DelayAt(s, r.value.start, unit) == r
    ensures r.Some? ==> forall j :: 0 <= j < r.value.start ==> DelayAt(s, j, unit).None?
    ensures r.None? <==> forall j :: 0 <= j <= |s| ==> DelayAt(s, j, unit).None?
  {
    FindDelayFrom(s, unit, 0)
  }

  // ---------------------------------------------------------------------------
  // Relations between patterns
  // ---------------------------------------------------------------------------

  /** Wherever `open\s+(control panel|...)` matches, `open\s+(?P<app_name>.*)`
      matches at the same place, so a table that lists the latter first never
      reaches the former. */
  lemma OpenUtilityImpliesOpenAny(s: string)
    requires Find(OpenUtility, s).Some?
    ensures Find(OpenAny, s).Some?
  {
    var i := Find(OpenUtility, s).value.start;
    assert OccursAt(s, "open", i);
    assert IsSpace(s[i + 4]);
    assert MatchAt(OpenAny, s, i).Some?;
  }

  /** `restart\s+X` contains `start\s+X`: wherever the system handler's
      restart pattern matches, the application pattern `start\s+` matches
      two characters later. */
  lemma RestartImpliesStartAny(s: string)
    requires Find(RestartMachine, s).Some?
    ensures Find(StartAny, s).Some?
  {
    var i := Find(RestartMachine, s).value.start;
    assert OccursAt(s, "restart", i);
    assert s[i + 2..i + 7] == s[i..i + 7][2..];
    assert OccursAt(s, "start", i + 2);
    assert IsSpace(s[i + 7]);
    assert MatchAt(StartAny, s, i + 2).Some?;
  }
}

=== FILE: response_generator.dfy ===
/** The response generator: reply templates filled with an action and a
    reason, status and list formatting, and spoken durations. */
module ResponseGenerator {
  import opened Text
  import opened Effects

  // ---------------------------------------------------------------------------
  // Templates
  // ---------------------------------------------------------------------------

  /** A `str.format` template, split at its `{action}` and `{reason}` fields. */
  datatype Piece = Lit(text: string) | ActionField | ReasonField

  type Template = seq<Piece>

  function Fill(t: Template, action: string, reason: string): string {
    if t == [] then ""
    else
      var head := match t[0]
        case Lit(text) => text
        case ActionField => action
        case ReasonField => reason;
      head + Fill(t[1..], action, reason)
  }

  lemma {:induction false} FillAppend(a: Template, b: Template, action: string, reason: string)
    ensures Fill(a + b, action, reason) == Fill(a, action, reason) + Fill(b, action, reason)
  {
    if a == [] {
      assert a + b == b;
    } else {
      assert (a + b)[1..] == a[1..] + b;
      FillAppend(a[1..], b, action, reason);
    }
  }

  /** Filling a template that has a field puts that field's value in the text. */
  lemma {:induction false} FillContainsField(t: Template, action: string, reason: string, k: nat)
    requires k < |t| && !t[k].Lit?
    ensures t[k].ActionField? ==> Contains(Fill(t, action, reason), action)
    ensures t[k].ReasonField? ==> Contains(Fill(t, action, reason), reason)
  {
    var s := Fill(t, action, reason);
    var head := s[..|s| - |Fill(t[1..], action, reason)|];
    if k == 0 {
      if t[0].ActionField? {
        assert OccursAt(s, action, 0);
      } else {
        assert OccursAt(s, reason, 0);
      }
    } else {
      FillContainsField(t[1..], action, reason, k - 1);
      var rest := Fill(t[1..], action, reason);
      assert s[|s| - |rest|..|s|] == rest;
      if t[k].ActionField? {
        ContainsInfix(s, action, |s| - |rest|, |s|);
      } else {
        ContainsInfix(s, reason, |s| - |rest|, |s|);
      }
    }
  }

  const SuccessTemplates: seq<Template> := [
    [Lit("Done! "), ActionField, Lit(".")],
    [Lit("I've "), ActionField, Lit(" for you.")],
    [Lit("Task complete. "), ActionField, Lit(".")],
    [Lit("That's done. "), ActionField, Lit(".")],
    [Lit("All set. "), ActionField, Lit(".")]
  ]

  const ErrorTemplates: seq<Template> := [
    [Lit("I'm sorry, I couldn't "), ActionField, Lit(". "), ReasonField],
    [Lit("I encountered an issue while trying to "), ActionField, Lit(". "), ReasonField],
    [Lit("I wasn't able to "), ActionField, Lit(". "), ReasonField],
    [Lit("There was a problem: "), ReasonField],
    [Lit("I couldn't complete that task. "), ReasonField]
  ]

  const ClarificationTemplates: seq<Template> := [
    [Lit("I'm not sure I understood. Did you want to "), ActionField, Lit("?")],
    [Lit("Could you clarify if you want me to "), ActionField, Lit("?")],
    [Lit("I didn't quite catch that. Do you want me to "), ActionField, Lit("?")],
    [Lit("I need more information. Are you asking me to "), ActionField, Lit("?")],
    [Lit("To confirm, would you like me to "), ActionField, Lit("?")]
  ]

  const Affirmations: seq<string> := [
    "I'll do that for you.",
    "Working on it now.",
    "Right away.",
    "Consider it done.",
    "Getting that for you now."
  ]

  /** `generate_success_response`: one of the five success templates, chosen
      by `pick`, always mentions the action. */
  function SuccessResponse(action: string, pick: Pick): (r: string)
    ensures Contains(r, action)
  {
    FillContainsField(SuccessTemplates[pick], action, "", 1);
    Fill(SuccessTemplates[pick], action, "")
  }

  /** `generate_error_response`: every error template mentions the reason;
      the first three also mention the action. */
  function ErrorResponse(action: string, reason: string, pick: Pick): (r: string)
    ensures Contains(r, reason)
    ensures pick < 3 ==> Contains(r, action)
  {
    var t := ErrorTemplates[pick];
    FillContainsField(t, action, reason, |t| - 1);
    FillContainsField(t, action, reason, 1);
    Fill(t, action, reason)
  }

  /** `generate_clarification_response`: a question that mentions the action. */
  function ClarificationResponse(action: string, pick: Pick): (r: string)
    ensures Contains(r, action)
    ensures r != [] && r[|r| - 1] == '?'
  {
    var t := ClarificationTemplates[pick];
    FillContainsField(t, action, "", 1);
    FillAppend(t[..2], [Lit("?")], action, "");
    assert t == t[..2] + [Lit("?")];
    Fill(t, action, "")
  }

  /** `generate_affirmation`. */
  function Affirmation(pick: Pick): (r: string)
    ensures r in Affirmations
  {
    Affirmations[pick]
  }

  // ---------------------------------------------------------------------------
  // System status
  // ---------------------------------------------------------------------------

  /** A status key as spoken: underscores become spaces, then `capitalize()`
      upper-cases the first character and lower-cases the rest. */
  function StatusKey(key: string): (r: string)
    ensures |r| == |key|
    ensures key != [] ==> r[0] == UpperChar(if key[0] == '_' then ' ' else key[0])
    ensures forall i :: 1 <= i < |r| ==> r[i] == LowerChar(if key[i] == '_' then ' ' else key[i])
    ensures '_' !in r
  {
    var spaced := ReplaceChar(key, '_', ' ');
    var r := Capitalize(spaced);
    assert forall i :: 0 <= i < |r| ==> r[i] != '_' by {
      forall i | 0 <= i < |r|
        ensures r[i] != '_'
      {
        assert spaced[i] != '_';
      }
    }
    r
  }

  function StatusLine(entry: (string, string)): string {
    StatusKey(entry.0) + ": " + entry.1
  }

  function StatusLines(status: seq<(string, string)>): (lines: seq<string>)
    ensures |lines| == |status|
    ensures forall k :: 0 <= k < |status| ==> lines[k] == StatusLine(status[k])
  {
    seq(|status|, k requires 0 <= k < |status| => StatusLine(status[k]))
  }

  /** `format_system_status`: one `Key: value` line per entry, in order,
      joined by ". " and closed by a full stop. */
  function FormatSystemStatus(status: seq<(string, string)>): (r: string)
    ensures status == [] ==> r == "."
    ensures |status| == 1 ==> r == StatusLine(status[0]) + "."
    ensures status != [] ==> StartsWith(r, StatusLine(status[0]))
    ensures r != [] && r[|r| - 1] == '.'
    ensures forall k :: 0 <= k < |status| ==> Contains(r, StatusLine(status[k]))
  {
    var lines := StatusLines(status);
    var body := Join(lines, ". ");
    forall k | 0 <= k < |status|
      ensures Contains(body + ".", StatusLine(status[k]))
    {
      JoinContainsEach(lines, ". ", k);
      assert (body + ".")[0..|body|] == body;
      ContainsInfix(body + ".", lines[k], 0, |body|);
    }
    assert |status| >= 2 ==> StartsWith(body + ".", lines[0]) by {
      if |status| >= 2 {
        assert body == lines[0] + ". " + Join(lines[1..], ". ");
        assert (body + ".")[..|lines[0]|] == lines[0];
      }
    }
    body + "."
  }

  /** One more entry adds ". " and its line before the closing full stop:
      the lines come in the order of the entries. */
  lemma StatusSnoc(status: seq<(string, string)>, e: (string, string))
    requires status != []
    ensures var r := FormatSystemStatus(status);
            FormatSystemStatus(status + [e]) == r[..|r| - 1] + ". " + StatusLine(e) + "."
  {
    var lines := StatusLines(status);
    assert StatusLines(status + [e]) == lines + [StatusLine(e)];
    JoinSnoc(lines, StatusLine(e), ". ");
    var r := FormatSystemStatus(status);
    assert r[..|r| - 1] == Join(lines, ". ");
  }

  /** Two entries give two lines joined by ". ". */
  lemma TwoStatusLines(a: (string, string), b: (string, string))
    ensures FormatSystemStatus([a, b]) == StatusLine(a) + ". " + StatusLine(b) + "."
  {
    StatusSnoc([a], b);
    assert [a] + [b] == [a, b];
    var r := FormatSystemStatus([a]);
    assert r[..|r| - 1] == StatusLine(a);
  }

  // ---------------------------------------------------------------------------
  // Lists
  // ---------------------------------------------------------------------------

  const NoItems := "I didn't find any items."
  const DefaultIntro := "Here's what I found:"

  /** `format_list_items`: the intro, then the items as an English list with
      a serial comma before "and", then a full stop. */
  function FormatListItems(items: seq<string>, intro: string): (r: string)
    ensures items == [] ==> r == NoItems
    ensures |items| == 1 ==> r == intro + " " + items[0] + "."
    ensures items != [] ==> |r| > |intro| && r[..|intro| + 1] == intro + " " && r[|r| - 1] == '.'
    ensures |items| >= 2 ==> Contains(r, ", and " + items[|items| - 1] + ".")
  {
    if items == [] then NoItems
    else if |items| == 1 then intro + " " + items[0] + "."
    else
      var r := intro + " " + (Join(items[..|items| - 1], ", ") + ", and " + items[|items| - 1]) + ".";
      var tail := ", and " + items[|items| - 1] + ".";
      assert r[|r| - |tail|..|r|] == tail;
      assert OccursAt(r, tail, |r| - |tail|);
      r
  }

  /** Every item is mentioned in the formatted list. */
  lemma ListMentionsEach(items: seq<string>, intro: string, k: nat)
    requires k < |items|
    ensures Contains(FormatListItems(items, intro), items[k])
  {
    if |items| == 1 {
      OccursInMiddle(intro + " ", items[0], ".");
    } else {
      var front := items[..|items| - 1];
      var last := items[|items| - 1];
      assert Contains(Join(front, ", "), items[k]) || Contains(last, items[k]) by {
        if k < |items| - 1 {
          JoinContainsEach(front, ", ", k);
          assert front[k] == items[k];
        } else {
          OccursInMiddle([], last, []);
          assert [] + last + [] == last;
        }
      }
      InSerialList(intro, Join(front, ", "), last, items[k]);
      assert FormatListItems(items, intro) == intro + " " + (Join(front, ", ") + ", and " + last) + ".";
    }
  }

  /** An item put in front of a list of two or more is followed by ", " and
      then the rest of the list as it would be spoken on its own. */
  lemma ListPrepend(a: string, items: seq<string>, intro: string)
    requires |items| >= 2
    ensures var rest := FormatListItems(items, intro);
            FormatListItems([a] + items, intro) == intro + " " + a + ", " + rest[|intro| + 1..]
  {
    var front, last := items[..|items| - 1], items[|items| - 1];
    var all := [a] + items;
    assert all[..|all| - 1] == [a] + front && all[|all| - 1] == last;
    JoinCons(a, front, ", ");
    SerialBody(intro, Join(front, ", "), last);
    SerialPrepend(intro, a, Join(front, ", "), last);
  }

  lemma JoinCons(a: string, xs: seq<string>, sep: string)
    requires xs != []
    ensures Join([a] + xs, sep) == a + sep + Join(xs, sep)
  {
    assert ([a] + xs)[1..] == xs;
  }

  /** Past the intro and its space comes the list itself. */
  lemma SerialBody(intro: string, body: string, last: string)
    ensures (intro + " " + (body + ", and " + last) + ".")[|intro| + 1..] == body + ", and " + last + "."
  {
  }

  lemma SerialPrepend(intro: string, a: string, body: string, last: string)
    ensures intro + " " + ((a + ", " + body) + ", and " + last) + "."
            == intro + " " + a + ", " + (body + ", and " + last + ".")
  {
  }

  /** Three items: commas between them and the serial comma before "and". */
  lemma ThreeItems(a: string, b: string, c: string)
    ensures FormatListItems([a, b, c], DefaultIntro) == DefaultIntro + " " + a + ", " + b + ", and " + c + "."
  {
    TwoItems(b, c);
    ListPrepend(a, [b, c], DefaultIntro);
    assert [a] + [b, c] == [a, b, c];
    SerialBody(DefaultIntro, b, c);
  }

  /** What the list before the "and", or the last item, contains, the
      whole formatted list contains. */
  lemma InSerialList(intro: string, body: string, last: string, t: string)
    requires Contains(body, t) || Contains(last, t)
    ensures Contains(intro + " " + (body + ", and " + last) + ".", t)
  {
    ContainsInConcat(body, ", and ", t);
    ContainsInConcat(body + ", and ", last, t);
    ContainsInConcat(intro + " ", body + ", and " + last, t);
    ContainsInConcat(intro + " " + (body + ", and " + last), ".", t);
  }

  /** Two items get the serial comma: "a, and b". */
  lemma TwoItems(a: string, b: string)
    ensures FormatListItems([a, b], DefaultIntro) == DefaultIntro + " " + a + ", and " + b + "."
  {
    assert [a, b][..1] == [a];
  }

  // ---------------------------------------------------------------------------
  // Durations
  // ---------------------------------------------------------------------------

  /** How `format_time_duration` buckets a number of seconds. */
  datatype Duration = InSeconds(seconds: int) | InMinutes(minutes: nat) | InHours(hours: nat, minutes: nat)

  /** The bucket of a duration, characterised by the floor division it performs. */
  function DurationOf(seconds: int): (d: Duration)
    ensures d.InSeconds? <==> seconds < 60
    ensures d.InSeconds? ==> d.seconds == seconds
    ensures d.InMinutes? ==> 1 <= d.minutes < 60 && d.minutes * 60 <= seconds < d.minutes * 60 + 60
    ensures d.InHours? ==> 1 <= d.hours && d.minutes < 60
                           && d.hours * 3600 + d.minutes * 60 <= seconds < d.hours * 3600 + d.minutes * 60 + 60
  {
    if seconds < 60 then InSeconds(seconds)
    else
      var minutes := seconds / 60;
      if minutes < 60 then InMinutes(minutes) else InHours(minutes / 60, minutes % 60)
  }

  /** `f"{n} {unit}{'s' if n != 1 else ''}"`: the number, a space and the
      unit, with an "s" added exactly when the number is not one. */
  function Counted(n: int, unit: string): (r: string)
    ensures var head := IntToString(n) + " " + unit;
            StartsWith(r, head) && r[|head|..] == if n == 1 then "" else "s"
    ensures |r| > 0
    ensures r[|r| - 1] == 's' <==> n != 1 || (unit != [] && unit[|unit| - 1] == 's')
  {
    var r := IntToString(n) + " " + unit + (if n != 1 then "s" else "");
    assert unit != [] ==> r[|r| - 1] == (if n != 1 then 's' else unit[|unit| - 1]);
    r
  }

  /** `format_time_duration`: under a minute in seconds, under an hour in
      whole minutes, otherwise in whole hours and the minutes left over,
      the minutes left out when there are none. */
  function FormatTimeDuration(seconds: int): (r: string)
    ensures seconds < 60 ==> r == Counted(seconds, "second")
    ensures 60 <= seconds < 3600 ==> r == Counted(seconds / 60, "minute")
    ensures seconds >= 3600 && seconds % 3600 < 60 ==> r == Counted(seconds / 3600, "hour")
    ensures seconds >= 3600 && seconds % 3600 >= 60 ==>
              r == Counted(seconds / 3600, "hour") + " and " + Counted(seconds % 3600 / 60, "minute")
  {
    MinutesOfHours(seconds);
    match DurationOf(seconds)
    case InSeconds(n) => Counted(n, "second")
    case InMinutes(m) => Counted(m, "minute")
    case InHours(h, m) => if m == 0 then Counted(h, "hour") else Counted(h, "hour") + " and " + Counted(m, "minute")
  }

  /** Dividing by 60 twice is dividing by 3600, and the minutes left after
      the whole hours are the remainder's whole minutes. */
  lemma MinutesOfHours(seconds: int)
    ensures seconds / 60 / 60 == seconds / 3600
    ensures seconds / 60 % 60 == seconds % 3600 / 60
  {
    var q, r := seconds / 3600, seconds % 3600;
    assert seconds == 3600 * q + r && 0 <= r < 3600;
    assert seconds / 60 == 60 * q + r / 60;
  }

  /** From one minute upwards the seconds are dropped: any two durations in the
      same whole minute are spoken alike. */
  lemma SecondsDropped(seconds: int, extra: nat)
    requires seconds >= 60 && seconds % 60 == 0 && extra < 60
    ensures FormatTimeDuration(seconds + extra) == FormatTimeDuration(seconds)
  {
    assert (seconds + extra) / 60 == seconds / 60;
  }

  /** A whole number of hours and minutes falls in the hours bucket with exactly those parts. */
  lemma DurationOfHours(hours: nat, minutes: nat)
    requires hours >= 1 && minutes < 60
    ensures DurationOf(hours * 3600 + minutes * 60) == InHours(hours, minutes)
  {
    var s := hours * 3600 + minutes * 60;
    assert s / 60 == hours * 60 + minutes;
    assert (hours * 60 + minutes) / 60 == hours;
    assert (hours * 60 + minutes) % 60 == minutes;
  }

  lemma ExampleSeconds()
    ensures FormatTimeDuration(1) == "1 second"
    ensures FormatTimeDuration(45) == "45 seconds"
  {
    assert NatToString(45) == "45";
  }

  lemma ExampleMinute()
    ensures FormatTimeDuration(90) == "1 minute"
  {
  }

  /** Whole hours and minutes are spoken as the two counts joined by "and". */
  lemma HoursAndMinutes(hours: nat, minutes: nat)
    requires hours >= 1 && 1 <= minutes < 60
    ensures FormatTimeDuration(hours * 3600 + minutes * 60) == Counted(hours, "hour") + " and " + Counted(minutes, "minute")
  {
    DurationOfHours(hours, minutes);
  }

  /** A whole number of hours is spoken without minutes. */
  lemma WholeHours(hours: nat)
    requires hours >= 1
    ensures FormatTimeDuration(hours * 3600) == Counted(hours, "hour")
  {
    assert hours * 3600 / 3600 == hours && hours * 3600 % 3600 == 0;
  }

  lemma ExampleHour()
    ensures FormatTimeDuration(3600) == "1 hour"
  {
    DurationOfHours(1, 0);
  }
}

=== FILE: scan.dfy ===
/** Ordered tables. The assistant keeps its priorities in Python dicts and lists
    whose insertion order decides which entry wins: the first entry that
    satisfies the test is taken and the rest are never looked at. */
module Scan {
  import opened Options

  function FirstFrom<T>(xs: seq<T>, p: T -> bool, i: nat): (r: Option<nat>)
    requires i <= |xs|
    decreases |xs| - i
    ensures r.Some? ==> i <= r.value < |xs| && p(xs[r.value])
    ensures forall j :: i <= j < |xs| && (r.None? || j < r.value) ==> !p(xs[j])
  {
    if i == |xs| then None
    else if p(xs[i]) then Some(i)
    else FirstFrom(xs, p, i + 1)
  }

  /** The index of the first entry of `xs` that satisfies `p`, if any. */
  function First<T>(xs: seq<T>, p: T -> bool): (r: Option<nat>)
    ensures r.Some? ==> r.value < |xs| && p(xs[r.value])
    ensures r.Some? ==> forall j :: 0 <= j < r.value ==> !p(xs[j])
    ensures r.None? <==> forall j :: 0 <= j < |xs| ==> !p(xs[j])
  {
    FirstFrom(xs, p, 0)
  }
}

=== FILE: search_commands.dfy ===
/** The search handler: the query a text asks about, and what is done with
    it. Fetching and scraping the results page is the `Host`'s `webAnswer`;
    opening a browser on the query is an `Action`. */
module SearchCommands {
  import opened Options
  import opened Text
  import opened Scan
  import opened Effects

  /** The prefixes tried in order; the first one that is followed by
      something other than whitespace gives the query. */
  const SearchPrefixes: seq<string> := [
    "search for",
    "search",
    "google",
    "look up",
    "find information about",
    "find info on",
    "find information on",
    "who is",
    "what is",
    "where is",
    "when is",
    "why is",
    "how to"
  ]

  const Clarify := "I'm not sure what you want me to search for. Can you please be more specific?"

  /** `command_lower.split(prefix, 1)[1].strip()` when the prefix occurs and
      leaves something behind it. */
  function QueryAfter(lower: string, prefix: string): (r: Option<string>)
    ensures r.Some? ==> Contains(lower, prefix) && r.value != [] && Trimmed(r.value)
    ensures r.Some? ==> r.value == Strip(After(lower, prefix))
    ensures r.None? <==> !Contains(lower, prefix) || Strip(After(lower, prefix)) == []
  {
    if Contains(lower, prefix) && Strip(After(lower, prefix)) != [] then Some(Strip(After(lower, prefix)))
    else None
  }

  /** The query given by the first prefix, in table order, that gives one. */
  function FirstQuery(lower: string, prefixes: seq<string>): (r: Option<string>)
    ensures r.Some? ==> exists k :: 0 <= k < |prefixes| && QueryAfter(lower, prefixes[k]) == r
                                    && forall j :: 0 <= j < k ==> QueryAfter(lower, prefixes[j]).None?
    ensures r.None? <==> forall k :: 0 <= k < |prefixes| ==> QueryAfter(lower, prefixes[k]).None?
  {
    var k :- First(prefixes, (p: string) => QueryAfter(lower, p).Some?);
    QueryAfter(lower, prefixes[k])
  }

  /** Whichever prefix comes first among those that give a query decides it. */
  lemma FirstQueryWins(lower: string, prefixes: seq<string>, k: nat, q: string)
    requires k < |prefixes| && QueryAfter(lower, prefixes[k]) == Some(q)
    requires forall j :: 0 <= j < k ==> QueryAfter(lower, prefixes[j]).None?
    ensures FirstQuery(lower, prefixes) == Some(q)
  {
    var r := FirstQuery(lower, prefixes);
    var m :| 0 <= m < |prefixes| && QueryAfter(lower, prefixes[m]) == r
             && forall j :: 0 <= j < m ==> QueryAfter(lower, prefixes[j]).None?;
    assert !(m < k);
    assert !(k < m);
  }

  /** `_extract_search_query`. When no prefix gives a query, the whole
      lower-cased text is the query; the question-word test in between
      returns that same text, so it changes nothing. */
  function ExtractSearchQuery(text: string): (q: string)
    ensures q == [] <==> text == []
    ensures |q| <= |text|
  {
    match FirstQuery(Lower(text), SearchPrefixes)
    case Some(v) => v
    case None => Lower(text)
  }

  /** A text that is a prefix, one space and a query, with no earlier prefix
      in it, asks about exactly that query. */
  lemma QueryAfterPrefixRoundTrip(text: string, k: nat, q: string)
    requires k < |SearchPrefixes|
    requires q != [] && Trimmed(q)
    requires Lower(text) == SearchPrefixes[k] + " " + q
    requires forall j :: 0 <= j < k ==> !Contains(Lower(text), SearchPrefixes[j])
    ensures ExtractSearchQuery(text) == q
  {
    PrefixQuery(Lower(text), SearchPrefixes[k], q);
    FirstQueryWins(Lower(text), SearchPrefixes, k, q);
  }

  /** A text in which no prefix is followed by anything is searched for as
      it was said, lower-cased. */
  lemma NoPrefixWholeText(text: string)
    requires forall k :: 0 <= k < |SearchPrefixes| ==> QueryAfter(Lower(text), SearchPrefixes[k]).None?
    ensures ExtractSearchQuery(text) == Lower(text)
  {
    assert FirstQuery(Lower(text), SearchPrefixes).None?;
  }

  /** The query after a leading prefix and one space. */
  lemma PrefixQuery(lower: string, p: string, q: string)
    requires q != [] && Trimmed(q)
    requires lower == p + " " + q
    ensures QueryAfter(lower, p) == Some(q)
  {
    assert lower[..|p|] == p;
    assert OccursAt(lower, p, 0);
    assert IndexOf(lower, p) == Some(0);
    assert After(lower, p) == " " + q;
    StripUnique(" ", q, []);
    assert " " + q + [] == " " + q;
  }

  /** `SearchCommands.process`. The direct answer, when the search page
      yields one, is the reply; otherwise a browser is opened on the query. */
  function Process(text: string, host: Host): (o: Outcome)
    ensures text == [] ==> o == Say(Clarify)
    ensures text != [] ==> forall a :: a in o.actions ==> a == OpenSearch(ExtractSearchQuery(text))
    ensures (text != [] && host.webAnswer(ExtractSearchQuery(text)).Some?
             && host.webAnswer(ExtractSearchQuery(text)).value != []) ==>
              o == Say(host.webAnswer(ExtractSearchQuery(text)).value)
    ensures (text != [] && (host.webAnswer(ExtractSearchQuery(text)).None?
                            || host.webAnswer(ExtractSearchQuery(text)).value == [])) ==>
              o.actions == [OpenSearch(ExtractSearchQuery(text))] && Contains(o.reply, ExtractSearchQuery(text))
  {
    var q := ExtractSearchQuery(text);
    if q == [] then Say(Clarify)
    else
      match host.webAnswer(q)
      case Some(answer) =>
        if answer != [] then Say(answer)
        else Opened(q)
      case None => Opened(q)
  }

  /** The reply to a search the page gave no answer for. */
  function Opened(q: string): (o: Outcome)
    ensures o.actions == [OpenSearch(q)]
    ensures Contains(o.reply, q)
  {
    OccursInMiddle("I've opened a Google search for '", q, "'.");
    Outcome("I've opened a Google search for '" + q + "'.", [OpenSearch(q)])
  }
}

=== FILE: system_commands.dfy ===
/** The system handler: which of the six power commands a text asks for,
    the delay it names, and the confirmation it asks for. None of the power
    commands is carried out; only locking acts at once. */
module SystemCommands {
  import opened Options
  import opened Text
  import opened Scan
  import opened Patterns
  import opened Effects

  datatype SystemCommand = Shutdown | Restart | Logout | Lock | Sleep | Hibernate

  /** The handler's pattern table, in insertion order. */
  const HandlerPatterns: seq<(Pattern, SystemCommand)> := [
    (ShutdownMachine, Shutdown),
    (RestartMachine, Restart),
    (LogOut, Logout),
    (LockMachine, Lock),
    (SleepMachine, Sleep),
    (HibernateMachine, Hibernate)
  ]

  /** The keyword chain that runs when no pattern matched, in its order. */
  const KeywordChain: seq<(seq<string>, SystemCommand)> := [
    (["shutdown", "turn off"], Shutdown),
    (["restart"], Restart),
    (["logout", "log out"], Logout),
    (["lock"], Lock),
    (["sleep"], Sleep),
    (["hibernate"], Hibernate)
  ]

  const Unknown := "I'm not sure which system command you want to execute. Try saying 'shutdown', 'restart', 'lock', 'sleep', 'hibernate', or 'log out'."
  const Locking := "Locking your computer."
  const MacLock := "pmset displaysleepnow"
  const LinuxLock := "xdg-screensaver lock"

  // ---------------------------------------------------------------------------
  // Choosing the command
  // ---------------------------------------------------------------------------

  /** `re.match` of each handler pattern against the router's matched text. */
  function Anchored(matched: string): (r: Option<SystemCommand>)
    ensures r.Some? <==> exists k :: 0 <= k < |HandlerPatterns| && MatchStart(HandlerPatterns[k].0, matched).Some?
    ensures r.Some? ==> exists k :: 0 <= k < |HandlerPatterns| && r.value == HandlerPatterns[k].1
                                    && MatchStart(HandlerPatterns[k].0, matched).Some?
                                    && forall j :: 0 <= j < k ==> MatchStart(HandlerPatterns[j].0, matched).None?
  {
    var k :- First(HandlerPatterns, (e: (Pattern, SystemCommand)) => MatchStart(e.0, matched).Some?);
    Some(HandlerPatterns[k].1)
  }

  /** `re.search` of each handler pattern in the lower-cased text. */
  function Searched(lower: string): (r: Option<SystemCommand>)
    ensures r.Some? <==> exists k :: 0 <= k < |HandlerPatterns| && Find(HandlerPatterns[k].0, lower).Some?
    ensures r.Some? ==> exists k :: 0 <= k < |HandlerPatterns| && r.value == HandlerPatterns[k].1
                                    && Find(HandlerPatterns[k].0, lower).Some?
                                    && forall j :: 0 <= j < k ==> Find(HandlerPatterns[j].0, lower).None?
  {
    var k :- First(HandlerPatterns, (e: (Pattern, SystemCommand)) => Find(e.0, lower).Some?);
    Some(HandlerPatterns[k].1)
  }

  /** The `if`/`elif` chain over keywords. */
  function ByKeyword(lower: string): (r: Option<SystemCommand>)
    ensures r.Some? <==> exists k :: 0 <= k < |KeywordChain| && ContainsAny(lower, KeywordChain[k].0)
    ensures r.Some? ==> exists k :: 0 <= k < |KeywordChain| && r.value == KeywordChain[k].1
                                    && ContainsAny(lower, KeywordChain[k].0)
                                    && forall j :: 0 <= j < k ==> !ContainsAny(lower, KeywordChain[j].0)
  {
    var k :- First(KeywordChain, (e: (seq<string>, SystemCommand)) => ContainsAny(lower, e.0));
    Some(KeywordChain[k].1)
  }

  /** The three stages of `SystemCommands.process`, each consulted only
      when the one before found nothing. */
  function Choose(text: string, hit: Option<Hit>): (r: Option<SystemCommand>)
    ensures hit.Some? && Anchored(hit.value.matched).Some? ==> r == Anchored(hit.value.matched)
    ensures (hit.None? || Anchored(hit.value.matched).None?) && Searched(Lower(text)).Some?
            ==> r == Searched(Lower(text))
    ensures (hit.None? || Anchored(hit.value.matched).None?) && Searched(Lower(text)).None?
            ==> r == ByKeyword(Lower(text))
    ensures r.None? <==> (hit.None? || Anchored(hit.value.matched).None?)
                         && Searched(Lower(text)).None? && ByKeyword(Lower(text)).None?
  {
    var lower := Lower(text);
    if hit.Some? && Anchored(hit.value.matched).Some? then Anchored(hit.value.matched)
    else if Searched(lower).Some? then Searched(lower)
    else ByKeyword(lower)
  }

  /** Whatever else the text says, a "shutdown" or "turn off" in it selects
      shutdown once no pattern has matched. */
  lemma ShutdownKeywordFirst(text: string)
    requires Contains(Lower(text), "shutdown") || Contains(Lower(text), "turn off")
    requires Searched(Lower(text)).None?
    ensures Choose(text, None) == Some(Shutdown)
  {
    var lower := Lower(text);
    ContainsAnyIndex(lower, KeywordChain[0].0);
    assert ContainsAny(lower, KeywordChain[0].0);
  }

  // ---------------------------------------------------------------------------
  // The delay
  // ---------------------------------------------------------------------------

  const Second := "second"
  const Minute := "minute"
  const Hour := "hour"

  /** The number that the delay pattern `(\d+)\s+unit` finds first, if it finds one. */
  function DelayCount(unit: string, lower: string): (n: Option<nat>)
    ensures n.Some? <==> FindDelay(lower, unit).Some?
  {
    match FindDelay(lower, unit)
    case None => None
    case Some(h) => Some(ParseDigits(h.slot))
  }

  /** `_extract_time_delay`, in seconds: a number of seconds is preferred to
      a number of minutes, which is preferred to a number of hours. */
  function TimeDelay(text: string): (d: nat)
    ensures var lower := Lower(text);
            DelayCount(Second, lower).Some? ==> d == DelayCount(Second, lower).value
    ensures var lower := Lower(text);
            DelayCount(Second, lower).None? && DelayCount(Minute, lower).Some?
            ==> d == 60 * DelayCount(Minute, lower).value
    ensures var lower := Lower(text);
            (DelayCount(Second, lower).None? && DelayCount(Minute, lower).None?
             && DelayCount(Hour, lower).Some?) ==> d == 3600 * DelayCount(Hour, lower).value
    ensures var lower := Lower(text);
            d > 0 ==> DelayCount(Second, lower).Some? || DelayCount(Minute, lower).Some?
                      || DelayCount(Hour, lower).Some?
  {
    var lower := Lower(text);
    match DelayCount(Second, lower)
    case Some(n) => n
    case None =>
      match DelayCount(Minute, lower)
      case Some(n) => 60 * n
      case None =>
        match DelayCount(Hour, lower)
        case Some(n) => 3600 * n
        case None => 0
  }

  /** A delay pattern finds nothing in a text without its unit. */
  lemma DelayNeedsUnit(unit: string, s: string)
    requires !Contains(s, unit)
    ensures FindDelay(s, unit).None?
  {
    forall j | 0 <= j <= |s|
      ensures DelayAt(s, j, unit).None?
    {
    }
  }

  /** A number followed by a space and a unit is found at the start of the text. */
  lemma DelayAtStart(unit: string, n: nat, tail: string)
    requires unit != [] && !IsSpace(unit[0])
    requires 1 + |unit| <= |tail| && tail[0] == ' ' && OccursAt(tail, unit, 1)
    ensures DelayCount(unit, NatToString(n) + tail) == Some(n)
  {
    var digits := NatToString(n);
    DigitsThenOther(digits, tail);
    SpaceThenUnit(digits, tail, unit);
    FoundAtStart(digits + tail, unit, |digits|);
    ParseNatToString(n);
  }

  /** After the digits come one space and the unit. */
  lemma SpaceThenUnit(digits: string, tail: string, unit: string)
    requires unit != [] && !IsSpace(unit[0])
    requires 1 + |unit| <= |tail| && tail[0] == ' ' && OccursAt(tail, unit, 1)
    ensures Spaces(digits + tail, |digits|) == Some(|digits| + 1)
    ensures Word(digits + tail, |digits| + 1, unit).Some?
  {
    var s := digits + tail;
    assert s[|digits|] == ' ' && s[|digits| + 1] == unit[0];
    OccursAtShift(digits, tail, unit, 1);
  }

  /** Digits up to `e`, one space and the unit: the search stops at the start. */
  lemma FoundAtStart(s: string, unit: string, e: nat)
    requires e < |s| && IsDigit(s[0]) && DigitEnd(s, 0) == e
    requires Spaces(s, e) == Some(e + 1) && Word(s, e + 1, unit).Some?
    ensures FindDelay(s, unit).Some? && FindDelay(s, unit).value.slot == s[0..e]
  {
    assert DelayAt(s, 0, unit).Some?;
  }

  /** A run of digits followed by a non-digit ends where the digits do. */
  lemma DigitsThenOther(digits: string, tail: string)
    requires digits != [] && AllDigits(digits) && tail != [] && !IsDigit(tail[0])
    ensures DigitEnd(digits + tail, 0) == |digits| && (digits + tail)[0..|digits|] == digits
    ensures IsDigit((digits + tail)[0])
  {
    var s := digits + tail;
    assert forall k :: 0 <= k < |digits| ==> s[k] == digits[k];
    assert s[|digits|] == tail[0];
    assert s[0..|digits|] == digits;
  }

  /** The characters of a number are digits, so a number holds no letter. */
  lemma NumberHasNoLetter(n: nat, c: char)
    requires !IsDigit(c)
    ensures c !in NatToString(n)
  {
    var r := NatToString(n);
    assert forall k :: 0 <= k < |r| ==> IsDigit(r[k]);
  }

  lemma SpokenDelayIsLower(n: nat, tail: string)
    requires NoUpper(tail)
    ensures Lower(NatToString(n) + tail) == NatToString(n) + tail
  {
    var s := NatToString(n) + tail;
    assert forall k :: 0 <= k < |NatToString(n)| ==> IsDigit(s[k]);
    assert forall k :: |NatToString(n)| <= k < |s| ==> s[k] == tail[k - |NatToString(n)|];
    LowerOfNoUpper(s);
  }

  /** A spoken delay is read back in seconds: "N seconds" is N, "N minutes"
      is 60 N and "N hours" is 3600 N. */
  lemma SpokenSeconds(n: nat)
    ensures TimeDelay(NatToString(n) + " seconds") == n
  {
    SpokenTail(" seconds", Second);
    SpokenDelay(Second, n, " seconds");
  }

  lemma SpokenMinutes(n: nat)
    ensures TimeDelay(NatToString(n) + " minutes") == 60 * n
  {
    SpokenTail(" minutes", Minute);
    assert 'c' in Second && 'c' !in " minutes";
    NoDelayWithout(Second, n, " minutes", 'c');
    SpokenDelay(Minute, n, " minutes");
  }

  lemma SpokenHours(n: nat)
    ensures TimeDelay(NatToString(n) + " hours") == 3600 * n
  {
    SpokenTail(" hours", Hour);
    assert 'c' in Second && 'm' in Minute && 'c' !in " hours" && 'm' !in " hours";
    NoDelayWithout(Second, n, " hours", 'c');
    NoDelayWithout(Minute, n, " hours", 'm');
    SpokenDelay(Hour, n, " hours");
  }

  /** A tail of a spoken delay: one space, then the unit in the plural. */
  ghost predicate IsSpokenTail(tail: string, unit: string) {
    unit != [] && !IsSpace(unit[0]) && 1 + |unit| <= |tail| && tail[0] == ' '
    && OccursAt(tail, unit, 1) && NoUpper(tail)
  }

  lemma SpokenTail(tail: string, unit: string)
    requires tail == " " + unit + "s" && unit in {Second, Minute, Hour}
    ensures IsSpokenTail(tail, unit)
  {
    assert tail[1..1 + |unit|] == unit;
  }

  /** A number and a spoken tail are already lower case, and the number is
      found as a delay in the tail's unit. */
  lemma SpokenDelay(unit: string, n: nat, tail: string)
    requires IsSpokenTail(tail, unit)
    ensures Lower(NatToString(n) + tail) == NatToString(n) + tail
    ensures DelayCount(unit, NatToString(n) + tail) == Some(n)
  {
    DelayAtStart(unit, n, tail);
    SpokenDelayIsLower(n, tail);
  }

  /** A number and a tail that lacks a letter of a unit hold no delay in that unit. */
  lemma NoDelayWithout(unit: string, n: nat, tail: string, c: char)
    requires !IsDigit(c) && c in unit && c !in tail
    ensures DelayCount(unit, NatToString(n) + tail).None?
  {
    Lacks(n, tail, unit, c);
    DelayNeedsUnit(unit, NatToString(n) + tail);
  }

  /** A number followed by a tail lacks a word that has a letter the tail lacks. */
  lemma Lacks(n: nat, tail: string, word: string, c: char)
    requires !IsDigit(c) && c in word && c !in tail
    ensures !Contains(NatToString(n) + tail, word)
  {
    NumberHasNoLetter(n, c);
    var s := NatToString(n) + tail;
    assert forall k :: 0 <= k < |s| ==> s[k] != c by {
      forall k | 0 <= k < |s| ensures s[k] != c {
        if k < |NatToString(n)| {
          assert s[k] == NatToString(n)[k];
        } else {
          assert s[k] == tail[k - |NatToString(n)|];
        }
      }
    }
    NotContainsByChar(s, word, c);
  }

  // ---------------------------------------------------------------------------
  // Replies
  // ---------------------------------------------------------------------------

  /** `' in ' + str(delay) + ' seconds' if delay > 0 else ' now'`. */
  function When(delay: nat): (r: string)
    ensures delay == 0 <==> r == " now"
    ensures delay > 0 ==> r == " in " + NatToString(delay) + " seconds"
    ensures delay > 0 ==> Contains(r, NatToString(delay))
  {
    if delay > 0 then
      OccursInMiddle(" in ", NatToString(delay), " seconds");
      " in " + NatToString(delay) + " seconds"
    else " now"
  }

  /** A handler that only asks: it speaks the question and replies that it
      will act after confirmation. */
  function Confirm(subject: string): (o: Outcome)
    ensures o.actions == [Speak(subject + ". Are you sure?")]
    ensures o.reply == subject + " after confirmation."
  {
    Outcome(subject + " after confirmation.", [Speak(subject + ". Are you sure?")])
  }

  /** `_lock`: the only command that acts at once. */
  function LockNow(host: Host): (o: Outcome)
    ensures host.platform.Windows? ==> o.actions == [LockWorkstation]
    ensures host.platform.MacOS? ==> o == Outcome(Locking, [Shell(MacLock)])
    ensures host.platform.Linux? ==> o == Outcome(Locking, [Shell(LinuxLock)])
    ensures o.reply == Locking || (host.platform.Windows? && host.attempt(LockWorkstation).Some?
                                   && o.reply == "I couldn't lock your computer. Error: " + host.attempt(LockWorkstation).value)
  {
    match host.platform
    case Windows =>
      (match host.attempt(LockWorkstation)
       case None => Outcome(Locking, [LockWorkstation])
       case Some(e) => Outcome("I couldn't lock your computer. Error: " + e, [LockWorkstation]))
    case MacOS => Outcome(Locking, [Shell(MacLock)])
    case Linux => Outcome(Locking, [Shell(LinuxLock)])
  }

  /** The subject of each confirmation; shutdown and restart name the delay. */
  function Subject(c: SystemCommand, text: string): (r: string)
    requires !c.Lock?
    ensures c.Shutdown? ==> r == "I'll shut down your computer" + When(TimeDelay(text))
    ensures c.Restart? ==> r == "I'll restart your computer" + When(TimeDelay(text))
    ensures c.Logout? ==> r == "I'll log you out"
    ensures c.Sleep? ==> r == "I'll put your computer to sleep"
    ensures c.Hibernate? ==> r == "I'll hibernate your computer"
    ensures c.Shutdown? || c.Restart? ==>
              (TimeDelay(text) > 0 ==> Contains(r, NatToString(TimeDelay(text))))
              && (TimeDelay(text) == 0 ==> Contains(r, " now"))
  {
    match c
    case Shutdown => WithDelay("I'll shut down your computer", TimeDelay(text))
    case Restart => WithDelay("I'll restart your computer", TimeDelay(text))
    case Logout => "I'll log you out"
    case Sleep => "I'll put your computer to sleep"
    case Hibernate => "I'll hibernate your computer"
  }

  function WithDelay(head: string, delay: nat): (r: string)
    ensures delay > 0 ==> Contains(r, NatToString(delay))
    ensures delay == 0 ==> Contains(r, " now")
  {
    var w := When(delay);
    if delay > 0 then
      var i :| OccursAt(w, NatToString(delay), i);
      OccursAtShift(head, w, NatToString(delay), i);
      head + w
    else
      OccursInMiddle(head, w, []);
      assert head + w + [] == head + w;
      head + w
  }

  /** Running one command. Every command but lock only speaks a question;
      nothing is shut down, restarted, logged out, put to sleep or hibernated. */
  function Execute(c: SystemCommand, text: string, host: Host): (o: Outcome)
    ensures !c.Lock? ==> o == Confirm(Subject(c, text))
    ensures c.Lock? ==> o == LockNow(host)
    ensures forall a :: a in o.actions ==> a.Speak? || a in {LockWorkstation, Shell(MacLock), Shell(LinuxLock)}
  {
    if c.Lock? then LockNow(host) else Confirm(Subject(c, text))
  }

  /** `SystemCommands.process`. */
  function Process(text: string, hit: Option<Hit>, host: Host): (o: Outcome)
    ensures Choose(text, hit).None? <==> o == Say(Unknown)
    ensures Choose(text, hit).Some? ==> o == Execute(Choose(text, hit).value, text, host)
  {
    match Choose(text, hit)
    case None => Say(Unknown)
    case Some(c) =>
      UnknownIsNoReply(c, text, host);
      Execute(c, text, host)
  }

  /** A confirmation whose subject names a delay. */
  lemma DelayedConfirmation(head: string, d: nat)
    ensures d > 0 ==> Confirm(head + When(d)).reply
                        == head + " in " + NatToString(d) + " seconds after confirmation."
    ensures d == 0 ==> Confirm(head + When(d)).reply == head + " now after confirmation."
  {
    if d > 0 {
      var n := NatToString(d);
      assert " seconds" + " after confirmation." == " seconds after confirmation.";
      assert head + (" in " + n + " seconds") + " after confirmation."
          == head + " in " + n + (" seconds" + " after confirmation.");
    } else {
      assert " now" + " after confirmation." == " now after confirmation.";
      assert head + " now" + " after confirmation." == head + (" now" + " after confirmation.");
    }
  }

  /** A delayed shutdown confirms with the delay in seconds, an immediate one with "now". */
  lemma ShutdownConfirmation(text: string, host: Host)
    ensures var d := TimeDelay(text);
            d > 0 ==> Execute(Shutdown, text, host).reply
                        == "I'll shut down your computer" + " in " + NatToString(d) + " seconds after confirmation."
    ensures TimeDelay(text) == 0 ==>
              Execute(Shutdown, text, host).reply == "I'll shut down your computer" + " now after confirmation."
  {
    var d := TimeDelay(text);
    assert Execute(Shutdown, text, host) == Confirm("I'll shut down your computer" + When(d));
    DelayedConfirmation("I'll shut down your computer", d);
  }

  /** The same for restart. */
  lemma RestartConfirmation(text: string, host: Host)
    ensures var d := TimeDelay(text);
            d > 0 ==> Execute(Restart, text, host).reply
                        == "I'll restart your computer" + " in " + NatToString(d) + " seconds after confirmation."
    ensures TimeDelay(text) == 0 ==>
              Execute(Restart, text, host).reply == "I'll restart your computer" + " now after confirmation."
  {
    var d := TimeDelay(text);
    assert Execute(Restart, text, host) == Confirm("I'll restart your computer" + When(d));
    DelayedConfirmation("I'll restart your computer", d);
  }

  /** Logging out, sleep and hibernation ask and confirm with fixed texts. */
  lemma LogoutConfirmation(text: string, host: Host)
    ensures Execute(Logout, text, host)
              == Outcome("I'll log you out after confirmation.", [Speak("I'll log you out. Are you sure?")])
  {
    var subject := "I'll log you out";
    assert Subject(Logout, text) == subject;
    assert subject + " after confirmation." == "I'll log you out after confirmation.";
    assert subject + ". Are you sure?" == "I'll log you out. Are you sure?";
  }

  lemma SleepConfirmation(text: string, host: Host)
    ensures Execute(Sleep, text, host)
              == Outcome("I'll put your computer to sleep after confirmation.",
                         [Speak("I'll put your computer to sleep. Are you sure?")])
  {
    var subject := "I'll put your computer to sleep";
    assert Subject(Sleep, text) == subject;
    assert subject + " after confirmation." == "I'll put your computer to sleep after confirmation.";
    assert subject + ". Are you sure?" == "I'll put your computer to sleep. Are you sure?";
  }

  lemma HibernateConfirmation(text: string, host: Host)
    ensures Execute(Hibernate, text, host)
              == Outcome("I'll hibernate your computer after confirmation.",
                         [Speak("I'll hibernate your computer. Are you sure?")])
  {
    var subject := "I'll hibernate your computer";
    assert Subject(Hibernate, text) == subject;
    assert subject + " after confirmation." == "I'll hibernate your computer after confirmation.";
    assert subject + ". Are you sure?" == "I'll hibernate your computer. Are you sure?";
  }

  /** No command's reply is the fallback message. */
  lemma UnknownIsNoReply(c: SystemCommand, text: string, host: Host)
    ensures Execute(c, text, host) != Say(Unknown)
  {
    var o := Execute(c, text, host);
    if !c.Lock? {
      assert |o.actions| == 1;
    } else if host.platform.Windows? {
      assert |o.actions| == 1;
    } else {
      assert o.reply == Locking;
      assert |Locking| != |Unknown|;
    }
  }

  /** "shutdown in N minutes", which no handler pattern matches, is a
      shutdown whose confirmation names the delay in seconds. */
  lemma ShutdownNamesDelay(n: nat, host: Host)
    requires n > 0
    ensures var text := "shutdown in " + NatToString(n) + " minutes";
            Process(text, None, host) == Execute(Shutdown, text, host)
            && Contains(Process(text, None, host).reply, NatToString(60 * n))
  {
    var text := "shutdown in " + NatToString(n) + " minutes";
    SpokenShutdown(n);
    assert OccursAt(text, "shutdown", 0);
    LacksLetters(text);
    ShutdownKeywordFirst(text);
    DelayInMinutes(text, "shutdown in ", n, " minutes");
    var subject := Subject(Shutdown, text);
    OccursInMiddle([], subject, " after confirmation.");
    assert [] + subject + " after confirmation." == subject + " after confirmation.";
    ContainsTransitive(subject + " after confirmation.", subject, NatToString(60 * n));
  }

  /** The letters of the spoken request, as far as the patterns care. */
  lemma SpokenShutdown(n: nat)
    ensures var text := "shutdown in " + NatToString(n) + " minutes";
            Lower(text) == text && 'c' !in text && 'l' !in text && 'y' !in text
            && forall k :: 0 <= k < |"shutdown in "| ==> !IsDigit(text[k])
  {
    var text := "shutdown in " + NatToString(n) + " minutes";
    assert NoUpper("shutdown in ") && NoUpper(" minutes");
    SpokenIsLower("shutdown in ", n, " minutes");
    SpokenLacks("shutdown in ", n, " minutes", 'c');
    SpokenLacks("shutdown in ", n, " minutes", 'l');
    SpokenLacks("shutdown in ", n, " minutes", 'y');
    assert forall k :: 0 <= k < |"shutdown in "| ==> text[k] == "shutdown in "[k];
  }

  lemma SpokenIsLower(prefix: string, n: nat, tail: string)
    requires NoUpper(prefix) && NoUpper(tail)
    ensures Lower(prefix + NatToString(n) + tail) == prefix + NatToString(n) + tail
  {
    var d := NatToString(n);
    var s := prefix + d + tail;
    assert forall k :: |prefix| <= k < |prefix| + |d| ==> s[k] == d[k - |prefix|];
    assert forall k :: |prefix| + |d| <= k < |s| ==> s[k] == tail[k - |prefix| - |d|];
    LowerOfNoUpper(s);
  }

  lemma SpokenLacks(prefix: string, n: nat, tail: string, c: char)
    requires !IsDigit(c) && c !in prefix && c !in tail
    ensures c !in prefix + NatToString(n) + tail
  {
    NumberHasNoLetter(n, c);
  }

  /** A text without 'c', 'l' or 'y' matches none of the handler patterns:
      each of them needs "computer", "pc", "system" or "log". */
  lemma LacksLetters(s: string)
    requires 'c' !in s && 'l' !in s && 'y' !in s
    ensures Searched(s).None?
  {
    NoHandlerMatch(s);
    assert forall k :: 0 <= k < |HandlerPatterns| ==> Find(HandlerPatterns[k].0, s).None?;
  }

  /** No handler pattern matches at any position of such a text. */
  lemma NoHandlerMatch(s: string)
    requires 'c' !in s && 'l' !in s && 'y' !in s
    ensures forall k, j :: 0 <= k < |HandlerPatterns| && 0 <= j <= |s| ==> MatchAt(HandlerPatterns[k].0, s, j).None?
  {
    NotContainsByChar(s, "log", 'l');
    NoMachineWord(s);
    forall k, j | 0 <= k < |HandlerPatterns| && 0 <= j <= |s|
      ensures MatchAt(HandlerPatterns[k].0, s, j).None?
    {
      assert !OccursAt(s, "log", j);
    }
  }

  /** "computer", "pc" and "system" each need a 'c' or a 'y'. */
  lemma NoMachineWord(s: string)
    requires 'c' !in s && 'y' !in s
    ensures forall w: nat :: AnyWord(s, w, Machines).None?
  {
    NotContainsByChar(s, "computer", 'c');
    NotContainsByChar(s, "pc", 'c');
    NotContainsByChar(s, "system", 'y');
    forall w: nat
      ensures AnyWord(s, w, Machines).None?
    {
      assert !OccursAt(s, Machines[0], w) && !OccursAt(s, Machines[1], w) && !OccursAt(s, Machines[2], w);
    }
  }

  /** Letters, then a number, one space and a unit in the plural, with no
      "second" anywhere: the delay is the number of that unit. */
  lemma DelayInMinutes(text: string, prefix: string, n: nat, tail: string)
    requires text == prefix + NatToString(n) + tail && tail == " minutes" && 'c' !in text
    requires Lower(text) == text && forall k :: 0 <= k < |prefix| ==> !IsDigit(text[k])
    ensures TimeDelay(text) == 60 * n
  {
    NotContainsByChar(text, Second, 'c');
    DelayNeedsUnit(Second, text);
    SpokenTail(tail, Minute);
    DelayAfter(text, prefix, Minute, n, tail);
  }

  /** The delay search skips a prefix without digits. */
  lemma DelayAfter(s: string, prefix: string, unit: string, n: nat, tail: string)
    requires s == prefix + NatToString(n) + tail && IsSpokenTail(tail, unit)
    requires forall k :: 0 <= k < |prefix| ==> !IsDigit(s[k])
    ensures DelayCount(unit, s) == Some(n)
  {
    var p := |prefix|;
    DelayAtNumber(s, prefix, unit, n, tail);
    assert forall j :: 0 <= j < p ==> DelayAt(s, j, unit).None?;
    var r := FindDelay(s, unit);
    assert r.Some? && r.value.start == p;
    ParseNatToString(n);
  }

  /** The delay pattern matches at the start of the number, capturing it. */
  lemma DelayAtNumber(s: string, prefix: string, unit: string, n: nat, tail: string)
    requires s == prefix + NatToString(n) + tail && IsSpokenTail(tail, unit)
    ensures DelayAt(s, |prefix|, unit).Some? && DelayAt(s, |prefix|, unit).value.slot == NatToString(n)
  {
    var d := NatToString(n);
    var p, e := |prefix|, |prefix| + |d|;
    assert s[p..e] == d;
    assert s[e..] == tail;
    assert forall k :: p <= k < e ==> IsDigit(s[k]) by {
      forall k | p <= k < e
        ensures IsDigit(s[k])
      {
        assert s[k] == d[k - p];
      }
    }
    assert s[e] == tail[0] && s[e + 1] == tail[1] == unit[0];
    DigitEndAt(s, p, e);
    assert Spaces(s, e) == Some(e + 1) by {
      assert SpaceEnd(s, e + 1) == e + 1;
    }
    OccursAtShift(prefix + d, tail, unit, 1);
    assert Word(s, e + 1, unit) == Some(e + 1 + |unit|);
  }

  lemma {:induction false} DigitEndAt(s: string, i: nat, e: nat)
    requires i <= e < |s| && !IsDigit(s[e]) && forall k :: i <= k < e ==> IsDigit(s[k])
    decreases e - i
    ensures DigitEnd(s, i) == e
  {
    if i < e {
      DigitEndAt(s, i + 1, e);
    }
  }
}

=== FILE: system_info.dfy ===
/** Two small formatters of the system-information helpers: an uptime-style
    time span and the MAC address string built from the node number. */
module SystemInfo {
  import opened Text

  // ---------------------------------------------------------------------------
  // format_time_delta
  // ---------------------------------------------------------------------------

  /** The parts `format_time_delta` reports; the smallest unit is dropped from
      one hour upwards. */
  datatype Delta =
    | DeltaSeconds(total: int)
    | DeltaMinutes(minutes: nat, seconds: nat)
    | DeltaHours(hours: nat, minutes: nat)
    | DeltaDays(days: nat, hours: nat, minutes: nat)

  /** The repeated `divmod` by 60, 60 and 24, characterised by the parts it yields. */
  function DeltaOf(seconds: int): (d: Delta)
    ensures d.DeltaSeconds? <==> seconds < 60
    ensures d.DeltaSeconds? ==> d.total == seconds
    ensures d.DeltaMinutes? ==> 1 <= d.minutes < 60 && d.seconds < 60 && d.minutes * 60 + d.seconds == seconds
    ensures d.DeltaHours? ==> 1 <= d.hours < 24 && d.minutes < 60
                              && 0 <= seconds - (d.hours * 3600 + d.minutes * 60) < 60
    ensures d.DeltaDays? ==> 1 <= d.days && d.hours < 24 && d.minutes < 60
                             && 0 <= seconds - (d.days * 86400 + d.hours * 3600 + d.minutes * 60) < 60
  {
    if seconds < 60 then DeltaSeconds(seconds)
    else
      var minutes, secs := seconds / 60, seconds % 60;
      if minutes < 60 then DeltaMinutes(minutes, secs)
      else
        var hours, mins := minutes / 60, minutes % 60;
        if hours < 24 then DeltaHours(hours, mins)
        else DeltaDays(hours / 24, hours % 24, mins)
  }

  /** `format_time_delta`: every unit is spoken in the plural, whatever its
      count; below a minute the seconds, below an hour the minutes and
      seconds, below a day the hours and minutes, and otherwise the days,
      hours and minutes. */
  function FormatTimeDelta(seconds: int): (r: string)
    ensures seconds < 60 ==> r == IntToString(seconds) + " seconds"
    ensures 60 <= seconds < 3600 ==>
              r == NatToString(seconds / 60) + " minutes, " + NatToString(seconds % 60) + " seconds"
    ensures 3600 <= seconds < 86400 ==>
              r == NatToString(seconds / 3600) + " hours, " + NatToString(seconds % 3600 / 60) + " minutes"
    ensures 86400 <= seconds ==>
              r == NatToString(seconds / 86400) + " days, " + NatToString(seconds % 86400 / 3600) + " hours, "
                   + NatToString(seconds % 3600 / 60) + " minutes"
  {
    DivTwice(seconds, 60, 60);
    DivTwice(seconds, 3600, 24);
    match DeltaOf(seconds)
    case DeltaSeconds(s) => IntToString(s) + " seconds"
    case DeltaMinutes(m, s) => NatToString(m) + " minutes, " + NatToString(s) + " seconds"
    case DeltaHours(h, m) => NatToString(h) + " hours, " + NatToString(m) + " minutes"
    case DeltaDays(d, h, m) => NatToString(d) + " days, " + NatToString(h) + " hours, " + NatToString(m) + " minutes"
  }

  /** Dividing by `a` and then by `b` is dividing by `a b`, and what is left
      over from the second division is the remainder's quotient by `a`. */
  lemma DivTwice(s: int, a: int, b: int)
    requires a >= 1 && b >= 1
    ensures s / a / b == s / (a * b) && s / a % b == s % (a * b) / a
  {
    var q, r := s / (a * b), s % (a * b);
    var r1, r0 := r / a, r % a;
    assert s == (q * b + r1) * a + r0 by {
      Regroup(q, b, r1, a);
    }
    DivModUnique(s, a, q * b + r1, r0);
    DivModUnique(s / a, b, q, r1);
  }

  /** Two digit strings followed by text that does not start with a digit can
      only be equal when the digits are. */
  lemma {:induction false} DigitsPrefixUnique(a: string, x: string, b: string, y: string)
    requires AllDigits(a) && AllDigits(b)
    requires x != [] && !IsDigit(x[0]) && y != [] && !IsDigit(y[0])
    requires a + x == b + y
    ensures a == b && x == y
  {
    LeadingDigitsOf(a, x);
    LeadingDigitsOf(b, y);
    assert a == (a + x)[..|a|] == (b + y)[..|b|] == b;
    assert x == (a + x)[|a|..] == (b + y)[|b|..] == y;
  }

  /** The length of the run of digits at the start of `s`. */
  function LeadingDigits(s: string): nat {
    if s != [] && IsDigit(s[0]) then 1 + LeadingDigits(s[1..]) else 0
  }

  lemma {:induction false} LeadingDigitsOf(a: string, x: string)
    requires AllDigits(a) && x != [] && !IsDigit(x[0])
    ensures LeadingDigits(a + x) == |a|
  {
    if a == [] {
      assert a + x == x;
    } else {
      assert (a + x)[1..] == a[1..] + x;
      LeadingDigitsOf(a[1..], x);
    }
  }

  /** Below one hour nothing is lost: different spans are spoken differently. */
  lemma FormatTimeDeltaExactBelowAnHour(s: int, t: int)
    requires 60 <= s < 3600 && 60 <= t < 3600
    requires FormatTimeDelta(s) == FormatTimeDelta(t)
    ensures s == t
  {
    var ds, dt := DeltaOf(s), DeltaOf(t);
    assert !IsDigit(" minutes, "[0]) && !IsDigit(" seconds"[0]);
    TwoNumbersUnique(ds.minutes, ds.seconds, dt.minutes, dt.seconds, " minutes, ", " seconds");
  }

  /** Two numbers written with the same separator and the same ending are
      read back unambiguously. */
  lemma TwoNumbersUnique(m: nat, n: nat, m': nat, n': nat, sep: string, end: string)
    requires sep != [] && !IsDigit(sep[0]) && end != [] && !IsDigit(end[0])
    requires NatToString(m) + sep + NatToString(n) + end == NatToString(m') + sep + NatToString(n') + end
    ensures m == m' && n == n'
  {
    var a, b, a', b' := NatToString(m), NatToString(n), NatToString(m'), NatToString(n');
    ConcatAssoc(a + sep, b, end);
    ConcatAssoc(a, sep, b + end);
    ConcatAssoc(a' + sep, b', end);
    ConcatAssoc(a', sep, b' + end);
    DigitsPrefixUnique(a, sep + (b + end), a', sep + (b' + end));
    NatToStringInjective(m, m');
    CancelPrefix(sep, b + end, b' + end);
    DigitsPrefixUnique(b, end, b', end);
    NatToStringInjective(n, n');
  }

  lemma FormatTimeDeltaExamples()
    ensures FormatTimeDelta(1) == "1 seconds"
    ensures FormatTimeDelta(61) == "1 minutes, 1 seconds"
  {
  }

  lemma FormatTimeDeltaDropsSeconds()
    ensures FormatTimeDelta(3601) == FormatTimeDelta(3600) == "1 hours, 0 minutes"
  {
    assert 3601 / 60 == 60 && 3600 / 60 == 60;
  }

  // ---------------------------------------------------------------------------
  // get_mac_address
  // ---------------------------------------------------------------------------

  function Pow2(n: nat): (p: nat)
    ensures p >= 1
  {
    if n == 0 then 1 else 2 * Pow2(n - 1)
  }

  lemma {:induction false} Pow2Add(m: nat, n: nat)
    ensures Pow2(m + n) == Pow2(m) * Pow2(n)
  {
    if n > 0 {
      Pow2Add(m, n - 1);
      assert Pow2(m + n) == 2 * Pow2(m + n - 1);
    }
  }

  /** `(node >> shift) & 0xff`. */
  function ShiftByte(node: nat, shift: nat): (b: nat)
    ensures b < 256
  {
    (node / Pow2(shift)) % 256
  }

  /** Python's `range(start, stop, step)` for a positive step. */
  function Range(start: nat, stop: nat, step: nat): (r: seq<nat>)
    requires step > 0
    decreases stop - start
    ensures forall k :: 0 <= k < |r| ==> r[k] == start + k * step && r[k] < stop
    ensures start < stop ==> r != [] && stop <= start + |r| * step
  {
    if start >= stop then [] else [start] + Range(start + step, stop, step)
  }

  /** `xs[::-1]`. */
  function Reverse<T>(xs: seq<T>): (r: seq<T>)
    ensures |r| == |xs|
    ensures forall k :: 0 <= k < |xs| ==> r[k] == xs[|xs| - 1 - k]
  {
    if xs == [] then [] else Reverse(xs[1..]) + [xs[0]]
  }

  /** One two-digit hexadecimal group per shift, in the order given, joined by colons. */
  function MacFromShifts(node: nat, shifts: seq<nat>): string {
    Join(seq(|shifts|, k requires 0 <= k < |shifts| => Hex2(ShiftByte(node, shifts[k]))), ":")
  }

  /** `get_mac_address` as written: the shifts are `range(0, 2*6, 8)`, so
      the string is two groups long and decodes to the node number modulo
      2^16: only the two low bytes survive. */
  function MacAddressAsWritten(node: nat): (r: string)
    ensures |r| == 5 && r[2] == ':'
    ensures forall i :: 0 <= i < |r| && i % 3 != 2 ==> IsHexDigit(r[i])
    ensures BigEndian(ParseHexGroups(r)) == node % Pow2(16)
  {
    AsWrittenShape(node);
    MacFromShifts(node, Reverse(Range(0, 2 * 6, 8)))
  }

  /** The as-written shifts are those of a two-byte address. */
  lemma AsWrittenShape(node: nat)
    ensures var r := MacFromShifts(node, Reverse(Range(0, 2 * 6, 8)));
            |r| == 5 && r[2] == ':' && BigEndian(ParseHexGroups(r)) == node % Pow2(16)
            && forall i :: 0 <= i < |r| && i % 3 != 2 ==> IsHexDigit(r[i])
  {
    AsWrittenShifts();
    var r := MacFromShifts(node, Reverse(Range(0, 8 * 2, 8)));
    MacDecodesToLowBytes(node, 2);
    LowBytesValue(node, 2);
    MacLength(node, 2);
    assert MacFromShifts(node, Reverse(Range(0, 2 * 6, 8))) == r;
  }

  /** The six-byte address the function is named for: the shifts are
      `range(0, 6*8, 8)`, and the six groups decode to the node number
      modulo 2^48. */
  function MacAddress(node: nat): (r: string)
    ensures |r| == 17 && forall k :: 0 <= k < 5 ==> r[3 * k + 2] == ':'
    ensures forall i :: 0 <= i < |r| && i % 3 != 2 ==> IsHexDigit(r[i])
    ensures BigEndian(ParseHexGroups(r)) == node % Pow2(48)
  {
    MacDecodesToLowBytes(node, 6);
    LowBytesValue(node, 6);
    MacLength(node, 6);
    MacFromShifts(node, Reverse(Range(0, 6 * 8, 8)))
  }

  /** `n` groups of two hexadecimal digits and the colons between them. */
  lemma MacLength(node: nat, n: nat)
    requires n >= 1
    ensures var r := MacFromShifts(node, Reverse(Range(0, 8 * n, 8)));
            |r| == 3 * n - 1 && (forall k :: 0 <= k < n - 1 ==> r[3 * k + 2] == ':')
            && forall i :: 0 <= i < |r| && i % 3 != 2 ==> IsHexDigit(r[i])
  {
    ReversedByteShifts(n);
    var shifts := Reverse(Range(0, 8 * n, 8));
    var gs := seq(|shifts|, k requires 0 <= k < |shifts| => Hex2(ShiftByte(node, shifts[k])));
    JoinPairs(gs);
    JoinHexPairs(gs);
  }

  /** Joining pairs of hexadecimal digits leaves a hexadecimal digit at every
      position that is not a colon's. */
  lemma JoinHexPairs(gs: seq<string>)
    requires gs != []
    requires forall k :: 0 <= k < |gs| ==> |gs[k]| == 2 && IsHexDigit(gs[k][0]) && IsHexDigit(gs[k][1])
    ensures forall i :: 0 <= i < |Join(gs, ":")| && i % 3 != 2 ==> IsHexDigit(Join(gs, ":")[i])
  {
    JoinPairs(gs);
    var r := Join(gs, ":");
    forall i | 0 <= i < |r| && i % 3 != 2
      ensures IsHexDigit(r[i])
    {
      assert r[i] == gs[i / 3][i % 3];
    }
  }

  /** Two-character groups joined by colons: a colon at every third
      position, and elsewhere the characters of the groups in order. */
  lemma {:induction false} JoinPairs(gs: seq<string>)
    requires gs != [] && forall k :: 0 <= k < |gs| ==> |gs[k]| == 2
    ensures |Join(gs, ":")| == 3 * |gs| - 1
    ensures forall k :: 0 <= k < |gs| - 1 ==> Join(gs, ":")[3 * k + 2] == ':'
    ensures forall i :: 0 <= i < 3 * |gs| - 1 && i % 3 != 2 ==> Join(gs, ":")[i] == gs[i / 3][i % 3]
  {
    if |gs| > 1 {
      JoinPairs(gs[1..]);
      var rest := Join(gs[1..], ":");
      var r := gs[0] + ":" + rest;
      assert Join(gs, ":") == r;
      forall k | 1 <= k < |gs| - 1
        ensures r[3 * k + 2] == ':'
      {
        assert r[3 * k + 2] == rest[3 * (k - 1) + 2];
      }
      forall i | 3 <= i < 3 * |gs| - 1 && i % 3 != 2
        ensures r[i] == gs[i / 3][i % 3]
      {
        assert (i - 3) / 3 == i / 3 - 1 && (i - 3) % 3 == i % 3;
        assert r[i] == rest[i - 3] == gs[1..][(i - 3) / 3][(i - 3) % 3];
      }
    }
  }

  /** Reading a colon-separated list of two-digit hexadecimal groups back into bytes. */
  function ParseHexGroups(r: string): seq<nat>
    decreases |r|
  {
    if |r| < 2 then []
    else [HexValue(r[0]) * 16 + HexValue(r[1])] + (if |r| >= 3 then ParseHexGroups(r[3..]) else [])
  }

  /** The value of a list of bytes, most significant first. */
  function BigEndian(bytes: seq<nat>): nat {
    if bytes == [] then 0 else bytes[0] * Pow2(8 * (|bytes| - 1)) + BigEndian(bytes[1..])
  }

  lemma {:induction false} ParseJoinedGroups(gs: seq<string>)
    requires forall k :: 0 <= k < |gs| ==> |gs[k]| == 2
    ensures |ParseHexGroups(Join(gs, ":"))| == |gs|
    ensures forall k :: 0 <= k < |gs| ==> ParseHexGroups(Join(gs, ":"))[k] == HexValue(gs[k][0]) * 16 + HexValue(gs[k][1])
  {
    if |gs| == 1 {
      assert Join(gs, ":") == gs[0];
    } else if |gs| > 1 {
      ParseStep(gs[0], Join(gs[1..], ":"));
      ParseJoinedGroups(gs[1..]);
      var p := ParseHexGroups(Join(gs, ":"));
      forall k | 1 <= k < |gs|
        ensures p[k] == HexValue(gs[k][0]) * 16 + HexValue(gs[k][1])
      {
        assert gs[1..][k - 1] == gs[k];
      }
    }
  }

  /** The first group of a joined list, and the rest after its colon. */
  lemma ParseStep(g: string, rest: string)
    requires |g| == 2
    ensures ParseHexGroups(g + ":" + rest) == [HexValue(g[0]) * 16 + HexValue(g[1])] + ParseHexGroups(rest)
  {
    var s := g + ":" + rest;
    assert s[0] == g[0] && s[1] == g[1] && s[3..] == rest;
  }

  /** The address string decodes to the bytes at the given shifts. */
  lemma MacDecodes(node: nat, shifts: seq<nat>)
    ensures ParseHexGroups(MacFromShifts(node, shifts)) == seq(|shifts|, k requires 0 <= k < |shifts| => ShiftByte(node, shifts[k]))
  {
    var gs := seq(|shifts|, k requires 0 <= k < |shifts| => Hex2(ShiftByte(node, shifts[k])));
    ParseJoinedGroups(gs);
    var want := seq(|shifts|, k requires 0 <= k < |shifts| => ShiftByte(node, shifts[k]));
    forall k | 0 <= k < |shifts|
      ensures ParseHexGroups(Join(gs, ":"))[k] == want[k]
    {
      assert gs[k] == Hex2(ShiftByte(node, shifts[k]));
    }
  }

  /** `a % (p * q)` splits into the low part `a % p` and the next digit in base `q`. */
  lemma ModSplit(a: nat, p: nat, q: nat)
    requires p >= 1 && q >= 1
    ensures a % (p * q) == a % p + p * ((a / p) % q)
  {
    var r, t := a % p, a / p;
    var u, v := t / q, t % q;
    SplitStep(a, p, q, t, r, u, v);
    DivModUnique(a, p * q, u, p * v + r);
  }

  /** `a = t p + r` and `t = u q + v` give `a = u (p q) + (p v + r)` with the
      last part below `p q`. */
  lemma SplitStep(a: int, p: int, q: int, t: int, r: int, u: int, v: int)
    requires p >= 1 && q >= 1 && a == t * p + r && 0 <= r < p && t == u * q + v && 0 <= v < q
    ensures a == u * (p * q) + (p * v + r) && 0 <= p * v + r < p * q
  {
    Regroup(u, q, v, p);
    MulAtLeast(q - v, p);
  }

  lemma Regroup(u: int, q: int, v: int, p: int)
    ensures (u * q + v) * p == u * (p * q) + p * v
  {
  }

  lemma DivModUnique(a: int, d: int, q: int, r: int)
    requires d >= 1 && 0 <= r < d && a == q * d + r
    ensures a % d == r && a / d == q
  {
    var q', r' := a / d, a % d;
    assert q * d + r == q' * d + r';
    if q' < q {
      MulAtLeast(q - q', d);
      assert false;
    } else if q < q' {
      MulAtLeast(q' - q, d);
      assert false;
    }
  }

  lemma MulAtLeast(k: int, d: int)
    requires k >= 1 && d >= 0
    ensures k * d >= d
  {
  }

  /** The shifts `range(0, 8n, 8)`, reversed, are `8(n-1), ..., 8, 0`. */
  lemma ReversedByteShifts(n: nat)
    ensures |Reverse(Range(0, 8 * n, 8))| == n
    ensures forall k :: 0 <= k < n ==> Reverse(Range(0, 8 * n, 8))[k] == 8 * (n - 1 - k)
  {
    var r := Range(0, 8 * n, 8);
    if n > 0 {
      assert r[|r| - 1] == 8 * (|r| - 1);
    }
  }

  /** The low `n` bytes of `node`, most significant first. */
  function LowBytes(node: nat, n: nat): (r: seq<nat>)
    ensures |r| == n
    ensures forall k :: 0 <= k < n ==> r[k] == ShiftByte(node, 8 * (n - 1 - k))
  {
    if n == 0 then [] else [ShiftByte(node, 8 * (n - 1))] + LowBytes(node, n - 1)
  }

  /** The low `n` bytes of `node` have the value `node mod 2^(8n)`. */
  lemma {:induction false} LowBytesValue(node: nat, n: nat)
    ensures BigEndian(LowBytes(node, n)) == node % Pow2(8 * n)
  {
    if n > 0 {
      var p := Pow2(8 * (n - 1));
      var b := ShiftByte(node, 8 * (n - 1));
      LowBytesValue(node, n - 1);
      assert BigEndian(LowBytes(node, n)) == b * p + node % p;
      assert Pow2(8 * n) == p * 256 by {
        assert 8 * (n - 1) + 8 == 8 * n;
        Pow2Add(8 * (n - 1), 8);
        assert Pow2(8) == 256;
      }
      assert node % (p * 256) == node % p + p * b by {
        ModSplit(node, p, 256);
      }
    }
  }

  /** An address built from the shifts `range(0, 8n, 8)` reversed decodes to the low `n` bytes. */
  lemma MacDecodesToLowBytes(node: nat, n: nat)
    ensures ParseHexGroups(MacFromShifts(node, Reverse(Range(0, 8 * n, 8)))) == LowBytes(node, n)
  {
    ReversedByteShifts(n);
    MacDecodes(node, Reverse(Range(0, 8 * n, 8)));
  }

  lemma AsWrittenShifts()
    ensures Reverse(Range(0, 2 * 6, 8)) == Reverse(Range(0, 8 * 2, 8)) == [8, 0]
  {
    assert Range(0, 2 * 6, 8) == [0, 8];
    assert Range(0, 8 * 2, 8) == [0, 8];
  }

  /** Two machines whose node numbers differ by 2^16 get the same string from
      the code as written. */
  lemma MacAddressAsWrittenCollides(node: nat)
    ensures MacAddressAsWritten(node + 0x10000) == MacAddressAsWritten(node)
  {
    AsWrittenShifts();
    var far := node + 0x10000;
    assert Pow2(8) == 256 && Pow2(0) == 1;
    assert far / 256 == node / 256 + 256;
    assert ShiftByte(far, 8) == ShiftByte(node, 8);
    assert ShiftByte(far, 0) == ShiftByte(node, 0);
    SameBytesSameMac(far, node, [8, 0]);
  }

  /** Two node numbers with the same byte at every shift give the same string. */
  lemma SameBytesSameMac(a: nat, b: nat, shifts: seq<nat>)
    requires forall k :: 0 <= k < |shifts| ==> ShiftByte(a, shifts[k]) == ShiftByte(b, shifts[k])
    ensures MacFromShifts(a, shifts) == MacFromShifts(b, shifts)
  {
    var x := seq(|shifts|, k requires 0 <= k < |shifts| => Hex2(ShiftByte(a, shifts[k])));
    var y := seq(|shifts|, k requires 0 <= k < |shifts| => Hex2(ShiftByte(b, shifts[k])));
    assert x == y;
  }

  /** The corrected address tells apart any two node numbers that differ in their low 48 bits. */
  lemma MacAddressInjective(a: nat, b: nat)
    ensures a % Pow2(48) != b % Pow2(48) ==> MacAddress(a) != MacAddress(b)
  {
  }
}

=== FILE: text.dfy ===
/** The string operations of Python that the assistant relies on: `lower()`,
    `in`, `startswith`, `find`, `strip()`, `split()`, `sep.join(...)`,
    `str(int)`, `int(digits)`, `'{:02x}'.format(b)` and `capitalize()`.
    Case mapping and the character classes of `\w` and `\d` are ASCII only;
    whitespace is Python's full `str.isspace()` set. */
module Text {
  import opened Options

  // ---------------------------------------------------------------------------
  // Characters
  // ---------------------------------------------------------------------------

  /** Python's `str.isspace()`, which is also the class that `\s`, `strip()`
      and `split()` use on `str` values. */
  predicate IsSpace(c: char) {
    var n := c as int;
    n == 32 || 9 <= n <= 13 || 28 <= n <= 31 || n == 0x85 || n == 0xA0 || n == 0x1680
    || 0x2000 <= n <= 0x200A || n == 0x2028 || n == 0x2029 || n == 0x202F
    || n == 0x205F || n == 0x3000
  }

  predicate IsDigit(c: char) {
    '0' <= c <= '9'
  }

  predicate IsUpper(c: char) {
    'A' <= c <= 'Z'
  }

  predicate IsLowerLetter(c: char) {
    'a' <= c <= 'z'
  }

  /** The class of `\w`: letters, digits and the underscore. */
  predicate IsWordChar(c: char) {
    IsLowerLetter(c) || IsUpper(c) || IsDigit(c) || c == '_'
  }

  function LowerChar(c: char): char {
    if IsUpper(c) then (c as int + 32) as char else c
  }

  function UpperChar(c: char): char {
    if IsLowerLetter(c) then (c as int - 32) as char else c
  }

  // ---------------------------------------------------------------------------
  // Case
  // ---------------------------------------------------------------------------

  ghost predicate NoUpper(s: string) {
    forall i :: 0 <= i < |s| ==> !IsUpper(s[i])
  }

  /** `s.lower()`: every character mapped through `LowerChar`, nothing else changes. */
  function Lower(s: string): (r: string)
    ensures |r| == |s|
    ensures forall i :: 0 <= i < |s| ==> r[i] == LowerChar(s[i])
  {
    if s == [] then [] else [LowerChar(s[0])] + Lower(s[1..])
  }

  /** Lower-casing leaves no upper-case letter, and lower-casing again changes nothing. */
  lemma LowerIsLower(s: string)
    ensures NoUpper(Lower(s))
    ensures Lower(Lower(s)) == Lower(s)
  {
    assert forall i :: 0 <= i < |s| ==> Lower(Lower(s))[i] == Lower(s)[i];
  }

  /** Text without upper-case letters is its own lower-case form. */
  lemma LowerOfNoUpper(s: string)
    requires NoUpper(s)
    ensures Lower(s) == s
  {
    assert forall i :: 0 <= i < |s| ==> Lower(s)[i] == s[i];
  }

  lemma LowerAppend(a: string, b: string)
    ensures Lower(a + b) == Lower(a) + Lower(b)
  {
    assert forall i :: 0 <= i < |a + b| ==> Lower(a + b)[i] == (Lower(a) + Lower(b))[i];
  }

  /** `s.capitalize()`: first character upper-cased, the rest lower-cased. */
  function Capitalize(s: string): (r: string)
    ensures |r| == |s|
    ensures s != [] ==> r[0] == UpperChar(s[0])
    ensures forall i :: 1 <= i < |s| ==> r[i] == LowerChar(s[i])
    ensures forall i :: 1 <= i < |s| ==> !IsUpper(r[i])
    ensures s != [] ==> !IsLowerLetter(r[0])
  {
    if s == [] then [] else [UpperChar(s[0])] + Lower(s[1..])
  }

  /** `s.replace(a, b)` for single characters. */
  function ReplaceChar(s: string, a: char, b: char): (r: string)
    ensures |r| == |s|
    ensures forall i :: 0 <= i < |s| ==> r[i] == (if s[i] == a then b else s[i])
  {
    if s == [] then [] else [if s[0] == a then b else s[0]] + ReplaceChar(s[1..], a, b)
  }

  // ---------------------------------------------------------------------------
  // Substrings
  // ---------------------------------------------------------------------------

  /** `t` occurs in `s` starting at index `i`. */
  predicate OccursAt(s: string, t: string, i: int) {
    0 <= i && i + |t| <= |s| && s[i..i + |t|] == t
  }

  /** `s.startswith(p)`. */
  predicate StartsWith(s: string, p: string) {
    |p| <= |s| && s[..|p|] == p
  }

  /** `s.find(t, i)`: the first occurrence of `t` in `s` at or after `i`. */
  function IndexFrom(s: string, t: string, i: nat): (r: Option<nat>)
    decreases |s| - i
    ensures r.Some? ==> i <= r.value && OccursAt(s, t, r.value)
    ensures forall j :: i <= j && (r.None? || j < r.value) ==> !OccursAt(s, t, j)
  {
    if i + |t| > |s| then None
    else if s[i..i + |t|] == t then Some(i)
    else IndexFrom(s, t, i + 1)
  }

  /** `s.find(t)`, with `None` for Python's -1. */
  function IndexOf(s: string, t: string): (r: Option<nat>)
    ensures r.Some? ==> OccursAt(s, t, r.value)
    ensures r.Some? ==> forall j :: 0 <= j < r.value ==> !OccursAt(s, t, j)
    ensures r.None? <==> forall j :: !OccursAt(s, t, j)
  {
    IndexFrom(s, t, 0)
  }

  /** Python's `t in s`. */
  function Contains(s: string, t: string): (b: bool)
    ensures b <==> exists i :: OccursAt(s, t, i)
  {
    IndexOf(s, t).Some?
  }

  /** What `s.split(t, 1)[1]` is when `t in s`: the text after the first occurrence. */
  function After(s: string, t: string): (r: string)
    requires Contains(s, t)
    ensures exists i :: OccursAt(s, t, i) && r == s[i + |t|..]
    ensures |r| <= |s| - |t|
    ensures OccursAt(s, t, |s| - |r| - |t|) && r == s[|s| - |r|..]
    ensures forall j :: 0 <= j < |s| - |r| - |t| ==> !OccursAt(s, t, j)
  {
    var i := IndexOf(s, t).value;
    s[i + |t|..]
  }

  /** `b` occurs in `a + b + c` right after `a`. */
  lemma OccursInMiddle(a: string, b: string, c: string)
    ensures OccursAt(a + b + c, b, |a|)
    ensures Contains(a + b + c, b)
  {
    assert (a + b + c)[|a|..|a| + |b|] == b;
    assert OccursAt(a + b + c, b, |a|);
  }

  /** `any(p in text for p in phrases)`. */
  predicate ContainsAny(text: string, phrases: seq<string>) {
    phrases != [] && (Contains(text, phrases[0]) || ContainsAny(text, phrases[1..]))
  }

  lemma {:induction false} ContainsAnyIndex(text: string, phrases: seq<string>)
    ensures ContainsAny(text, phrases) <==> exists k :: 0 <= k < |phrases| && Contains(text, phrases[k])
  {
    if phrases != [] {
      ContainsAnyIndex(text, phrases[1..]);
      if ContainsAny(text, phrases[1..]) {
        var k :| 0 <= k < |phrases[1..]| && Contains(text, phrases[1..][k]);
        assert Contains(text, phrases[k + 1]);
      }
      if k :| 0 <= k < |phrases| && Contains(text, phrases[k]) {
        if k > 0 {
          assert phrases[1..][k - 1] == phrases[k];
        }
      }
    }
  }

  lemma ConcatAssoc(x: string, y: string, z: string)
    ensures x + y + z == x + (y + z)
  {
  }

  /** Equal strings with equal beginnings have equal endings. */
  lemma CancelPrefix(x: string, y: string, z: string)
    requires x + y == x + z
    ensures y == z
  {
    assert y == (x + y)[|x|..];
    assert z == (x + z)[|x|..];
  }

  /** An occurrence in the second part of a concatenation, seen from its start. */
  lemma OccursAtShift(a: string, b: string, t: string, i: int)
    requires OccursAt(b, t, i)
    ensures OccursAt(a + b, t, |a| + i)
  {
    assert (a + b)[|a| + i..|a| + i + |t|] == b[i..i + |t|];
  }

  /** What occurs in either part occurs in the concatenation. */
  lemma ContainsInConcat(a: string, b: string, t: string)
    ensures Contains(a, t) ==> Contains(a + b, t)
    ensures Contains(b, t) ==> Contains(a + b, t)
  {
    if Contains(a, t) {
      var i :| OccursAt(a, t, i);
      assert (a + b)[i..i + |t|] == a[i..i + |t|];
      assert OccursAt(a + b, t, i);
    }
    if Contains(b, t) {
      var i :| OccursAt(b, t, i);
      OccursAtShift(a, b, t, i);
    }
  }

  /** A string occurs in itself. */
  lemma ContainsSelf(s: string)
    ensures Contains(s, s)
  {
    assert OccursAt(s, s, 0);
  }

  /** A string occurs at the start of itself followed by anything. */
  lemma ContainsHead(x: string, rest: string)
    ensures Contains(x + rest, x)
  {
    ContainsSelf(x);
    ContainsInConcat(x, rest, x);
  }

  /** An occurrence inside a part of a string is an occurrence in the whole. */
  lemma ContainsInfix(s: string, t: string, lo: nat, hi: nat)
    requires lo <= hi <= |s|
    requires Contains(s[lo..hi], t)
    ensures Contains(s, t)
  {
    var i :| OccursAt(s[lo..hi], t, i);
    var u := s[lo..hi];
    var whole := s[lo + i..lo + i + |t|];
    forall m | 0 <= m < |t|
      ensures whole[m] == t[m]
    {
      assert whole[m] == s[lo + i + m] == u[i + m];
    }
    assert whole == t;
    assert OccursAt(s, t, lo + i);
  }

  /** A string lacking some character of `t` cannot contain `t`. */
  lemma NotContainsByChar(s: string, t: string, c: char)
    requires c in t && c !in s
    ensures !Contains(s, t)
  {
  }

  /** A string that contains `u`, where `u` contains `t`, contains `t`. */
  lemma ContainsTransitive(s: string, u: string, t: string)
    requires Contains(s, u) && Contains(u, t)
    ensures Contains(s, t)
  {
    var i :| OccursAt(s, u, i);
    assert s[i..i + |u|] == u;
    ContainsInfix(s, t, i, i + |u|);
  }

  // ---------------------------------------------------------------------------
  // Whitespace: strip() and split()
  // ---------------------------------------------------------------------------

  ghost predicate AllSpace(s: string) {
    forall i :: 0 <= i < |s| ==> IsSpace(s[i])
  }

  ghost predicate NoSpace(s: string) {
    forall i :: 0 <= i < |s| ==> !IsSpace(s[i])
  }

  /** No whitespace at either end: what `strip()` leaves. */
  ghost predicate Trimmed(s: string) {
    s == [] || (!IsSpace(s[0]) && !IsSpace(s[|s| - 1]))
  }

  /** The end of the whitespace run that starts at `i` (the greedy `\s*`). */
  function SpaceEnd(s: string, i: nat): (j: nat)
    requires i <= |s|
    decreases |s| - i
    ensures i <= j <= |s|
    ensures forall k :: i <= k < j ==> IsSpace(s[k])
    ensures j == |s| || !IsSpace(s[j])
  {
    if i == |s| || !IsSpace(s[i]) then i else SpaceEnd(s, i + 1)
  }

  /** The start of the whitespace run that ends at `j`, looking no further left than `lo`. */
  function SpaceStart(s: string, lo: nat, j: nat): (i: nat)
    requires lo <= j <= |s|
    decreases j - lo
    ensures lo <= i <= j
    ensures forall k :: i <= k < j ==> IsSpace(s[k])
    ensures i == lo || !IsSpace(s[i - 1])
  {
    if j == lo || !IsSpace(s[j - 1]) then j else SpaceStart(s, lo, j - 1)
  }

  /** `s.strip()`: what remains of `s` once the whitespace at both ends is removed. */
  function Strip(s: string): (r: string)
    ensures Trimmed(r)
    ensures |r| <= |s|
    ensures exists i :: 0 <= i <= |s| - |r| && s[i..i + |r|] == r
                        && AllSpace(s[..i]) && AllSpace(s[i + |r|..])
  {
    var i := SpaceEnd(s, 0);
    var j := SpaceStart(s, i, |s|);
    assert AllSpace(s[..i]) && AllSpace(s[j..]);
    s[i..j]
  }

  /** `strip()` has exactly one answer: the trimmed middle between two runs of spaces. */
  lemma StripUnique(a: string, m: string, b: string)
    requires AllSpace(a) && AllSpace(b) && Trimmed(m)
    ensures Strip(a + m + b) == m
  {
    var s := a + m + b;
    var i := SpaceEnd(s, 0);
    var j := SpaceStart(s, i, |s|);
    if m == [] {
      assert forall k :: 0 <= k < |s| ==> IsSpace(s[k]);
      assert i == |s|;
    } else {
      assert s[|a|] == m[0];
      assert forall k :: 0 <= k < |a| ==> s[k] == a[k];
      assert i == |a|;
      assert s[|a| + |m| - 1] == m[|m| - 1];
      assert forall k :: |a| + |m| <= k < |s| ==> s[k] == b[k - |a| - |m|];
      assert j == |a| + |m|;
      assert s[i..j] == m;
    }
  }

  lemma StripTrimmed(m: string)
    requires Trimmed(m)
    ensures Strip(m) == m
  {
    StripUnique([], m, []);
    assert [] + m + [] == m;
  }

  /** Stripping twice is stripping once. */
  lemma StripIdempotent(s: string)
    ensures Strip(Strip(s)) == Strip(s)
  {
    StripTrimmed(Strip(s));
  }

  /** The end of the non-space run that starts at `i`. */
  function TokenEnd(s: string, i: nat): (j: nat)
    requires i <= |s|
    decreases |s| - i
    ensures i <= j <= |s|
    ensures forall k :: i <= k < j ==> !IsSpace(s[k])
    ensures j == |s| || IsSpace(s[j])
  {
    if i == |s| || IsSpace(s[i]) then i else TokenEnd(s, i + 1)
  }

  /** `s.split()`: the maximal runs of non-space characters, in order. */
  function Words(s: string): (ws: seq<string>)
    decreases |s|
    ensures forall k :: 0 <= k < |ws| ==> ws[k] != [] && NoSpace(ws[k])
  {
    if s == [] then []
    else if IsSpace(s[0]) then Words(s[1..])
    else
      var j := TokenEnd(s, 0);
      [s[..j]] + Words(s[j..])
  }

  /** `sep.join(xs)`. */
  function Join(xs: seq<string>, sep: string): string {
    if |xs| == 0 then ""
    else if |xs| == 1 then xs[0]
    else xs[0] + sep + Join(xs[1..], sep)
  }

  /** Splitting a space-joined list of words gives the words back. */
  lemma {:induction false} WordsOfJoin(ws: seq<string>)
    requires forall k :: 0 <= k < |ws| ==> ws[k] != [] && NoSpace(ws[k])
    ensures Words(Join(ws, " ")) == ws
  {
    if |ws| == 0 {
    } else {
      var w := ws[0];
      var rest := if |ws| == 1 then "" else " " + Join(ws[1..], " ");
      var s := w + rest;
      assert Join(ws, " ") == s;
      assert s[0] == w[0];
      assert forall k :: 0 <= k < |w| ==> s[k] == w[k];
      assert |w| == |s| || s[|w|] == ' ';
      assert TokenEnd(s, 0) == |w|;
      assert s[..|w|] == w;
      assert s[|w|..] == rest;
      if |ws| == 1 {
        assert Words(rest) == [];
      } else {
        WordsOfJoin(ws[1..]);
        assert rest[1..] == Join(ws[1..], " ");
        assert Words(rest) == Words(Join(ws[1..], " "));
      }
      assert Words(s) == [w] + Words(rest);
      assert ws == [w] + ws[1..];
    }
  }

  /** Appending one more element to a non-empty join adds the separator and the element. */
  lemma {:induction false} JoinSnoc(xs: seq<string>, x: string, sep: string)
    requires |xs| >= 1
    ensures Join(xs + [x], sep) == Join(xs, sep) + sep + x
  {
    if |xs| == 1 {
      assert (xs + [x])[1..] == [x];
    } else {
      assert (xs + [x])[1..] == xs[1..] + [x];
      JoinSnoc(xs[1..], x, sep);
    }
  }

  /** Every element of a list occurs in its join. */
  lemma {:induction false} JoinContainsEach(xs: seq<string>, sep: string, k: nat)
    requires k < |xs|
    ensures Contains(Join(xs, sep), xs[k])
  {
    if |xs| == 1 {
      assert OccursAt(Join(xs, sep), xs[k], 0);
    } else if k == 0 {
      assert OccursAt(Join(xs, sep), xs[0], 0);
    } else {
      JoinContainsEach(xs[1..], sep, k - 1);
      var rest := Join(xs[1..], sep);
      var s := xs[0] + sep + rest;
      assert s[|xs[0] + sep|..|s|] == rest;
      ContainsInfix(s, xs[k], |xs[0] + sep|, |s|);
    }
  }

  // ---------------------------------------------------------------------------
  // Numbers
  // ---------------------------------------------------------------------------

  ghost predicate AllDigits(s: string) {
    forall i :: 0 <= i < |s| ==> IsDigit(s[i])
  }

  function DigitChar(d: nat): (c: char)
    requires d < 10
    ensures IsDigit(c)
  {
    ('0' as int + d) as char
  }

  function DigitValue(c: char): (d: nat)
    requires IsDigit(c)
    ensures d < 10 && DigitChar(d) == c
  {
    c as int - '0' as int
  }

  /** `str(n)` for a natural number: decimal digits without leading zeros. */
  function NatToString(n: nat): (r: string)
    ensures r != [] && AllDigits(r)
    ensures |r| > 1 ==> r[0] != '0'
  {
    if n < 10 then [DigitChar(n)] else NatToString(n / 10) + [DigitChar(n % 10)]
  }

  /** `str(i)` for any integer. */
  function IntToString(i: int): string {
    if i < 0 then "-" + NatToString(-i) else NatToString(i)
  }

  /** `int(s)` for a run of decimal digits. */
  function ParseDigits(s: string): nat
    requires AllDigits(s)
  {
    if s == [] then 0 else ParseDigits(s[..|s| - 1]) * 10 + DigitValue(s[|s| - 1])
  }

  /** Reading back the decimal form of `n` gives `n`. */
  lemma {:induction false} ParseNatToString(n: nat)
    ensures ParseDigits(NatToString(n)) == n
  {
    var r := NatToString(n);
    if n >= 10 {
      ParseNatToString(n / 10);
      assert r[..|r| - 1] == NatToString(n / 10);
    }
  }

  /** Different numbers print differently. */
  lemma NatToStringInjective(m: nat, n: nat)
    requires NatToString(m) == NatToString(n)
    ensures m == n
  {
    ParseNatToString(m);
    ParseNatToString(n);
  }

  /** A lower-case hexadecimal digit. */
  predicate IsHexDigit(c: char) {
    IsDigit(c) || 'a' <= c <= 'f'
  }

  function HexDigit(d: nat): (c: char)
    requires d < 16
    ensures IsHexDigit(c) && HexValue(c) == d
  {
    if d < 10 then DigitChar(d) else ('a' as int + d - 10) as char
  }

  function HexValue(c: char): nat {
    if IsDigit(c) then DigitValue(c)
    else if 'a' <= c <= 'f' then c as int - 'a' as int + 10
    else 0
  }

  /** `'{:02x}'.format(b)` for a byte: two lower-case hexadecimal digits. */
  function Hex2(b: nat): (r: string)
    requires b < 256
    ensures |r| == 2
    ensures IsHexDigit(r[0]) && IsHexDigit(r[1])
    ensures HexValue(r[0]) * 16 + HexValue(r[1]) == b
  {
    [HexDigit(b / 16), HexDigit(b % 16)]
  }
}

=== FILE: utility_commands.dfy ===
/** The utility handler: opening the Windows utilities, the three machine
    reports (processes, CPU, memory) and the volume keys. The reports read
    the machine through the `Host`; opening a utility and pressing a volume
    key are `Action`s. */
module UtilityCommands {
  import opened Options
  import opened Text
  import opened Scan
  import opened Patterns
  import opened Effects

  datatype Utility = ControlPanel | TaskManager | FileExplorer | RunningProcesses | CpuUsage | MemoryUsage | Volume

  /** The handler's pattern table, in insertion order. */
  const HandlerPatterns: seq<(Pattern, Utility)> := [
    (OpenControlPanel, ControlPanel),
    (OpenTaskManager, TaskManager),
    (OpenFileExplorer, FileExplorer),
    (ListProcesses, RunningProcesses),
    (ShowCpu, CpuUsage),
    (ShowMemory, MemoryUsage),
    (SetVolume, Volume)
  ]

  /** One entry of the utility table: the words that name the utility, the
      shell command that opens it and the name it is announced by. */
  datatype Mapping = Mapping(name: string, command: string, description: string)

  /** The utility table, in insertion order. */
  const Mappings: seq<Mapping> := [
    Mapping("control panel", "control", "Control Panel"),
    Mapping("task manager", "taskmgr", "Task Manager"),
    Mapping("file explorer", "explorer", "File Explorer"),
    Mapping("settings", "ms-settings:", "Windows Settings"),
    Mapping("device manager", "devmgmt.msc", "Device Manager"),
    Mapping("disk management", "diskmgmt.msc", "Disk Management"),
    Mapping("command prompt", "cmd", "Command Prompt"),
    Mapping("powershell", "powershell", "PowerShell")
  ]

  /** A keyword test of the final chain: `word` occurs, and when there are
      qualifiers, one of them occurs too. */
  datatype Cue = Cue(word: string, qualifiers: seq<string>)

  predicate Heard(lower: string, c: Cue) {
    Contains(lower, c.word) && (c.qualifiers == [] || ContainsAny(lower, c.qualifiers))
  }

  /** The keyword chain that runs when neither a pattern nor the utility
      table applied, in its order. */
  const KeywordChain: seq<(Cue, Utility)> := [
    (Cue("control panel", []), ControlPanel),
    (Cue("task manager", []), TaskManager),
    (Cue("file explorer", []), FileExplorer),
    (Cue("processes", []), RunningProcesses),
    (Cue("cpu", ["usage", "load"]), CpuUsage),
    (Cue("memory", ["usage", "load"]), MemoryUsage),
    (Cue("volume", []), Volume)
  ]

  const Unknown := "I'm not sure which utility command you want to execute. Try saying 'open Control Panel', 'open Task Manager', or 'show CPU usage'."
  const ProcessesHeading := "Here are the top processes by CPU usage: "
  const NoProcesses := "I couldn't retrieve the process list."
  /** `sorted(...)[:10]`: at most this many processes are listed. */
  const MaxListed := 10
  /** `range(5)`: how many times a volume step key is pressed. */
  const VolumeSteps := 5
  const Muted := "I've muted the volume."
  const Increased := "I've increased the volume."
  const Decreased := "I've decreased the volume."
  const LevelNotImplemented := "I'm sorry, setting volume to a specific level is not yet implemented."
  const VolumeNotSure := "I'm not sure how you want me to adjust the volume. Try saying 'volume up', 'volume down', or 'mute'."

  // ---------------------------------------------------------------------------
  // Opening a utility
  // ---------------------------------------------------------------------------

  /** `_open_utility`: the command goes to the shell, and the reply names
      the utility whether or not it could be started. */
  function OpenUtility(command: string, description: string, host: Host): (o: Outcome)
    ensures o.actions == [Shell(command)]
    ensures Contains(o.reply, description)
    ensures host.attempt(Shell(command)).None? ==> o.reply == "Opening " + description + "."
    ensures host.attempt(Shell(command)).Some? ==>
              o.reply == "I couldn't open " + description + ". Error: " + host.attempt(Shell(command)).value
  {
    match host.attempt(Shell(command))
    case None =>
      OccursInMiddle("Opening ", description, ".");
      Outcome("Opening " + description + ".", [Shell(command)])
    case Some(e) =>
      OccursInMiddle("I couldn't open ", description, ". Error: ");
      ContainsInConcat("I couldn't open " + description + ". Error: ", e, description);
      Outcome("I couldn't open " + description + ". Error: " + e, [Shell(command)])
  }

  /** A utility table entry opened. */
  function OpenMapping(m: Mapping, host: Host): (o: Outcome)
    ensures o == OpenUtility(m.command, m.description, host)
  {
    OpenUtility(m.command, m.description, host)
  }

  // ---------------------------------------------------------------------------
  // The reports
  // ---------------------------------------------------------------------------

  /** The first `n` entries, or all of them when there are fewer. */
  function Take<T>(xs: seq<T>, n: nat): (r: seq<T>)
    ensures |r| == if |xs| <= n then |xs| else n
    ensures forall k :: 0 <= k < |r| ==> r[k] == xs[k]
  {
    if |xs| <= n then xs else xs[..n]
  }

  /** Every entry of a list occurs in the list joined after a heading. */
  lemma HeadedJoinMentionsEach(heading: string, xs: seq<string>, sep: string)
    ensures forall k :: 0 <= k < |xs| ==> Contains(heading + Join(xs, sep), xs[k])
  {
    forall k | 0 <= k < |xs|
      ensures Contains(heading + Join(xs, sep), xs[k])
    {
      JoinContainsEach(xs, sep, k);
      ContainsInConcat(heading, Join(xs, sep), xs[k]);
    }
  }

  /** `_list_processes`. The machine hands over its processes already
      formatted and ordered by CPU share, highest first; the reply names the
      first ten of them. */
  function Processes(host: Host): (o: Outcome)
    ensures o.actions == []
    ensures host.topProcesses.Read? && host.topProcesses.value == [] ==> o.reply == NoProcesses
    ensures host.topProcesses.Read? ==>
              forall k :: 0 <= k < |host.topProcesses.value| && k < MaxListed ==>
                Contains(o.reply, host.topProcesses.value[k])
    ensures host.topProcesses.ProbeFailed? ==>
              o.reply == "I couldn't list the processes. Error: " + host.topProcesses.message
  {
    match host.topProcesses
    case ProbeFailed(m) => Say("I couldn't list the processes. Error: " + m)
    case Read(all) =>
      var top := Take(all, MaxListed);
      if top == [] then Say(NoProcesses)
      else
        HeadedJoinMentionsEach(ProcessesHeading, top, "; ");
        Say(ProcessesHeading + Join(top, "; "))
  }

  /** `f"Core {i}: {usage}%"`. */
  function CoreLine(i: nat, usage: string): string {
    "Core " + NatToString(i) + ": " + usage + "%"
  }

  /** One line per core, numbered from zero in the machine's order. */
  function CoreLines(perCore: seq<string>): (r: seq<string>)
    ensures |r| == |perCore|
    ensures forall i :: 0 <= i < |r| ==> r[i] == CoreLine(i, perCore[i])
  {
    seq(|perCore|, i requires 0 <= i < |perCore| => CoreLine(i, perCore[i]))
  }

  /** `_show_cpu_usage`: the overall figure and then every core's. */
  function Cpu(host: Host): (o: Outcome)
    ensures o.actions == []
    ensures host.cpuUsage.Read? ==> Contains(o.reply, host.cpuUsage.value.0)
    ensures host.cpuUsage.Read? ==>
              forall i :: 0 <= i < |host.cpuUsage.value.1| ==>
                Contains(o.reply, CoreLine(i, host.cpuUsage.value.1[i]))
    ensures host.cpuUsage.ProbeFailed? ==>
              o.reply == "I couldn't retrieve CPU usage. Error: " + host.cpuUsage.message
  {
    match host.cpuUsage
    case ProbeFailed(m) => Say("I couldn't retrieve CPU usage. Error: " + m)
    case Read((overall, perCore)) =>
      var heading := "Current CPU usage is " + overall + "% overall. " + "Per-core usage: ";
      var lines := CoreLines(perCore);
      HeadedJoinMentionsEach(heading, lines, ", ");
      OccursInMiddle("Current CPU usage is ", overall, "% overall. " + "Per-core usage: ");
      assert heading == "Current CPU usage is " + overall + ("% overall. " + "Per-core usage: ");
      ContainsInConcat(heading, Join(lines, ", "), overall);
      Say(heading + Join(lines, ", "))
  }

  /** `_show_memory_usage`: the share in use, then the gigabytes used out of
      the total. */
  function Memory(host: Host): (o: Outcome)
    ensures o.actions == []
    ensures host.memoryUsage.Read? ==> Contains(o.reply, host.memoryUsage.value.0)
    ensures host.memoryUsage.Read? ==> Contains(o.reply, host.memoryUsage.value.1)
    ensures host.memoryUsage.Read? ==> Contains(o.reply, host.memoryUsage.value.2)
    ensures host.memoryUsage.ProbeFailed? ==>
              o.reply == "I couldn't retrieve memory usage. Error: " + host.memoryUsage.message
  {
    match host.memoryUsage
    case ProbeFailed(m) => Say("I couldn't retrieve memory usage. Error: " + m)
    case Read((percent, used, total)) =>
      var third := total + " GB.";
      var second := used + (" GB out of " + third);
      var first := percent + ("%. " + ("Using " + second));
      ContainsHead(total, " GB.");
      ContainsHead(used, " GB out of " + third);
      ContainsHead(percent, "%. " + ("Using " + second));
      ContainsInConcat(" GB out of ", third, total);
      ContainsInConcat(used, " GB out of " + third, total);
      ContainsInConcat("Using ", second, total);
      ContainsInConcat("Using ", second, used);
      ContainsInConcat("%. ", "Using " + second, total);
      ContainsInConcat("%. ", "Using " + second, used);
      ContainsInConcat(percent, "%. " + ("Using " + second), total);
      ContainsInConcat(percent, "%. " + ("Using " + second), used);
      ContainsInConcat("Memory usage: ", first, total);
      ContainsInConcat("Memory usage: ", first, used);
      ContainsInConcat("Memory usage: ", first, percent);
      Say("Memory usage: " + first)
  }

  // ---------------------------------------------------------------------------
  // Volume
  // ---------------------------------------------------------------------------

  /** The presses numbered `i` up to `n` of one key, each a
      `subprocess.run(..., check=True)`: the first press that fails ends the
      loop with its error, and nothing is pressed after it. */
  function Press(key: VolumeKey, i: nat, n: nat, host: Host): (r: (seq<Action>, Option<string>))
    requires i <= n
    decreases n - i
    ensures r.0 == seq(|r.0|, _ => SendVolumeKey(key))
    ensures r.1.None? ==> |r.0| == n - i && forall k :: i <= k < n ==> host.pressKey(key, k).None?
    ensures r.1.Some? ==> 0 < |r.0| <= n - i && r.1 == host.pressKey(key, i + |r.0| - 1)
                          && forall k :: i <= k < i + |r.0| - 1 ==> host.pressKey(key, k).None?
  {
    if i == n then ([], None)
    else
      match host.pressKey(key, i)
      case Some(e) => ([SendVolumeKey(key)], Some(e))
      case None =>
        var rest := Press(key, i + 1, n, host);
        assert [SendVolumeKey(key)] + rest.0 == seq(1 + |rest.0|, _ => SendVolumeKey(key));
        ([SendVolumeKey(key)] + rest.0, rest.1)
  }

  /** What pressing `key` up to `n` times promises: the same key each time;
      all `n` presses and the `done` reply when every press succeeds;
      otherwise presses up to and including the first that fails, and that
      press's error. */
  ghost predicate Pressed(o: Outcome, key: VolumeKey, n: nat, done: string, host: Host) {
    o.actions == seq(|o.actions|, _ => SendVolumeKey(key)) && |o.actions| <= n
    && ((forall k :: 0 <= k < n ==> host.pressKey(key, k).None?) ==> o == Outcome(done, o.actions) && |o.actions| == n)
    && (!(forall k :: 0 <= k < n ==> host.pressKey(key, k).None?) ==>
          0 < |o.actions| && host.pressKey(key, |o.actions| - 1).Some?
          && o.reply == "I couldn't adjust the volume. Error: " + host.pressKey(key, |o.actions| - 1).value
          && forall k :: 0 <= k < |o.actions| - 1 ==> host.pressKey(key, k).None?)
  }

  /** The presses and the reply that follows them. */
  function Keys(key: VolumeKey, n: nat, done: string, host: Host): (o: Outcome)
    ensures Pressed(o, key, n, done, host)
  {
    var r := Press(key, 0, n, host);
    match r.1
    case None => Outcome(done, r.0)
    case Some(e) => Outcome("I couldn't adjust the volume. Error: " + e, r.0)
  }

  /** `_adjust_volume`. "mute" is looked for before "up", "up" before "down" and
      "down" before "to"; only Windows presses keys, and elsewhere the three
      key requests end in the closing "not sure" reply. */
  function AdjustVolume(text: string, host: Host): (o: Outcome)
    ensures !host.platform.Windows? ==> o.actions == []
    ensures Contains(Lower(text), "mute") && host.platform.Windows? ==> Pressed(o, Mute, 1, Muted, host)
    ensures (!Contains(Lower(text), "mute") && Contains(Lower(text), "up") && host.platform.Windows?) ==>
              Pressed(o, Up, VolumeSteps, Increased, host)
    ensures (!Contains(Lower(text), "mute") && !Contains(Lower(text), "up") && Contains(Lower(text), "down")
             && host.platform.Windows?) ==> Pressed(o, Down, VolumeSteps, Decreased, host)
    ensures (!Contains(Lower(text), "mute") && !Contains(Lower(text), "up") && !Contains(Lower(text), "down")
             && Contains(Lower(text), "to")) ==> o == Say(LevelNotImplemented)
    ensures ((Contains(Lower(text), "mute") || Contains(Lower(text), "up") || Contains(Lower(text), "down"))
             && !host.platform.Windows?) ==> o == Say(VolumeNotSure)
    ensures (!Contains(Lower(text), "mute") && !Contains(Lower(text), "up") && !Contains(Lower(text), "down")
             && !Contains(Lower(text), "to")) ==> o == Say(VolumeNotSure)
  {
    var lower := Lower(text);
    if Contains(lower, "mute") then
      if host.platform.Windows? then Keys(Mute, 1, Muted, host) else Say(VolumeNotSure)
    else if Contains(lower, "up") then
      if host.platform.Windows? then Keys(Up, VolumeSteps, Increased, host) else Say(VolumeNotSure)
    else if Contains(lower, "down") then
      if host.platform.Windows? then Keys(Down, VolumeSteps, Decreased, host) else Say(VolumeNotSure)
    else if Contains(lower, "to") then Say(LevelNotImplemented)
    else Say(VolumeNotSure)
  }

  /** A volume request presses at most five keys, all the same, and reaches
      the fifth only when the first four presses of that key succeeded. */
  lemma PressCounts(text: string, host: Host)
    ensures var o := AdjustVolume(text, host);
            |o.actions| <= VolumeSteps && forall a :: a in o.actions ==> a == o.actions[0]
    ensures var o := AdjustVolume(text, host);
            |o.actions| == VolumeSteps ==>
              o.actions[0].SendVolumeKey? && forall k :: 0 <= k < VolumeSteps - 1 ==> host.pressKey(o.actions[0].key, k).None?
  {
  }

  // ---------------------------------------------------------------------------
  // Dispatch
  // ---------------------------------------------------------------------------

  /** `re.match` of each handler pattern against the router's matched text. */
  function Anchored(matched: string): (r: Option<Utility>)
    ensures r.Some? ==> exists k :: 0 <= k < |HandlerPatterns| && r.value == HandlerPatterns[k].1
                                    && MatchStart(HandlerPatterns[k].0, matched).Some?
                                    && forall j :: 0 <= j < k ==> MatchStart(HandlerPatterns[j].0, matched).None?
    ensures r.None? <==> forall k :: 0 <= k < |HandlerPatterns| ==> MatchStart(HandlerPatterns[k].0, matched).None?
  {
    var k :- First(HandlerPatterns, (e: (Pattern, Utility)) => MatchStart(e.0, matched).Some?);
    Some(HandlerPatterns[k].1)
  }

  /** `re.search` of each handler pattern in the lower-cased text. */
  function Searched(lower: string): (r: Option<Utility>)
    ensures r.Some? ==> exists k :: 0 <= k < |HandlerPatterns| && r.value == HandlerPatterns[k].1
                                    && Find(HandlerPatterns[k].0, lower).Some?
                                    && forall j :: 0 <= j < k ==> Find(HandlerPatterns[j].0, lower).None?
    ensures r.None? <==> forall k :: 0 <= k < |HandlerPatterns| ==> Find(HandlerPatterns[k].0, lower).None?
  {
    var k :- First(HandlerPatterns, (e: (Pattern, Utility)) => Find(e.0, lower).Some?);
    Some(HandlerPatterns[k].1)
  }

  /** The utility table loop: the first entry whose name the text contains,
      provided the text also says "open". */
  function ByMapping(lower: string): (r: Option<Mapping>)
    ensures r.Some? ==> Contains(lower, "open")
    ensures r.Some? ==> exists k :: 0 <= k < |Mappings| && r.value == Mappings[k] && Contains(lower, Mappings[k].name)
                                    && forall j :: 0 <= j < k ==> !Contains(lower, Mappings[j].name)
    ensures r.None? <==> !Contains(lower, "open") || forall k :: 0 <= k < |Mappings| ==> !Contains(lower, Mappings[k].name)
  {
    var k :- First(Mappings, (m: Mapping) => Contains(lower, m.name) && Contains(lower, "open"));
    Some(Mappings[k])
  }

  /** The `if`/`elif` chain over keywords. */
  function ByKeyword(lower: string): (r: Option<Utility>)
    ensures r.Some? ==> exists k :: 0 <= k < |KeywordChain| && r.value == KeywordChain[k].1 && Heard(lower, KeywordChain[k].0)
                                    && forall j :: 0 <= j < k ==> !Heard(lower, KeywordChain[j].0)
    ensures r.None? <==> forall k :: 0 <= k < |KeywordChain| ==> !Heard(lower, KeywordChain[k].0)
  {
    var k :- First(KeywordChain, (e: (Cue, Utility)) => Heard(lower, e.0));
    Some(KeywordChain[k].1)
  }

  /** A utility's handler. Every handler reads the whole text, never the match. */
  function Run(u: Utility, text: string, host: Host): (o: Outcome)
    ensures u == ControlPanel ==> o == OpenUtility("control", "Control Panel", host)
    ensures u == TaskManager ==> o == OpenUtility("taskmgr", "Task Manager", host)
    ensures u == FileExplorer ==> o == OpenUtility("explorer", "File Explorer", host)
    ensures u == RunningProcesses ==> o == Processes(host)
    ensures u == CpuUsage ==> o == Cpu(host)
    ensures u == MemoryUsage ==> o == Memory(host)
    ensures u == Volume ==> o == AdjustVolume(text, host)
  {
    match u
    case ControlPanel => OpenUtility("control", "Control Panel", host)
    case TaskManager => OpenUtility("taskmgr", "Task Manager", host)
    case FileExplorer => OpenUtility("explorer", "File Explorer", host)
    case RunningProcesses => Processes(host)
    case CpuUsage => Cpu(host)
    case MemoryUsage => Memory(host)
    case Volume => AdjustVolume(text, host)
  }

  /** `UtilityCommands.process`: the anchored table, the searched table, the
      utility table and the keyword chain, each consulted only when the one
      before found nothing. */
  function Process(text: string, hit: Option<Hit>, host: Host): (o: Outcome)
    ensures hit.Some? && Anchored(hit.value.matched).Some? ==> o == Run(Anchored(hit.value.matched).value, text, host)
    ensures (hit.None? || Anchored(hit.value.matched).None?) && Searched(Lower(text)).Some? ==>
              o == Run(Searched(Lower(text)).value, text, host)
    ensures ((hit.None? || Anchored(hit.value.matched).None?) && Searched(Lower(text)).None?
             && ByMapping(Lower(text)).Some?) ==> o == OpenMapping(ByMapping(Lower(text)).value, host)
    ensures ((hit.None? || Anchored(hit.value.matched).None?) && Searched(Lower(text)).None?
             && ByMapping(Lower(text)).None? && ByKeyword(Lower(text)).Some?) ==>
              o == Run(ByKeyword(Lower(text)).value, text, host)
    ensures ((hit.None? || Anchored(hit.value.matched).None?) && Searched(Lower(text)).None?
             && ByMapping(Lower(text)).None? && ByKeyword(Lower(text)).None?) ==> o == Say(Unknown)
  {
    var lower := Lower(text);
    if hit.Some? && Anchored(hit.value.matched).Some? then Run(Anchored(hit.value.matched).value, text, host)
    else if Searched(lower).Some? then Run(Searched(lower).value, text, host)
    else if ByMapping(lower).Some? then OpenMapping(ByMapping(lower).value, host)
    else if ByKeyword(lower).Some? then Run(ByKeyword(lower).value, text, host)
    else Say(Unknown)
  }

  /** Once no pattern matched, a text that says "control panel" opens the
      Control Panel: through the utility table when it also says "open",
      through the keyword chain otherwise. */
  lemma ControlPanelAlwaysOpens(text: string, host: Host)
    requires Searched(Lower(text)).None?
    requires Contains(Lower(text), "control panel")
    ensures Process(text, None, host).actions == [Shell("control")]
  {
    var lower := Lower(text);
    if Contains(lower, "open") {
      assert Contains(lower, Mappings[0].name);
      assert ByMapping(lower) == Some(Mappings[0]);
    } else {
      assert Heard(lower, KeywordChain[0].0);
      assert ByKeyword(lower) == Some(ControlPanel);
    }
  }

  /** No handler reached through a table opens Windows Settings. */
  lemma RunNeverOpensSettings(u: Utility, text: string, host: Host)
    ensures Shell("ms-settings:") !in Run(u, text, host).actions
  {
    assert |"ms-settings:"| == 12;
    assert |"control"| == 7 && |"taskmgr"| == 7 && |"explorer"| == 8;
  }

  /** The utility handler only ever runs the shell or presses volume keys. */
  lemma ProcessOnlyUtilities(text: string, hit: Option<Hit>, host: Host)
    ensures forall a :: a in Process(text, hit, host).actions ==> a.Shell? || a.SendVolumeKey?
  {
    var lower := Lower(text);
    if hit.Some? && Anchored(hit.value.matched).Some? {
      RunOnlyUtilities(Anchored(hit.value.matched).value, text, host);
    } else if Searched(lower).Some? {
      RunOnlyUtilities(Searched(lower).value, text, host);
    } else if ByMapping(lower).Some? {
    } else if ByKeyword(lower).Some? {
      RunOnlyUtilities(ByKeyword(lower).value, text, host);
    }
  }

  /** Every handler either runs one shell command or presses volume keys. */
  lemma RunOnlyUtilities(u: Utility, text: string, host: Host)
    ensures forall a :: a in Run(u, text, host).actions ==> a.Shell? || a.SendVolumeKey?
  {
  }

  /** Windows Settings is only ever opened through the utility table, so
      only for a text that says "open". */
  lemma SettingsNeedsOpen(text: string, hit: Option<Hit>, host: Host)
    requires !Contains(Lower(text), "open")
    ensures Shell("ms-settings:") !in Process(text, hit, host).actions
  {
    var lower := Lower(text);
    assert ByMapping(lower).None?;
    if hit.Some? && Anchored(hit.value.matched).Some? {
      RunNeverOpensSettings(Anchored(hit.value.matched).value, text, host);
    } else if Searched(lower).Some? {
      RunNeverOpensSettings(Searched(lower).value, text, host);
    } else if ByKeyword(lower).Some? {
      RunNeverOpensSettings(ByKeyword(lower).value, text, host);
    }
  }
}

=== FILE: voice_recognition.dfy ===
/** The text side of wake-word detection and the recogniser's error counter.
    Microphone capture and the speech service are reduced to the outcome
    they report; what the recogniser does with that outcome is modelled. */
module VoiceRecognition {
  import opened Options
  import opened Text
  import opened Scan
  import opened Effects

  const WakeWord := "nova"
  const AlternateWakePhrases: seq<string> := ["hey nova", "hi nova", "hello nova", "hey nowa", "hi nowa"]
  const MaxConsecutiveErrors := 3

  /** The phrases in the order `detect_wake_word_and_command` tries them. */
  const WakePhrases: seq<string> := [WakeWord] + AlternateWakePhrases

  // ---------------------------------------------------------------------------
  // Wake phrases in text
  // ---------------------------------------------------------------------------

  /** `detect_wake_word`'s test on the recognised text: the wake word, or any
      of the alternate phrases. */
  function HeardWake(text: string): (b: bool)
    ensures b <==> exists k :: 0 <= k < |WakePhrases| && Contains(text, WakePhrases[k])
  {
    ContainsAnyIndex(text, WakePhrases);
    ContainsAny(text, WakePhrases)
  }

  /** Three of the alternates contain the wake word itself, so only the two
      "nowa" spellings add anything. */
  lemma WakeReduces(text: string)
    ensures HeardWake(text) <==> Contains(text, "nova") || Contains(text, "hey nowa") || Contains(text, "hi nowa")
  {
    WakePhrasesListed();
    if HeardWake(text) {
      var k :| 0 <= k < |WakePhrases| && Contains(text, WakePhrases[k]);
      if 1 <= k <= 3 {
        NovaInPhrase(k);
        ContainsTransitive(text, WakePhrases[k], "nova");
      }
    }
  }

  lemma WakePhrasesListed()
    ensures WakePhrases[0] == "nova" && WakePhrases[4] == "hey nowa" && WakePhrases[5] == "hi nowa"
  {
  }

  /** "hey nova", "hi nova" and "hello nova" end in the wake word. */
  lemma NovaInPhrase(k: nat)
    requires 1 <= k <= 3
    ensures Contains(WakePhrases[k], "nova")
  {
    var p := WakePhrases[k];
    assert p[|p| - 4..] == "nova";
    assert OccursAt(p, "nova", |p| - 4);
  }

  /** What follows `phrase` at the start of `text`, trimmed, when that is not empty. */
  function CommandAfter(text: string, phrase: string): (r: Option<string>)
    ensures r.Some? <==> StartsWith(text, phrase) && Strip(text[|phrase|..]) != []
    ensures r.Some? ==> r.value == Strip(text[|phrase|..])
  {
    if StartsWith(text, phrase) && Strip(text[|phrase|..]) != [] then Some(Strip(text[|phrase|..])) else None
  }

  /** The text part of `detect_wake_word_and_command`: the wake word is tried
      first, then the alternates in list order; the first phrase that starts
      the text and leaves a non-empty command wins. There is no word-boundary
      check: "novak x" yields "k x". */
  function ExtractCommand(text: string): (r: Option<string>)
    ensures r.Some? ==> r.value != [] && Trimmed(r.value)
    ensures r.Some? ==> exists k :: 0 <= k < |WakePhrases| && StartsWith(text, WakePhrases[k])
                                    && r.value == Strip(text[|WakePhrases[k]|..])
    ensures r.None? <==> forall k :: 0 <= k < |WakePhrases| ==> CommandAfter(text, WakePhrases[k]).None?
  {
    var k :- First(WakePhrases, (p: string) => CommandAfter(text, p).Some?);
    CommandAfter(text, WakePhrases[k])
  }

  /** No wake phrase is a prefix of another, and at any text at most one of
      them matches at the start. */
  lemma WakePhrasesPrefixFree(text: string, i: nat, j: nat)
    requires i < |WakePhrases| && j < |WakePhrases|
    requires StartsWith(text, WakePhrases[i]) && StartsWith(text, WakePhrases[j])
    ensures i == j
  {
    var p, q := WakePhrases[i], WakePhrases[j];
    assert text[..|p|][0] == text[0] && text[..|q|][0] == text[0];
    if i != 0 && j != 0 {
      // every phrase but the wake word is at least seven characters long;
      // indexes 1, 2, 5 and 6 tell them apart
      assert text[..|p|][1] == text[1] && text[..|q|][1] == text[1];
      assert text[..|p|][2] == text[2] && text[..|q|][2] == text[2];
      assert text[..|p|][5] == text[5] && text[..|q|][5] == text[5];
      assert text[..|p|][6] == text[6] && text[..|q|][6] == text[6];
    }
  }

  /** Because the phrases are prefix-free, trying them in list order finds the
      same phrase as trying them longest first: the one phrase that starts the
      text. Speaking a wake phrase, a space and a command yields the command. */
  lemma ExtractCommandRoundTrip(k: nat, command: string)
    requires k < |WakePhrases|
    requires command != [] && Trimmed(command)
    ensures ExtractCommand(WakePhrases[k] + " " + command) == Some(command)
  {
    var w := WakePhrases[k];
    var text := w + " " + command;
    assert text[..|w|] == w;
    assert text[|w|..] == " " + command;
    StripUnique(" ", command, []);
    assert " " + command + [] == " " + command;
    assert CommandAfter(text, w) == Some(command);
    var r := ExtractCommand(text);
    var m :| 0 <= m < |WakePhrases| && StartsWith(text, WakePhrases[m])
             && r.value == Strip(text[|WakePhrases[m]|..]);
    WakePhrasesPrefixFree(text, m, k);
  }

  // ---------------------------------------------------------------------------
  // The recogniser's error counter
  // ---------------------------------------------------------------------------

  datatype Recognizer = Recognizer(consecutiveErrors: nat)

  /** How `recognizer.listen` ended. */
  datatype Capture = Captured | WaitTimeout | CaptureFailed

  /** One microphone session: whether `adjust_for_ambient_noise` returns
      normally if it is called, and how the capture ends if it is reached. */
  datatype Session = Session(calibrates: bool, capture: Capture)

  /** How `recognize_google` ended. */
  datatype Recognition = Transcript(text: string) | Unintelligible | ServiceError | RecognitionFailed

  /** `listen_for_audio`: the state after the call, whether the counter was
      reset by a recalibration for ambient noise, and whether audio came back. */
  datatype Listened = Listened(state: Recognizer, recalibrated: bool, audio: bool)

  /** A recalibration is due once the counter exceeds the threshold. If it
      raises, the handler that follows skips both the reset and the capture
      and counts one more error. */
  function ListenForAudio(st: Recognizer, s: Session): (r: Listened)
    ensures r.recalibrated <==> st.consecutiveErrors > MaxConsecutiveErrors && s.calibrates
    ensures r.audio <==> s.capture.Captured? && (st.consecutiveErrors <= MaxConsecutiveErrors || s.calibrates)
    ensures st.consecutiveErrors > MaxConsecutiveErrors && !s.calibrates
            ==> r.state.consecutiveErrors == st.consecutiveErrors + 1
    ensures st.consecutiveErrors <= MaxConsecutiveErrors || s.calibrates
            ==> var base := if r.recalibrated then 0 else st.consecutiveErrors;
                r.state.consecutiveErrors == if s.capture.CaptureFailed? then base + 1 else base
  {
    var due := st.consecutiveErrors > MaxConsecutiveErrors;
    if due && !s.calibrates then Listened(Recognizer(st.consecutiveErrors + 1), false, false)
    else
      var st' := if due then Recognizer(0) else st;
      match s.capture
      case Captured => Listened(st', due, true)
      case WaitTimeout => Listened(st', due, false)
      case CaptureFailed => Listened(Recognizer(st'.consecutiveErrors + 1), due, false)
  }

  /** `recognize_speech`: the state after the call and the lower-cased text. */
  function RecognizeSpeech(st: Recognizer, audio: bool, rec: Recognition): (r: (Recognizer, Option<string>))
    ensures !audio ==> r == (st, None)
    ensures audio && rec.Transcript? ==> r == (Recognizer(0), Some(Lower(rec.text)))
    ensures audio && rec.Unintelligible? ==> r == (st, None)
    ensures audio && (rec.ServiceError? || rec.RecognitionFailed?)
            ==> r == (Recognizer(st.consecutiveErrors + 1), None)
  {
    if !audio then (st, None)
    else match rec
      case Transcript(text) => (Recognizer(0), Some(Lower(text)))
      case Unintelligible => (st, None)
      case _ => (Recognizer(st.consecutiveErrors + 1), None)
  }

  /** One capture followed by recognition, as every listening entry point does
      it; an empty transcript counts as nothing heard (`if not text`). */
  datatype Heard = Heard(state: Recognizer, recalibrated: bool, text: Option<string>)

  function Hear(st: Recognizer, s: Session, rec: Recognition): (h: Heard)
    ensures h.text.Some? ==> h.text.value != [] && NoUpper(h.text.value)
    ensures h.recalibrated <==> st.consecutiveErrors > MaxConsecutiveErrors && s.calibrates
    ensures h.state.consecutiveErrors <= (if h.recalibrated then 0 else st.consecutiveErrors) + 1
    ensures h.text.Some? ==> h.state.consecutiveErrors == 0
  {
    var l := ListenForAudio(st, s);
    var (st', text) := RecognizeSpeech(l.state, l.audio, rec);
    LowerIsLower(if rec.Transcript? then rec.text else []);
    Heard(st', l.recalibrated, if text.Some? && text.value != [] then text else None)
  }

  /** `detect_wake_word`: the state after listening and whether a wake phrase was heard. */
  function DetectWakeWord(st: Recognizer, s: Session, rec: Recognition): (r: (Recognizer, bool))
    ensures r.1 <==> Hear(st, s, rec).text.Some? && HeardWake(Hear(st, s, rec).text.value)
  {
    var h := Hear(st, s, rec);
    (h.state, h.text.Some? && HeardWake(h.text.value))
  }

  /** `detect_wake_word_and_command`: the state after listening, the command
      if one was extracted, and whether `on_wake_word_detected` fired. */
  datatype WakeAndCommand = WakeAndCommand(state: Recognizer, command: Option<string>, announced: bool)

  /** As written: the announcement fires whenever text was heard and no command
      was extracted from it, whether or not it held a wake phrase. */
  function DetectWakeWordAndCommandAsWritten(st: Recognizer, s: Session, rec: Recognition): (r: WakeAndCommand)
    ensures r.command.Some? ==> Hear(st, s, rec).text.Some? && !r.announced
                                && r.command == ExtractCommand(Hear(st, s, rec).text.value)
    ensures r.announced <==> Hear(st, s, rec).text.Some? && ExtractCommand(Hear(st, s, rec).text.value).None?
  {
    var h := Hear(st, s, rec);
    if h.text.None? then WakeAndCommand(h.state, None, false)
    else
      var command := ExtractCommand(h.text.value);
      if command.Some? then WakeAndCommand(h.state, command, false)
      else WakeAndCommand(h.state, None, true)
  }

  /** Ordinary speech without any wake phrase still triggers the wake-word
      acknowledgement in the code as written, while the corrected detection
      stays silent. */
  lemma AnnouncesWithoutWakeWord(st: Recognizer, text: string)
    requires text != [] && NoUpper(text) && !HeardWake(text)
    ensures DetectWakeWordAndCommandAsWritten(st, Session(true, Captured), Transcript(text)).announced
    ensures !DetectWakeWordAndCommand(st, Session(true, Captured), Transcript(text)).announced
  {
    LowerOfNoUpper(text);
    NoWakeNoCommand(text);
  }

  /** A text that contains no wake phrase does not start with one either. */
  lemma NoWakeNoCommand(text: string)
    requires !HeardWake(text)
    ensures ExtractCommand(text).None?
  {
  }

  /** "open chrome" is such a text. */
  lemma OpenChromeIsLower()
    ensures NoUpper("open chrome")
  {
  }

  lemma NoWakeInOpenChrome()
    ensures !HeardWake("open chrome")
  {
    OpenChromeLacks("nova", 'v');
    OpenChromeLacks("hey nowa", 'y');
    OpenChromeLacks("hi nowa", 'w');
    WakeReduces("open chrome");
  }

  lemma OpenChromeLacks(phrase: string, c: char)
    requires c in phrase && c in "vyw"
    ensures !Contains("open chrome", phrase)
  {
    NotContainsByChar("open chrome", phrase, c);
  }

  /** The behaviour the comment at the end of the function describes: the
      announcement fires only when a wake phrase was heard without a command. */
  function DetectWakeWordAndCommand(st: Recognizer, s: Session, rec: Recognition): (r: WakeAndCommand)
    ensures r.command.Some? ==> Hear(st, s, rec).text.Some? && !r.announced
                                && r.command == ExtractCommand(Hear(st, s, rec).text.value)
    ensures r.announced <==> Hear(st, s, rec).text.Some? && HeardWake(Hear(st, s, rec).text.value)
                             && ExtractCommand(Hear(st, s, rec).text.value).None?
  {
    var h := Hear(st, s, rec);
    if h.text.None? then WakeAndCommand(h.state, None, false)
    else
      var command := ExtractCommand(h.text.value);
      if command.Some? then WakeAndCommand(h.state, command, false)
      else WakeAndCommand(h.state, None, HeardWake(h.text.value))
  }

  /** A command is only ever extracted from text that starts with a wake
      phrase, so the corrected announcement never fires on a command and a
      command always comes with a heard wake phrase. */
  lemma CommandImpliesWake(st: Recognizer, s: Session, rec: Recognition)
    requires DetectWakeWordAndCommand(st, s, rec).command.Some?
    ensures HeardWake(Hear(st, s, rec).text.value)
  {
    var text := Hear(st, s, rec).text.value;
    var cmd := ExtractCommand(text);
    var k :| 0 <= k < |WakePhrases| && StartsWith(text, WakePhrases[k]) && cmd.value == Strip(text[|WakePhrases[k]|..]);
    var p := WakePhrases[k];
    assert OccursAt(text, p, 0);
    assert Contains(text, WakePhrases[k]);
  }

  /** `listen_for_command`: the announcement always fires first, then one capture. */
  function ListenForCommand(st: Recognizer, s: Session, rec: Recognition): (r: (Recognizer, seq<Action>, Option<string>))
    ensures r.1 == [Announce]
    ensures r.2 == Hear(st, s, rec).text
  {
    var h := Hear(st, s, rec);
    (h.state, [Announce], h.text)
  }

  // ---------------------------------------------------------------------------
  // Many listening rounds
  // ---------------------------------------------------------------------------

  /** One listening round: a microphone session and, when audio came back, a recognition. */
  datatype Round = Round(session: Session, recognition: Recognition)

  /** A round that can add to the counter: a recalibration that would raise,
      a failed capture, or a failed recognition of captured audio. */
  predicate Failed(r: Round) {
    !r.session.calibrates || r.session.capture.CaptureFailed?
    || (r.session.capture.Captured? && (r.recognition.ServiceError? || r.recognition.RecognitionFailed?))
  }

  function Failures(rounds: seq<Round>): nat {
    if rounds == [] then 0 else Failures(rounds[..|rounds| - 1]) + (if Failed(rounds[|rounds| - 1]) then 1 else 0)
  }

  /** Rounds whose recalibration would raise if it were due. */
  function CalibrationFailures(rounds: seq<Round>): nat {
    if rounds == [] then 0
    else CalibrationFailures(rounds[..|rounds| - 1]) + (if rounds[|rounds| - 1].session.calibrates then 0 else 1)
  }

  /** Feeds the rounds to the recogniser one after another. The counter exceeds
      one more than the threshold only by recalibrations that raised, and every
      recalibration is paid for by four failures that the counter had
      accumulated. */
  method Replay(start: Recognizer, rounds: seq<Round>) returns (final: Recognizer, recalibrations: nat)
    requires start.consecutiveErrors <= MaxConsecutiveErrors + 1
    ensures final.consecutiveErrors <= MaxConsecutiveErrors + 1 + CalibrationFailures(rounds)
    ensures 4 * recalibrations + final.consecutiveErrors <= start.consecutiveErrors + Failures(rounds)
  {
    final, recalibrations := start, 0;
    var i := 0;
    while i < |rounds|
      invariant 0 <= i <= |rounds|
      invariant final.consecutiveErrors <= MaxConsecutiveErrors + 1 + CalibrationFailures(rounds[..i])
      invariant 4 * recalibrations + final.consecutiveErrors <= start.consecutiveErrors + Failures(rounds[..i])
    {
      var round := rounds[i];
      var h := Hear(final, round.session, round.recognition);
      assert rounds[..i + 1][..i] == rounds[..i];
      if h.recalibrated {
        recalibrations := recalibrations + 1;
      }
      final := h.state;
      i := i + 1;
    }
    assert rounds[..i] == rounds;
  }
}
